=== FILE: README.md ===
# A verified model of a Mappy-style platform game

The game is a pygame remake of the arcade game *Mappy*. The player, a police mouse, runs across rows of platforms in a mansion. Trampolines bounce it between floors, and a trampoline breaks on its third bounce. The player collects loot: two items of each of five types, with a bonus for picking up two items of the same type in a row. Cat enemies (the "meowkies") spawn from the top of the level. Doors can be opened onto the enemies to stun them. Special doors send out a shock wave that stuns every enemy it crosses. A round is cleared when no loot is left. A miss costs a life: the player is caught by an enemy or falls below the lowest floor. After the last life the game ends on a scores screen, where the player enters three letters.

The model is written one Dafny module per source file:

- `Geometry` is pygame's `Rect`: collisions, point tests, the position setters, `clamp_ip` and tuple order.
- `Basics` is the ordered sprite group (`Group.remove`).
- `Platforms` and `Walls` are immutable structures.
- `Entities` holds the shared actor class for the player and the enemies.
- `Trampolines`, `Items`, `Doors` and `Waves` are classes whose fields are updated in place.
- `PlayerRules` and `EnemyRules` are the player's and the enemy's `update_on_level`.
- `Helpers` holds the round-to-template table and the random item and door generators.
- `Layout` and `Levels` cover the level: how it is built from its grids, one frame of play, enemy spawning and scrolling.
- `HudScene` and `Scores` are the score display and the scores screen.
- `GameLoop` is the scene machine of `Game`: start, level, block, change, reset, game over, game-over screen, scores and pause.

Where the source draws random numbers, the model takes the draws as parameters, so every possible draw is covered. The jump arc is computed in floating point in the source; the model takes it as a function parameter. Lengths are pixels and time is frames (60 per second).

Some observations the model follows the code on:

- A new game has four lives. A miss moves on to the reset scene while the lives left are not negative. So the first four misses restart the round and the fifth ends the game (`GameLoop.FifthMissEndsGame`). A reading of "four lives, game over on the fourth miss" is not what the code does; the model follows the code.
- `update` in levels/level.py can remove an enemy twice in one frame. This happens when its stun runs out on the same frame it is below the lowest floor. The sprite group ignores the second removal, but the spawned count goes down twice. The model keeps this: `Levels.Level.Update` only promises that the spawned count never rises relative to the enemies present.
- After a miss, core/game.py:236 shifts the camera by `-|width - (600 + |offset| - 60)|`. That returns it to the start position 540 - width only from offsets between the start and 0. The camera can pass either end by less than one step, and then the reset misses the start by up to twice that distance (`GameLoop.CameraResetReturns`). The model keeps the formula as written.
- The scores table sorts by (score, round) from high to low. Python's sort is stable, so the player who just finished lands after every saved entry that ranks the same (`Scores.CurrentLands`).

## Model

| member | source | states |
|---|---|---|
| Basics.Without | levels/level.py:240-249 | removing `x` from a group drops `x`, keeps every other member in order, and leaves a group without `x` unchanged |
| Basics.WithoutMember | levels/level.py:240-241 | removing a member of a duplicate-free group shortens it by exactly one and keeps it duplicate-free |
| Basics.WithoutDistinct | levels/level.py:248-250 | removing from a duplicate-free group keeps it duplicate-free, member or not |
| Geometry.Clamp | entities/mappy.py:28-31 | `clamp_ip` keeps the size, puts a rectangle that fits inside the bounds, and leaves one already inside alone |
| Geometry.LexLessTotal | entities/meowky.py:40-43 | the rectangle comparison the enemy uses to pick a side is a strict total order |
| Platforms.NewPlatform | structures/platform.py:10-25 | the platform's top-left corner is (x, y) with the given width; a `floor` platform has the given height, any other is 15 pixels taller |
| Platforms.ShiftPlatforms | levels/level.py:268-281 | scrolling moves every platform sideways by `dx` and changes nothing else |
| Entities.LateralMove | entities/entity.py:31-53 | a sideways move is taken exactly when the actor is idle or walking; otherwise the state stays |
| Entities.VerticalMove | entities/entity.py:55-63 | an up or down move is taken exactly when the actor is idle or moving vertically |
| Entities.Moved | entities/entity.py:155-175 | one frame of motion moves the rectangle by the speed along exactly the axis of the state, or not at all, keeping its size |
| Entities.RectOnLeft | entities/entity.py:125-138 | true exactly when some platform's centre is strictly left of the actor's |
| Entities.RectOnRight | entities/entity.py:140-153 | true exactly when some platform's centre is strictly right of the actor's |
| Entities.Collisions | entities/entity.py:109-123 | the k-th platform returned is the member at the k-th overlapping position (OverlapIndices): exactly the overlapping members, in group order, each as often as it occurs |
| Entities.OverlapIndices | entities/entity.py:118-121 | the positions of the members that overlap the actor, in increasing order, each once, and every overlapping position is among them |
| Entities.Actor.Mappy | entities/mappy.py:10-26 | a new player: 30 x 30 at top-left (x, y), speeds 3 and 5, idle, the given lives, death animation at frame 1 |
| Entities.Actor.Meowky | entities/meowky.py:12-25 | a new enemy: 25 x 30 at top-left (x, y), speeds 2 and 5, idle, stun counter 0 |
| Entities.Actor.JumpTo | entities/entity.py:69-80 | a jump starts at the actor's centre, aims at (x, y) and records the state to land in |
| Entities.Actor.MoveLeft | entities/entity.py:31-41 | while an up-ride has found a platform and one lies to the left, the actor jumps 50 pixels left onto it; otherwise it walks left if the state allows |
| Entities.Actor.MoveRight | entities/entity.py:43-53 | the mirror image of MoveLeft |
| Entities.Actor.MoveUp | entities/entity.py:55-58 | the state becomes Up when the vertical-move rule allows |
| Entities.Actor.MoveDown | entities/entity.py:60-63 | the state becomes Down when the vertical-move rule allows |
| Entities.Actor.Stop | entities/entity.py:65-67 | the actor is idle |
| Entities.Actor.FollowTrajectory | entities/entity.py:82-107 | once the jump has lasted its duration the actor lands exactly on the end point in the recorded state; before that it is on the arc; the size never changes |
| Entities.Actor.Update | entities/entity.py:155-175 | one frame of motion or of the jump; an actor above the ceiling is sent down; the player is then clamped to the playfield; the size never changes |
| Entities.Actor.Animate | entities/mappy.py:147-166 | the walking animation counters: the player counts frames, the enemy cycles frames 1 to 3 every 10 frames; idle actors do not animate |
| Entities.Actor.AnimateDeath | entities/mappy.py:136-145 | the player is stunned and its death frame advances every 15 calls up to frame 7; an enemy's state is left alone |
| Walls.NewWall | structures/wall.py:10-23 | the wall's bottom-right corner is (x, y), with the given size |
| Walls.Bounce | structures/wall.py:25-43 | an actor walking into a wall is put 4 pixels clear of it on the near side, facing away, and no longer touches it; anything else is unchanged |
| Walls.CheckCollision | structures/wall.py:25-43 | the actor's rectangle and state become the bounce result |
| Walls.CheckAll | entities/mappy.py:131-132 | the walls of the level act on the actor one after the other, as BounceAll folds them |
| Walls.BounceAll | entities/meowky.py:103-104 | folding the walls keeps the actor's size, and walls it does not touch leave it alone |
| Walls.BounceAllSnoc | entities/mappy.py:131-132 | one more wall applies after all the earlier ones |
| Trampolines.ColorOf | structures/trampoline.py:83-105 | the colour is green, blue, pink or red for 0 to 3 bounces |
| Trampolines.AnimStep | structures/trampoline.py:83-105 | the frame advances every third call and stays in 0..7; after frame 7 the animation rewinds and stops |
| Trampolines.AnimRunWhileRunning | structures/trampoline.py:83-105 | during the first 21 calls after a start the frame is the number of calls divided by 3 |
| Trampolines.AnimationLength | structures/trampoline.py:68-105 | a started spring runs for 21 calls and stops on the 22nd, back at frame 0 |
| Trampolines.Trampoline.constructor | structures/trampoline.py:11-33 | a new trampoline: top-left (x, y), green, unbroken, no bounces, at rest |
| Trampolines.Trampoline.Reset | structures/trampoline.py:37-42 | the bounce count returns to 0 |
| Trampolines.Trampoline.CheckCollision | structures/trampoline.py:44-66 | an unbroken trampoline touched by a falling player sends it up, counts the bounce, breaks on the third and scores; otherwise nothing changes and it scores 0 |
| Trampolines.Trampoline.StartAnimation | structures/trampoline.py:68-75 | the spring starts from frame 0, counter 1 |
| Trampolines.Trampoline.StopAnimation | structures/trampoline.py:77-81 | the spring stops |
| Trampolines.Trampoline.Animate | structures/trampoline.py:83-105 | the colour follows the bounce count, and one AnimStep is taken on the frame and counter |
| Trampolines.Trampoline.Update | structures/trampoline.py:107-115 | only a springing trampoline takes an animation step; any other is left alone |
| Items.BlinkStep | entities/item.py:58-64 | every tenth frame the item toggles between shown and hidden and the count restarts |
| Items.BlinkPeriod | entities/item.py:58-64 | after n frames the count is (t + n) mod 10 and the item has toggled once per ten frames |
| Items.Item.constructor | entities/item.py:10-38 | a new item: of types 1 to 5, visible, with its bottom-right corner at (x, y) |
| Items.Item.CheckCollision | entities/item.py:43-56 | the item scores exactly when the player's centre lies in it, and then scores its type times 100 |
| Items.Item.StartTargetedAnimation | entities/item.py:58-64 | one BlinkStep |
| Items.Item.StopTargetedAnimation | entities/item.py:66-69 | the item is shown steadily and its count restarts |
| PlayerRules.Collect | entities/mappy.py:110-120 | an item of the targeted type extends the streak, adds a pair and is worth its value times (pairs + 1); any other type becomes the target at its plain value; pairs never go down |
| PlayerRules.PairBonus | entities/mappy.py:113-120 | two pickups of one type in a row: the second is worth its value times (pairs + 2) |
| PlayerRules.FirstClose | entities/mappy.py:78-94 | the index of the first platform whose bottom is within the distance band below the actor, or -1 when there is none |
| PlayerRules.FirstHit | entities/mappy.py:105-121 | the index of the first item containing the player's centre, or -1 when there is none |
| PlayerRules.FirstSpring | entities/mappy.py:51-63 | the first unbroken trampoline touching the player, or -1 when there is none; no earlier trampoline touches it unbroken |
| PlayerRules.TrampolineFrame | entities/mappy.py:50-66 | one trampoline of the player's loop: it bounces a falling player, scoring, and is reset unless it lies under the player; broken stays broken |
| PlayerRules.TrampolineStep | entities/mappy.py:50-66 | a falling player bounces on exactly the first unbroken trampoline it touches (FirstSpring): it rises and the loop scores 10, once; that trampoline counts the bounce and breaks on the third; every trampoline not under the player ends with no bounces and the others keep theirs; broken stays broken; the last trampoline under the player is returned |
| PlayerRules.VisitTrampoline | entities/mappy.py:51-66 | one pass of the player's trampoline loop: the trampoline bounces the player or not, is reset unless under it, and becomes the remembered one when under it; the loop state holds one trampoline further |
| PlayerRules.AlignOverTrampoline | entities/mappy.py:68-76 | next to the trampoline under it, with nothing underfoot and not rising or jumping, an actor is sent falling onto it (the enemy's rule at entities/meowky.py:65-73 is the same) |
| PlayerRules.PlatformStep | entities/mappy.py:78-94 | rising, the player keeps its motion and remembers the first platform 1 to 25 pixels below it (FirstClose), or keeps what it remembered; otherwise it forgets; walking over exactly one platform with a trampoline under it, it jumps off the first platform offering an edge (FirstEdge) as EdgeJump and PlayerEdgeDx say; otherwise its motion is unchanged |
| PlayerRules.FirstEdge | entities/mappy.py:79-85 | the first platform the actor overlaps whose left end is right of the actor's left (unless it walks right) or whose right end is left of the actor's right (unless it walks left), or -1; no earlier platform offers an edge |
| PlayerRules.PlayerEdgeDx | entities/mappy.py:82-85 | the player's edge jump goes 50 pixels sideways; it goes left only when the platform does not end left of the player's right side, because the right-edge test runs second and overrides |
| PlayerRules.StepOffEdge | entities/mappy.py:80-85 | with a single platform underfoot and a trampoline under it, a walking player offered an edge by this platform jumps from its centre 50 pixels sideways onto the platform's top, to land falling; in every other case its motion is unchanged |
| PlayerRules.NoteRising | entities/mappy.py:87-94 | a rising player remembers this platform, and the loop stops, exactly when its bottom is 1 to 25 pixels below the player's; a rising player otherwise keeps what it remembered; any other player forgets |
| PlayerRules.SnapToPlatform | entities/mappy.py:96-103 | with one platform underfoot, a rising actor stops just under it and a falling one stands on it; otherwise nothing moves (shared by the enemy, entities/meowky.py:93-100) |
| PlayerRules.ItemStep | entities/mappy.py:105-121 | a walking or stunned player takes the first item containing its centre, which leaves the group and is scored through Collect; otherwise nothing changes |
| PlayerRules.AnimateTargets | entities/mappy.py:123-128 | items of the targeted type take one BlinkStep and every other item is shown steadily |
| PlayerRules.UpdateOnLevel | entities/mappy.py:33-134 | the whole frame, as the predicate Turned states it: the motion half went as Followed says (a falling player bounces on exactly the FirstSpring trampoline, and the trampolines end as Bounced says); a walking or stunned player that no trampoline lies under (no trampoline matched) picks up loot in its old state, and one that can still collect picks up at its old place; the item taken is the first one containing its centre (FirstHit), it leaves the group and the score is the bounce plus Collect's value (Loot); the items then blink as Blinked says; the player ends where the walls (BounceAll) put it |
| PlayerRules.MoveOnLevel | entities/mappy.py:42-103 | the motion half of the frame, as Followed states it: the trampoline loop as Sprang says (the bounce is on the FirstSpring trampoline when the player was falling, the trampolines end as Bounced says, the matched trampoline is the last one under the player), then alignment over it, the edge jump, the rising platform memory and the landing as Steered says; it scores 10 for a bounce; a collecting player that no trampoline lies under keeps its state, and a player that can still collect has not moved |
| PlayerRules.Steer | entities/mappy.py:68-103 | after the trampoline loop, as Steered states it: an actor lined up over the matched trampoline is sent falling; a walking player offered an edge jumps off the first platform offering one; rising, it remembers the first platform 1 to 25 pixels below it; then it lands as Landing says |
| PlayerRules.TakeLoot | entities/mappy.py:105-128 | a collecting player takes the first item containing its centre; it leaves the group and scores as Collect says (Loot); the other items of the targeted type take one BlinkStep and the rest are shown steadily (Blinked, Steady) |
| PlayerRules.LootAndWalls | entities/mappy.py:105-134 | the loot half as Looted states it, from the state and place the motion half left: the first item under the centre is taken and scored (Loot), the items blink (Blinked), then the walls turn the player back (BounceAll); the trampolines are untouched |
| PlayerRules.LootKeeps | entities/mappy.py:105-121 | taking at most one item keeps the group duplicate-free, loses only the taken item, never lowers the pair count, and scores a non-negative amount exactly when the item type is not negative |
| PlayerRules.Turn | entities/mappy.py:33-134 | the level's invariants across update_on_level: the trampolines stay well formed, the items left are drawn from the group, none twice, at most one gone, and neither the score nor the pair count goes down |
| Doors.Door.constructor | entities/door.py:9-42 | a closed door facing the given way (direction 0 picks a side at random), with its bottom centre at (x, y) |
| Doors.Door.Create | entities/door.py:28-33 | a door is built exactly when the direction is -1, 0 or 1; any other direction is an error |
| Doors.Door.Open | entities/door.py:44-68 | as the predicate Opened states: the door ends open at the new width; a left-facing door moves left by the widening and throws an actor walking right back past it; a right-facing one throws an actor walking left; a thrown player lands walking on, a thrown enemy lands stunned; anyone else keeps its motion |
| Doors.Door.CheckCollision | entities/door.py:70-102 | a closed door touched by a walking actor reports a hit, exactly then; the player opens it to width 50 (Opened); for an enemy the door and the enemy's motion end as EnemyMeets says: it turns at a special door or at the door's back and otherwise opens it to width 50 and is thrown stunned (Opened); a jumping actor is sent 40 pixels back to land falling; an untouched or open door changes nothing |
| Doors.EnemyMeets | entities/door.py:70-102 | a door an enemy does not touch, or an open one, leaves both as they were; a special door never changes; a door either stays as it was or ends open at width 50, and then the enemy is jumping from its centre to land stunned; an enemy walking into a closed door that stays closed is turned around |
| Doors.Door.CheckEnemy | levels/level.py:230-231 | `check_collision(e, enemy=True)`: the door and the enemy's motion end as EnemyMeets says, and the door stays well formed |
| Doors.PlayerMeets | entities/door.py:70-102 | a door the player does not touch, or an open one, leaves both as they were; a closed door touched by a player walking sideways ends open at width 50, keeping its kind, height and row, and the player is thrown into a jump from its centre exactly when it walked into the door's face (a left-facing door walked into rightwards, a right-facing one leftwards), and otherwise keeps its motion; a player touching a closed door mid-jump sideways is redirected 40 pixels back, to land falling; only a walking player changes a door |
| Doors.Door.CheckPlayer | levels/level.py:253-254 | `door.check_collision(player)`: the door and the player's motion end as PlayerMeets says, and a hit is reported exactly when the door was closed and the player, walking sideways, touched it |
| Waves.Drift | entities/wave.py:38-43 | a wave moves its speed left or right by its direction, or not at all |
| Waves.StunState | entities/wave.py:25-36 | a wave stuns towards its own direction |
| Waves.Wave.constructor | entities/wave.py:7-23 | a new wave is centred on (x, y) with speed 4 |
| Waves.Wave.CheckCollision | entities/wave.py:25-36 | a touched actor takes the wave's speed and is stunned its way; an untouched one is unchanged |
| Waves.Wave.Update | entities/wave.py:38-43 | the wave drifts one step sideways and never vertically |
| EnemyRules.Pursue | entities/meowky.py:36-43 | a chasing enemy (drawn to chase, not busy, the player lower) moves towards the player's side by rectangle order; otherwise it keeps its motion |
| EnemyRules.LeaveIdle | entities/meowky.py:45-47 | an idle enemy always starts moving, right or left as drawn |
| EnemyRules.TrampolineFrame | entities/meowky.py:53-63 | one trampoline of the enemy's loop: it reports whether the trampoline lies under the enemy; an unbroken trampoline the enemy touches sends it up and springs from frame 0; otherwise neither changes; it counts no bounce |
| EnemyRules.TrampolineStep | entities/meowky.py:49-63 | the enemy's loop springs every unbroken trampoline it touches and leaves the others' animations alone (SpringOutcome), never changes a bounce count or a broken flag, and ends with the state and the matched rectangle of Scan over all the trampolines |
| EnemyRules.VisitSpring | entities/meowky.py:53-63 | one pass of the enemy's trampoline loop: the trampoline springs exactly when the enemy touches it unbroken, and the enemy's state and the matched rectangle are Scan's one trampoline further |
| EnemyRules.VisitSprings | entities/meowky.py:53-63 | the loop over all the trampolines: each is left as the enemy's touch leaves it (SpringsSeen), and the state and the matched rectangle are Scan's |
| EnemyRules.ScanState | entities/meowky.py:61-62 | after the loop the enemy has moved up (once, as VerticalMove allows) when some trampoline sprang, and is in its old state when none did |
| EnemyRules.ScanMatched | entities/meowky.py:53-59 | after the loop the matched rectangle is none exactly when no trampoline lies under the enemy, and otherwise is that of the last one that does |
| EnemyRules.PlatformStep | entities/meowky.py:75-91 | rising, the enemy keeps its motion and remembers the first platform 11 to 50 pixels below it (FirstClose), or keeps what it remembered; otherwise it forgets; walking over exactly one platform with a trampoline under it, it jumps off the first platform offering an edge (FirstEdge) 40 pixels the way EnemyEdgeDx says; otherwise its motion is unchanged |
| EnemyRules.EnemyEdgeDx | entities/meowky.py:79-82 | the enemy's edge jump goes 40 pixels left exactly when the platform starts right of the enemy's left side and it was not walking right (the left test wins), and 40 pixels right otherwise |
| EnemyRules.StepOffEdge | entities/meowky.py:77-82 | with a single platform underfoot and a trampoline under it, a walking enemy offered an edge by this platform jumps from its centre 40 pixels sideways onto the platform's top, to land falling; in every other case its motion is unchanged |
| EnemyRules.NoteRising | entities/meowky.py:84-91 | a rising enemy remembers this platform, and the loop stops, exactly when its bottom is 11 to 50 pixels below the enemy's; a rising enemy otherwise keeps what it remembered; any other enemy forgets |
| EnemyRules.UpdateOnLevel | entities/meowky.py:27-104 | the enemy's frame keeps every trampoline well formed and in place, with its bounces and broken flag untouched |
| Helpers.LevelTemplate | utils/helpers.py:8-28 | the round-to-template table: rounds 1-2 and 16-18 use template 0, 4-6 and 20-22 template 1, 8-10 and 24-26 template 2, 12-14 and 28-30 template 3; other rounds have none |
| Helpers.TemplatesCoverPlayableRounds | utils/helpers.py:8-28 | a round has a template exactly when it is in 1..30 and not a bonus round |
| Helpers.CountPut | utils/helpers.py:30-67 | setting one cell moves one occurrence from its old value to its new one |
| Helpers.CountZeros | utils/helpers.py:30-67 | a cleared grid holds no item |
| Helpers.GenerateItems | utils/helpers.py:30-67 | the item grid has the layout's shape, puts items only on eligible platform cells, holds at most two of each type, and exactly two of each once complete |
| Helpers.PlaceItem | utils/helpers.py:30-67 | one cell of a pass: a lucky, empty, eligible cell gets the drawn type unless two of it are down; the type counts stay exact |
| Helpers.GenerateDoors | utils/helpers.py:69-98 | the door grid has the layout's shape, doors only on eligible cells, no more doors than placements, and the loop ends exactly when five placements were made |
| Helpers.PlaceDoorInRow | utils/helpers.py:69-98 | one row of a pass: the first eligible cell whose draw succeeds gets a door, special if drawn so, and counts one placement; with no such cell nothing changes |
| Layout.CellAdvance | levels/level.py:97-138 | a gap or trampoline takes 75 pixels and a platform 100 plus the carried width; a gap, or a trampoline before a platform, carries 25 more; a platform consumes it |
| Layout.RowScanBounds | levels/level.py:80-140 | the carried width is always 0 or 25, and a row is 75 pixels per gap or trampoline plus 100 to 125 per platform wide |
| Layout.CarryBounds | levels/level.py:77-140 | every row starts with a carried width of 0 or 25 |
| Layout.LayoutWidthBounds | levels/level.py:142 | the level width is at least the start x plus 100 per platform of the last row |
| Layout.PlatformCount | levels/level.py:102-107 | a row builds one platform per platform cell |
| Levels.EdgeWalls | levels/level.py:83-95 | the walls at a row's ends: one at its first and one at its last cell, 20 pixels high on the top row and 75 below, standing on the row |
| Levels.LevelWallsSnoc | levels/level.py:80-95 | adding a row's two walls keeps the walls two per row, in row order |
| Levels.LevelWallsShift | levels/level.py:277-279 | scrolling keeps every wall's height and the row it stands on |
| Levels.ScrolledRows | levels/level.py:146 | scrolling after building keeps the structures counted row by row |
| Levels.WavesHit | levels/level.py:243-245 | untouched by every wave, an enemy keeps its state; touched by a wave with a direction, it ends stunned |
| Levels.WavesOn | levels/level.py:243-245 | the waves act on the enemy in order, as WavesHit folds them |
| Levels.DoorsOnEnemy | levels/level.py:229-231 | the doors act on the enemy in order: the doors and the enemy's motion end as DoorsMet folds EnemyMeets over them; special doors and open doors are left as they were |
| Levels.DoorsMet | levels/level.py:230-231 | folding the doors keeps their number; every door either stays as it was or ends open at width 50, and special or open doors stay as they were; when the enemy touches no closed door, nothing changes |
| Levels.MeetDoor | levels/level.py:230-231 | one pass of the door loop: the doors met so far and the enemy's motion are DoorsMet's one door further, and the doors not yet met are untouched |
| Levels.DoorsPassed | levels/level.py:252-256 | the player's door loop on values: the doors, as many as before, and the player's motion after the player met each door in order as PlayerMeets says |
| Levels.DoorsPassedChanges | levels/level.py:252-256 | after the player's door loop every door is as it was or open at width 50 with its kind kept; open doors, and doors the loop has passed, stay as they were; when the player touches no closed door, nothing changes |
| Levels.OpenedDoors | levels/level.py:253-257 | the doors among the first n that are special and went from closed to open, each an index below n |
| Levels.OpenedDoorsMembers | levels/level.py:253-257 | OpenedDoors lists each door once, in increasing order, and lists a door exactly when it is special and went from closed to open |
| Levels.OpenedDoorsBefore | levels/level.py:252-256 | which of the first n doors opened does not depend on the doors after them |
| Levels.WavesKept | levels/level.py:252-257 | the waves sent so far stay tied to their doors when a later door changes |
| Levels.WavesGrow | levels/level.py:255-257 | one more wave, sent from a door's centre, extends the waves sent so far by that door |
| Levels.PassDoor | levels/level.py:253-254 | one door of the player's loop: that door and the player's motion become what PlayerMeets makes of them and every other door is unchanged; a hit is reported exactly when the player, walking sideways, touched the closed door, which is exactly when the door went from closed to open |
| Levels.VisitDoor | levels/level.py:252-257 | one pass of the player's door loop: the doors and the player's motion are DoorsPassed's one door further, the doors that sent waves are OpenedDoors one door further, and a special door that opened appends one fresh wave from its centre (WavesSeen) |
| Levels.SendWave | levels/level.py:255-257 | a new wave leaves door i's centre facing the door's way and joins the end of the waves |
| Levels.PassDoors | levels/level.py:252-257 | the player's whole door loop: the doors and the player's motion end as DoorsPassed says; the doors that sent waves are OpenedDoors; every new wave is fresh and left its door's centre (WavesSeen) |
| Levels.OpenDoors | levels/level.py:252-257 | the same loop read door by door: the doors and the player's motion end as DoorsPassed says; `sources` lists, in increasing order, exactly the special doors that went from closed to open (DoorsOpenedOn), and each appended one fresh wave from its centre, facing its way, in that order |
| Levels.DriftWaves | levels/level.py:258-259 | every wave drifts one step, so the waves the doors just sent end at their doors' centres drifted once (WavesFrom), and the doors are untouched |
| Levels.SendWavesOn | levels/level.py:252-259 | the doors' and waves' turn on the groups: the doors and the player's motion end as DoorsPassed says; the old waves stay, in order, and drift one step; exactly the special doors the player opened, in door order, each add one fresh wave that left the door's centre facing its way and drifted once (WavesSentOn) |
| Levels.UpdateTrampolines | levels/level.py:261-262 | every springing trampoline takes one AnimStep; the others stay still |
| Levels.UpdateWaves | levels/level.py:258-259 | every wave drifts one step |
| Levels.ShiftTrampolines | levels/level.py:277-279 | every trampoline moves `dx` sideways |
| Levels.ShiftItems | levels/level.py:277-279 | every item moves `dx` sideways |
| Levels.ShiftActors | levels/level.py:277-279 | every enemy moves `dx` sideways |
| Levels.ShiftDoors | levels/level.py:277-279 | every door moves `dx` sideways |
| Levels.ShiftWaves | levels/level.py:277-279 | every wave moves `dx` sideways |
| Levels.ShiftWalls | levels/level.py:277-279 | every wall moves `dx` sideways |
| Levels.SpawnStep | levels/level.py:148-163 | an enemy spawns exactly when fewer than the total are out and the delay counter passed two seconds; the count then goes up and the delay restarts; the count never passes the total |
| Levels.NoSpawnWhileWaiting | levels/level.py:155-163 | nothing spawns while the delay counter has not passed two seconds |
| Levels.SpawnInterval | levels/level.py:155-163 | after a spawn the next enemy comes on the 122nd call |
| Levels.NoSpawnPastTotal | levels/level.py:155 | once the total has spawned, nothing spawns again |
| Levels.SpawnBounded | levels/level.py:148-163 | the spawned count never passes the level's total, however many frames pass |
| Levels.Level.constructor | levels/level.py:22-64 | a new level: its structures built from the grids, width and height from the layout, scrolled so its right end is 60 pixels from the screen's right, no enemies and no waves yet, the total enemies equal to the round number |
| Levels.Level.BuildLevel | levels/level.py:66-146 | builds every row's structures, sets width and height, places the roof and scrolls to the start position |
| Levels.Level.PlaceRoofAndScroll | levels/level.py:142-146 | the roof sits at (60, 210) before the scroll, and the level scrolls to offset 540 - width |
| Levels.Level.LayOut | levels/level.py:77-143 | the rows loop builds new structures for every row and sets the width and height |
| Levels.Level.LayRows | levels/level.py:77-143 | after the rows loop, the counts of each kind match the grids, the walls are two per row, and width and height come from the layout |
| Levels.Level.BuildNextRow | levels/level.py:80-140 | building one more row keeps the counted structures in step with the grids |
| Levels.Level.BuildRow | levels/level.py:80-140 | a row adds as many platforms, trampolines, items and doors as its cells ask for, plus its two walls, and ends where the layout says |
| Levels.Level.BuildCell | levels/level.py:82-138 | one cell adds the structure it asks for and its walls, and advances x and the carried width as CellAdvance says |
| Levels.Level.AddEdgeWalls | levels/level.py:83-95 | the walls of EdgeWalls are appended |
| Levels.Level.PlaceTrampoline | levels/level.py:131-138 | a fresh, unbroken trampoline is appended 5 pixels below the row's top |
| Levels.Level.PlacePlatform | levels/level.py:103-128 | a platform as wide as the carried width allows; its item ending 10 pixels before the platform's right end; its door away from the outer columns |
| Levels.Level.PlaceDoor | levels/level.py:114-124 | the door faces right into a gap on its left, else left towards a gap on its right, else at random; 5 pixels inside the platform |
| Levels.Level.GenerateEnemies | levels/level.py:148-163 | one SpawnStep; a spawned enemy appears at the spawn point moving down and joins the end of the group |
| Levels.Level.ResetMeowkies | levels/level.py:165-170 | no enemy is left and none counts as spawned |
| Levels.Level.ResetTrampolines | levels/level.py:172-178 | every trampoline loses its bounces and is mended |
| Levels.Level.CheckCollision | levels/level.py:180-196 | the player is caught exactly when some enemy holds its centre, neither is in the air, and the player is idle or walking the enemy's way |
| Levels.Level.Update | levels/level.py:213-266 | one frame keeps the level well formed, scores nothing negative, only removes items, only removes or spawns enemies (at most one spawn), and every new wave comes from a special door |
| Levels.Level.FinishFrame | levels/level.py:252-264 | the doors and the player's motion end as DoorsPassed says, and the waves as WavesSent says; then every springing trampoline takes one AnimStep and the others stay still (Animated); the spawn timer takes one SpawnStep, and a spawned enemy is fresh, at the spawn point and at the end of the group (SpawnTicked) |
| Levels.Level.Tick | levels/level.py:261-264 | the trampolines animate as Animated says and the spawn timer runs as SpawnTicked says: at most one fresh enemy joins the end of the group, counted; the doors and waves are untouched |
| Levels.Level.PlayerTurn | levels/level.py:223-224 | the player's update_on_level over the level's groups keeps the level well formed; the items left are duplicate-free and drawn from the old ones, at most one gone; the score is not negative and the pair count never drops |
| Levels.Level.KeepLoot | entities/mappy.py:111-120 | the level's items and streak become the ones the player's turn left, and the level stays well formed |
| Levels.Level.UpdateEnemies | levels/level.py:226-250 | the enemies' turns earn exactly 50 for each enemy of `expired`; an enemy of the starting group is in `expired` exactly when, after its move, it was stunned with its stun already counted out; those enemies are gone, none twice; enemies are only removed |
| Levels.Level.UpdateEnemy | levels/level.py:226-250 | one enemy's turn scores 50 exactly when, after its move, the enemy was stunned with its stun counted out, and then it leaves the level; one that fell below the lowest floor leaves too |
| Levels.Level.MoveEnemy | levels/level.py:227-231 | the enemy's move and the doors keep the structures well formed |
| Levels.Level.StunStep | levels/level.py:233-241 | a stunned enemy counts two seconds of stun, then leaves the level for 50 points and is subtracted from the spawned count |
| Levels.Level.RemoveEnemy | levels/level.py:240-241 | the enemy is removed from the group and the spawned count drops by one |
| Levels.Level.SendWaves | levels/level.py:252-259 | the doors' and waves' turn on the level: the doors and the player's motion end as DoorsPassed says (every closed door the walking player touched is open at width 50, and the player thrown or redirected as PlayerMeets says); the old waves stay and drift; exactly the special doors opened add one fresh wave each, from the door's centre, in door order (WavesSent) |
| Levels.Level.Scroll | levels/level.py:268-281 | the offset, every structure, enemy and wave, and the roof move `dx` sideways; nothing else changes |
| Levels.Level.ScrollActors | levels/level.py:277-279 | every enemy and wave moves `dx` sideways; the structures are untouched |
| Levels.Level.ScrollStructures | levels/level.py:277-279 | every platform, wall, trampoline, item and door moves `dx` sideways |
| Levels.Level.ShiftScenery | levels/level.py:275-281 | the offset grows by `dx`, and every platform, wall and the roof move `dx` sideways |
| HudScene.HighScore | core/scenes/hud.py:30-40 | the best saved score, or 0 with none saved: it is one of the scores and at least every one |
| HudScene.Hud.constructor | core/scenes/hud.py:14-28 | a new display: no score yet and the best saved score |
| HudScene.Hud.AddScore | core/scenes/hud.py:42-52 | the score grows by the points; the best score follows it when overtaken and never goes down |
| Scores.Slot | core/scenes/scores_screen.py:36-57 | where an entry goes: after every entry it does not rank at least as high as, before the first one it does |
| Scores.Insert | core/scenes/scores_screen.py:36-57 | inserting adds exactly the entry |
| Scores.InsertIndex | core/scenes/scores_screen.py:36-57 | where each entry ends up after an insertion |
| Scores.InsertRanked | core/scenes/scores_screen.py:36-57 | inserting into a ranked table keeps it ranked |
| Scores.Sort | core/scenes/scores_screen.py:51 | the sort by (score, round), high to low, is ranked and a permutation |
| Scores.InsertMoves | core/scenes/scores_screen.py:51 | an entry moves one place down exactly when the new one ranks at least as high |
| Scores.CurrentLands | core/scenes/scores_screen.py:44-51 | the player who just finished lands right after the saved entries that rank at least as high (the sort is stable) |
| Scores.Top5Shape | core/scenes/scores_screen.py:54 | the table holds five entries, or all when fewer; it is ranked and drawn from the saved entries and the current one |
| Scores.TableIsBest | core/scenes/scores_screen.py:51-54 | every entry left out of the table ranks no higher than every entry in it |
| Scores.ListedAt | core/scenes/scores_screen.py:57 | an entry anywhere in the table makes its name and score listed |
| Scores.CurrentListed | core/scenes/scores_screen.py:54-57 | with fewer than five saved entries ranking at least as high, the current player is in the table |
| Scores.Selection | core/scenes/scores_screen.py:59-69 | left and right move the selected letter round the three places; up and down leave it |
| Scores.SelectionInverse | core/scenes/scores_screen.py:59-69 | left undoes right and right undoes left |
| Scores.SelectionCycles | core/scenes/scores_screen.py:59-69 | three moves the same way return to the same place |
| Scores.LetterIndex | core/scenes/scores_screen.py:84-88 | a letter's place in the alphabet; anything else counts as A |
| Scores.Letter | core/scenes/scores_screen.py:78-99 | the letter at a place of the alphabet has that place |
| Scores.LetterAtIndex | core/scenes/scores_screen.py:78-88 | every letter is the one at its own place |
| Scores.Renamed | core/scenes/scores_screen.py:71-100 | up or down moves the selected letter one place round the alphabet, and the rest of the name is untouched |
| Scores.UpThenDown | core/scenes/scores_screen.py:91-94 | down undoes up on a letter |
| Scores.DownThenUp | core/scenes/scores_screen.py:91-94 | up undoes down on a letter |
| Scores.BlankIsA | core/scenes/scores_screen.py:85-94 | a place not yet filled counts as A: up gives B, down gives Z |
| Scores.ScoresScreen.Current | core/scenes/scores_screen.py:44-48 | the entry of the player who just finished: name, score and round |
| Scores.ScoresScreen.constructor | core/scenes/scores_screen.py:16-34 | a new screen: name "...", no score, first letter selected, no table |
| Scores.ScoresScreen.GenerateTop5WithStatus | core/scenes/scores_screen.py:36-57 | the table is the first five of the ranked saved entries plus the current one, and the flag says exactly whether the current name and score are listed |
| Scores.ScoresScreen.ChangeSelection | core/scenes/scores_screen.py:59-69 | the selected place moves as Selection says |
| Scores.ScoresScreen.ChangeLetter | core/scenes/scores_screen.py:71-100 | the name becomes Renamed at the selected place |
| GameLoop.NextRoundAsWritten | core/game.py:254 | the written round order stays in 0..29 |
| GameLoop.RoundZeroAfter29 | core/game.py:254-259 | as written, round 29 is followed by round 0, which is not a bonus round and has no template; round 30 is never reached |
| GameLoop.NextRound | core/game.py:254 | the corrected round order goes round 1..30 |
| GameLoop.NextRoundAgrees | core/game.py:254 | the corrected order agrees with the written one except after round 29 |
| GameLoop.NextRoundPlayable | core/game.py:253-259 | after any round comes a playable or a bonus round, after a bonus round a playable one, and every playable round has a template |
| GameLoop.AfterMiss | core/game.py:233-235 | a miss costs a life; the reset scene follows exactly while the lives left are not negative, game over otherwise |
| GameLoop.FifthMissEndsGame | core/game.py:233-235 | with a new game's four lives, the first four misses restart the round and the fifth ends the game |
| GameLoop.Follow | core/game.py:148-167 | the camera moves by the player's speed when it walks that way, one pixel less otherwise |
| GameLoop.CameraBounded | core/game.py:148-167 | the camera stays within one step of the level's start position and of offset 0 |
| GameLoop.CameraResetReturns | core/game.py:236 | where the reset after a miss leaves the camera, for every offset: the start position 540 - width from anywhere between it and 0; d pixels beyond the start from d pixels short of it; 2d right of the start from d pixels right of 0 |
| GameLoop.Successors | core/game.py:64-338 | the scenes each scene can move to in one frame or one event; a scene can always stay |
| GameLoop.ScoresOnlyAfterGameOver | core/game.py:320-338 | the scores screen is entered only from the game-over screen |
| GameLoop.Game.constructor | core/game.py:26-55 | a new game: start scene, round 1, no level, controls off, the player at its start with four lives, no score, the best saved score |
| GameLoop.Game.HandleEvent | core/game.py:64-146 | every event keeps the game well formed and moves only to a successor scene |
| GameLoop.Game.StartEvent | core/game.py:73-88 | space starts a game, keeping the round, the lives and the score; L resumes the saved round, score and lives when there are any; other keys change nothing |
| GameLoop.Game.LevelEvent | core/game.py:89-107 | a side arrow, pressed while idle, walking or rising, moves the player as MoveLeft or MoveRight does (SideMoved); in any other state, and for keys other than the arrows, the motion is unchanged; down turns a rise into a fall and keeps the rest of the motion; escape pauses; releasing a side arrow stops a walking player and keeps its direction and jump; any other event leaves the motion alone |
| GameLoop.Game.ScoresEvent | core/game.py:109-130 | left and right move the selected place and keep the name; up and down rename the letter at the unchanged selected place and re-rank the table; space, once all three letters are set, returns to the start with a new game's round, score and lives; otherwise the scene, round, lives, score and player's state stay, and keys that do not edit leave the place and the name |
| GameLoop.Game.RetypeLetter | core/game.py:115-120 | up or down changes the selected letter and ranks the table again with the new name |
| GameLoop.Game.PauseEvent | core/game.py:131-146 | escape resumes the round; Q leaves for the start screen with a new game's round, score and lives and no level; any key but Q keeps the round, lives, score, displayed lives, name and pause counter |
| GameLoop.Game.Update | core/game.py:169-195 | every frame keeps the game well formed and moves only to a successor scene |
| GameLoop.Game.SceneStep | core/game.py:179-195 | the scene's own step keeps the game well formed and moves only to a successor scene |
| GameLoop.Game.UpdateLevel | core/game.py:197-241 | for two seconds the controls are off, the scene and score stay and the pause counter counts up; after that the controls are on, the round is played and the score never drops |
| GameLoop.Game.LevelFrame | core/game.py:211-238 | one frame of play ends in the level, block, reset or game-over scene, with the score never dropping |
| GameLoop.Game.PlayFrame | core/game.py:211-214 | the frame's score is not negative and is added to the display; the camera offset becomes CameraOffset of the player's centre after the level's update, and the offset, roof, platforms and walls all move by the same `dx`; the level stays well formed |
| GameLoop.Game.UpdateScored | core/game.py:212-213 | the level's update with its score added to the display: the score is not negative and the best score follows; items are only taken away, and every enemy and wave is an old one or fresh |
| GameLoop.Game.EndOfFrame | core/game.py:216-238 | the reset or game-over scene follows exactly when the player fell below the lowest floor or some enemy catches it (CatchesAt, seeing a player stopped by a clear); then a life is lost and the round reset, the scenery shifted back by CameraReset; otherwise a cleared round goes to the block scene with the player stopped; otherwise play goes on with the player's state kept; in both the level is untouched |
| GameLoop.Game.Miss | core/game.py:226-238 | a miss: the player stops and loses a life, the offset, platforms, walls, roof, structures and waves shift by CameraReset (see CameraResetReturns for where that lands; SceneryShifted), the enemies leave and the trampolines are mended |
| GameLoop.Game.ResetRound | core/game.py:236-238 | the offset and the scenery shift by CameraReset (SceneryShifted; see CameraResetReturns), no enemies remain and every trampoline is mended |
| GameLoop.Game.ScrollScreen | core/game.py:148-167 | the level's offset becomes CameraOffset; the scenery and the sprites all move by the same `dx` (SceneryShifted, ActorsShifted); the player is recentred when the camera moves and left in place otherwise |
| GameLoop.Game.Pan | core/game.py:158-167 | one camera move: the player is put at the screen's middle and the level scrolls by `dx`, its scenery and sprites all moving by it |
| GameLoop.Game.BlockLevel | core/game.py:243-261 | after the pause the round moves on, bonus rounds are skipped, and the next round is announced |
| GameLoop.Game.ChangeLevel | core/game.py:263-280 | while the announcement shows, only the pause counter moves; after it a fresh level for the round is built from the round's template grid as LoadLevel says, the player is put at the start and the round's starting score is kept |
| GameLoop.Game.LoadLevel | core/game.py:57-62 | the level is built from the template grid LevelTemplate chooses for the round, with generated item and door grids that fit it: its structures are built row by row from them (BuiltRows), its width and height come from the layout, it starts at offset 540 - width, with no enemies and no waves |
| GameLoop.Game.ResetLevel | core/game.py:282-300 | for four seconds the death animation advances as DeathAnimated says, with the player and the displayed lives in place; then the display shows the lives left and the player stands idle at the start with the animation rewound |
| GameLoop.Game.GameOver | core/game.py:302-318 | for four seconds the death animation advances as DeathAnimated says; then the game-over screen shows and the player is left as it is |
| GameLoop.Game.GameOverTransition | core/game.py:320-338 | for ten seconds only the pause counter moves; then the scores screen takes the round and score and ranks them; a player with fewer than five saved entries ahead is in the table |

## Left out

- Drawing, images, sounds and music (`draw`, `load_images`, `load_sounds`, the music flag) are not modelled; they do not change the game state.
- The image that an animation shows is left out; only the counters and frames that choose it are modelled.
- The scores file is not modelled. Reading it (`load_scores`, `get_high_score`) becomes the `saved` parameter; writing a score (`save_score`) is not modelled.
- core/game.py imports `load_progress` and `save_progress` from utils/helpers.py, which does not define them. The saved progress arrives as the `progress` parameter, and saving it on Q from the pause screen is not modelled.
- On Q, the pause screen calls `start_screen.load_level()`, which core/scenes/start_screen.py does not define. That call is left out and the rest of the branch is modelled.
- levels/levels_distribution.py is not part of this model. Its four layout grids arrive as the `templates` parameter.
- Random draws are parameters: the item and door generators, each door's random facing, and each enemy's choices (`draws`).
- The jump arc of `follow_parabolic_trajectory` is computed in floating point. It is the `ArcFn` parameter; only the landing point, which the source sets exactly, is stated.
- The generators' retry loops are bounded by `maxPasses`. `done` says whether the loop finished within that bound.
- `update`'s `dt` argument is unused by the source and is not modelled.
- The player's `level` back-reference (core/game.py:277) is not modelled; the level is passed to the player's update instead.
- Item image widths and the roof image size are parameters.
- Levels.Level.BuildLevel: the roof keeps the size of its image; the scaling at levels/level.py:144 is left out, because it only affects drawing.
- EnemyRules.UpdateOnLevel: states only that trampolines stay well formed, in place, and with their bounce counts and broken flags; the enemy's new position and state are not stated as one formula. Its parts (Pursue, LeaveIdle, TrampolineStep, PlatformStep) carry their own contracts.
- Levels.Level.MoveEnemy: states only that the structures stay well formed, for the same reason.
- Levels.Level.Update: states the bounds and memberships listed above, not the whole new state; its phases state their parts (PlayerRules.UpdateOnLevel with Turned, UpdateEnemies, DoorsOnEnemy with DoorsMet, FinishFrame with DoorsPassed and WavesSent).
- Levels.Level.PlayerTurn: states the level's invariants across the player's turn (as PlayerRules.Turn does), not the turn itself, which PlayerRules.UpdateOnLevel states with Turned.
- PlayerRules.Turn: states the invariants only; PlayerRules.UpdateOnLevel states the turn.
- Geometry.LexLess: pygame's `Rect` `<` is taken to compare (x, y, w, h) as a tuple; pygame itself is not part of this model.
- GameLoop.Game.HandleEvent and GameLoop.Game.Update: state only the invariant and the scene successors; each scene's member states its own behaviour.
- GameLoop.Game.SceneStep: states only the invariant and the scene successors, as Update does; each scene's member states its own behaviour.
- GameLoop.Game.PlayFrame: states the camera's shift of the offset, roof, platforms and walls; the trampolines, items, doors, enemies and waves also move by `dx` (ScrollScreen states it), but the level's update moves them first, so that is not restated across the frame.
- GameLoop.Game.UpdateLevel and GameLoop.Game.LevelFrame: do not restate EndOfFrame's cases; they state the scene set and the score bound.
- GameLoop.Game.BlockLevel: uses the corrected round order (see Findings) instead of the written one.

## Findings

| source | as written | input that shows it | evidently intended | confidence | as-written member | corrected member |
|---|---|---|---|---|---|---|
| core/game.py:254 | the next round is `(level_number + 1) % 30` | finishing round 29 gives round 0, which is not a bonus round, so the game builds it; round 0 has no template in utils/helpers.py:19-28, so building it fails. Round 30 is never reached | the round order loops through 1..30 (the line's own comment says so): `level_number % 30 + 1` | not executed; high | GameLoop.NextRoundAsWritten, GameLoop.RoundZeroAfter29 | GameLoop.NextRound, GameLoop.NextRoundPlayable |

=== FILE: basics.dfy ===
/** Small shared vocabulary: an optional value, and the ordered-set behaviour of a
    sprite group (members are distinct, iteration follows insertion order, removing
    a member keeps the others in order, removing a non-member changes nothing). */
module Basics {

  datatype Option<T> = None | Some(value: T)

  function Abs(x: int): (r: int)
    ensures r >= 0 && (r == x || r == -x)
  {
    if x < 0 then -x else x
  }

  /** No object occurs twice in a group. */
  ghost predicate Distinct<T>(s: seq<T>) {
    forall i, j :: 0 <= i < j < |s| ==> s[i] != s[j]
  }

  /** Group.remove: drop every occurrence of `x`, keeping the order of the rest. */
  function Without<T(==)>(s: seq<T>, x: T): (r: seq<T>)
    ensures x !in r
    ensures forall i :: 0 <= i < |r| ==> r[i] in s && r[i] != x
    ensures forall i :: 0 <= i < |s| && s[i] != x ==> s[i] in r
    ensures |r| <= |s|
    ensures x !in s ==> r == s
  {
    if s == [] then []
    else if s[0] == x then Without(s[1..], x)
    else [s[0]] + Without(s[1..], x)
  }

  /** The tail of a group of distinct members is distinct and lacks the head. */
  lemma DistinctTail<T>(s: seq<T>)
    requires Distinct(s) && |s| > 0
    ensures Distinct(s[1..]) && s[0] !in s[1..]
  {
    forall i, j | 0 <= i < j < |s| - 1
      ensures s[1..][i] != s[1..][j]
    {
      assert s[1..][i] == s[i + 1] && s[1..][j] == s[j + 1];
    }
    forall k | 0 <= k < |s| - 1
      ensures s[1..][k] != s[0]
    {
      assert s[1..][k] == s[k + 1];
    }
  }

  /** Putting a new member in front of a group of distinct members keeps them distinct. */
  lemma DistinctCons<T>(a: T, t: seq<T>)
    requires Distinct(t) && a !in t
    ensures Distinct([a] + t)
  {
    forall i, j | 0 <= i < j < |t| + 1
      ensures ([a] + t)[i] != ([a] + t)[j]
    {
      assert ([a] + t)[j] == t[j - 1];
      if i > 0 {
        assert ([a] + t)[i] == t[i - 1];
      }
    }
  }

  /** Removing one member of a group of distinct members shortens it by exactly one. */
  lemma {:induction false} WithoutMember<T>(s: seq<T>, x: T)
    requires Distinct(s) && x in s
    ensures |Without(s, x)| == |s| - 1
    ensures Distinct(Without(s, x))
  {
    DistinctTail(s);
    if s[0] != x {
      WithoutMember(s[1..], x);
      DistinctCons(s[0], Without(s[1..], x));
    }
  }

  /** Removing from a group keeps its members distinct whether or not `x` was a member. */
  lemma {:induction false} WithoutDistinct<T>(s: seq<T>, x: T)
    requires Distinct(s)
    ensures Distinct(Without(s, x))
  {
    if x in s { WithoutMember(s, x); }
  }

  /** Group.add of a new member keeps the group's members distinct. */
  lemma AddDistinct<T>(s: seq<T>, x: T)
    requires Distinct(s) && x !in s
    ensures Distinct(s + [x])
  {
  }
}

=== FILE: door.dfy ===
/** Doors on the floors (entities/door.py). A closed door faces left (-1) or right
    (1); the player walking into it opens it (state 0), which throws anyone walking
    against its face back and, for an enemy, stuns it. Enemies turn around at doors
    they cannot open, and special doors send out a wave when the player opens them. */
module Doors {
  import opened Basics
  import opened Geometry
  import opened Settings
  import opened Entities

  /** A door's rectangle, state and width as a value, with whether it is special. */
  datatype DoorView = DoorView(rect: Rect, state: int, width: int, special: bool)

  /** `check_collision(e, enemy=True)` on values: door `d` against an enemy at `r`
      moving as `m`, giving the door and the enemy's motion after it. A closed door
      it touches walking sideways turns it around when the door is special or shows
      it its back, and otherwise opens to width 50 and throws it, stunned, back past
      the door; touching it mid-jump redirects the jump 40 pixels back, to land
      falling. */
  function EnemyMeets(d: DoorView, r: Rect, m: Motion): (res: (DoorView, Motion))
    ensures !(Overlaps(d.rect, r) && d.state != 0) ==> res == (d, m)
    ensures d.special ==> res.0 == d
    ensures res.0 == d || (res.0.state == 0 && res.0.width == 50 && res.0.special == d.special &&
                           res.1.state == Jump && res.1.direction == Stun && res.1.jumpStart == r.Center())
    ensures m.state in {Left, Right} && Overlaps(d.rect, r) && d.state != 0 && res.0 == d ==>
      res.1 == m.(state := if m.state == Left then Right else Left)
  {
    if !(Overlaps(d.rect, r) && d.state != 0) then (d, m)
    else if m.state == Left || m.state == Right then
      if d.special || (d.state == -1 && m.state == Left) || (d.state == 1 && m.state == Right) then
        (d, m.(state := if m.state == Left then Right else Left))
      else
        var difference := 50 - d.width;
        if d.state == -1 then
          (d.(rect := d.rect.ShiftX(-difference), state := 0, width := 50),
           Motion(Jump, Stun, r.Center(), Point(r.x - difference - 10, r.Bottom())))
        else
          (d.(state := 0, width := 50),
           Motion(Jump, Stun, r.Center(), Point(r.x + difference + 10, r.Bottom())))
    else if m.state == Jump && m.direction == Left then
      (d, Motion(Jump, Down, r.Center(), Point(r.x + 40, r.Bottom())))
    else if m.state == Jump && m.direction == Right then
      (d, Motion(Jump, Down, r.Center(), Point(r.x - 40, r.Bottom())))
    else (d, m)
  }

  /** `check_collision(e)` on values for the player: door `d` against the player at
      `r` moving as `m`, giving the door and the player's motion after it. A closed
      door the player touches walking sideways opens to width 50 (a left-facing one
      moving left by the widening), and throws the player, still walking the same
      way, back past it when the player walked against its face; touching it mid-jump
      redirects the jump 40 pixels back, to land falling. */
  function PlayerMeets(d: DoorView, r: Rect, m: Motion): (res: (DoorView, Motion))
    ensures !(Overlaps(d.rect, r) && d.state != 0) ==> res == (d, m)
    ensures Overlaps(d.rect, r) && d.state != 0 && m.state in {Left, Right} ==>
      res.0.state == 0 && res.0.width == 50 && res.0.special == d.special &&
      res.0.rect.y == d.rect.y && res.0.rect.w == d.rect.w && res.0.rect.h == d.rect.h &&
      (res.1.state == Jump <==> (d.state == -1) == (m.state == Right)) &&
      (res.1.state == Jump ==> res.1.direction == m.state && res.1.jumpStart == r.Center()) &&
      (res.1.state != Jump ==> res.1 == m)
    ensures !(m.state in {Left, Right}) ==> res.0 == d
    ensures Overlaps(d.rect, r) && d.state != 0 && m.state == Jump && m.direction in {Left, Right} ==>
      res.1.state == Jump && res.1.direction == Down && res.1.jumpStart == r.Center() &&
      res.1.jumpEnd.x == r.x + (if m.direction == Left then 40 else -40)
  {
    if !(Overlaps(d.rect, r) && d.state != 0) then (d, m)
    else if m.state == Left || m.state == Right then
      var difference := 50 - d.width;
      if d.state == -1 then
        (d.(rect := d.rect.ShiftX(-difference), state := 0, width := 50),
         if m.state == Right then Motion(Jump, Right, r.Center(), Point(r.x - difference - 10, r.Bottom())) else m)
      else
        (d.(state := 0, width := 50),
         if m.state == Left then Motion(Jump, Left, r.Center(), Point(r.x + difference + 10, r.Bottom())) else m)
    else if m.state == Jump && m.direction == Left then
      (d, Motion(Jump, Down, r.Center(), Point(r.x + 40, r.Bottom())))
    else if m.state == Jump && m.direction == Right then
      (d, Motion(Jump, Down, r.Center(), Point(r.x - 40, r.Bottom())))
    else (d, m)
  }

  class Door {
    var width: int
    const height: int
    const special: bool
    /** -1: closed, facing left; 1: closed, facing right; 0: open. */
    var state: int
    /** The rectangle keeps the size of the closed door image; opening only moves it. */
    var rect: Rect
    /** The facing the door was built with. */
    const direction: int

    /** The door as a value. */
    function View(): DoorView
      reads this
    {
      DoorView(rect, state, width, special)
    }

    /** A door is closed in the direction it was built with, or open. */
    predicate Valid()
      reads this`state
    {
      (direction == -1 || direction == 1) && (state == 0 || state == direction)
    }

    /** `Door(x, y, width, height, direction, special)` with a legal direction: 0 picks
        the facing at random (`coinLeft` is that draw), -1 and 1 are taken as given;
        the closed image is placed with its bottom centre at (x, y). */
    constructor(x: int, y: int, coinLeft: bool, width: int := 10, height: int := 60,
                direction: int := 0, special: bool := false)
      requires direction == -1 || direction == 0 || direction == 1
      ensures direction == 0 ==> this.direction == (if coinLeft then -1 else 1)
      ensures direction != 0 ==> this.direction == direction
      ensures state == this.direction && Valid()
      ensures rect.MidBottom() == Point(x, y) && rect.w == CLOSED_DOOR_W && rect.h == CLOSED_DOOR_H
      ensures this.width == width && this.height == height && this.special == special
    {
      this.width := width;
      this.height := height;
      this.special := special;
      var facing := if direction == 0 then (if coinLeft then -1 else 1) else direction;
      state := facing;
      rect := Rect(0, 0, CLOSED_DOOR_W, CLOSED_DOOR_H).WithMidBottom(Point(x, y));
      this.direction := facing;
    }

    /** Any other direction is refused: the game raises an error instead of building
        the door. */
    static method Create(x: int, y: int, coinLeft: bool, width: int := 10, height: int := 60,
                         direction: int := 0, special: bool := false) returns (r: Option<Door>)
      ensures r.Some? <==> (direction == -1 || direction == 0 || direction == 1)
      ensures r.Some? ==> (fresh(r.value) && r.value.Valid() && r.value.state == r.value.direction &&
        (direction != 0 ==> r.value.direction == direction) &&
        r.value.rect.MidBottom() == Point(x, y) && r.value.special == special)
    {
      if direction == -1 || direction == 0 || direction == 1 {
        var d := new Door(x, y, coinLeft, width, height, direction, special);
        r := Some(d);
      } else {
        r := None;
      }
    }

    /** What `open` did, from the state before it: the door widened to `newWidth` and
        is open; a left-facing door moved left by the widening and threw an actor
        walking right back past it; a right-facing door threw an actor walking left
        back past it; a thrown player lands walking on, a thrown enemy lands stunned;
        an actor not thrown keeps its motion. */
    twostate predicate Opened(entity: Actor, newWidth: int, enemy: bool)
      reads this, entity
    {
      var difference := newWidth - old(width);
      state == 0 && width == newWidth &&
      rect == (if old(state) == -1 then old(rect).ShiftX(-difference) else old(rect)) &&
      if old(state) == -1 && old(entity.state) == Right then
        entity.JumpingTo(Point(entity.rect.x - difference - 10, entity.rect.Bottom()), if enemy then Stun else Right)
      else if old(state) == 1 && old(entity.state) == Left then
        entity.JumpingTo(Point(entity.rect.x + difference + 10, entity.rect.Bottom()), if enemy then Stun else Left)
      else
        entity.SameMotion()
    }

    /** What `check_collision` did to the player, from the state before it: a closed
        door the player walked into was opened (`Opened`); a jumping player it touched
        was sent 40 pixels back against its direction, to land falling; otherwise
        neither the door nor the player changed. */
    twostate predicate PlayerChecked(entity: Actor)
      reads this, entity
    {
      var touching := Overlaps(old(rect), entity.rect) && old(state) != 0;
      if touching && (old(entity.state) == Left || old(entity.state) == Right) then
        Opened(entity, 50, false)
      else
        state == old(state) && rect == old(rect) && width == old(width) &&
        if touching && old(entity.state) == Jump && old(entity.direction) == Left then
          entity.JumpingTo(Point(entity.rect.x + 40, entity.rect.Bottom()), Down)
        else if touching && old(entity.state) == Jump && old(entity.direction) == Right then
          entity.JumpingTo(Point(entity.rect.x - 40, entity.rect.Bottom()), Down)
        else
          entity.SameMotion()
    }

    /** `open`: the door widens to `newWidth` and ends open. A left-facing door moves
        left by the widening and throws an actor walking right back past it; a
        right-facing door throws an actor walking left back past it. A thrown player
        lands walking on, a thrown enemy lands stunned. */
    method Open(entity: Actor, newWidth: int := 50, enemy: bool := false)
      requires Valid()
      modifies this`width, this`rect, this`state
      modifies entity`direction, entity`state, entity`jumpStart, entity`jumpEnd
      ensures Valid() && Opened(entity, newWidth, enemy)
      ensures state == 0 && width == newWidth
      ensures old(state) == -1 ==> rect == old(rect).ShiftX(-(newWidth - old(width)))
      ensures old(state) != -1 ==> rect == old(rect)
      ensures old(state) == -1 && old(entity.state) == Right ==>
        entity.JumpingTo(Point(entity.rect.x - (newWidth - old(width)) - 10, entity.rect.Bottom()),
                         if enemy then Stun else Right)
      ensures old(state) == 1 && old(entity.state) == Left ==>
        entity.JumpingTo(Point(entity.rect.x + (newWidth - old(width)) + 10, entity.rect.Bottom()),
                         if enemy then Stun else Left)
      ensures !(old(state) == -1 && old(entity.state) == Right) && !(old(state) == 1 && old(entity.state) == Left) ==>
        entity.SameMotion()
    {
      var difference := newWidth - width;
      width := newWidth;
      if state == -1 {
        rect := rect.WithBottomRight(Point(rect.Right() - difference, rect.Bottom()));
        if entity.state == Right {
          entity.JumpTo(entity.rect.x - difference - 10, entity.rect.Bottom(), if enemy then Stun else Right);
        }
      } else if state == 1 {
        if entity.state == Left {
          entity.JumpTo(entity.rect.x + difference + 10, entity.rect.Bottom(), if enemy then Stun else Left);
        }
      }
      state := 0;
    }

    /** `check_collision(e, enemy=True)`, whose outcome is `EnemyMeets`'s. */
    method CheckEnemy(entity: Actor)
      requires Valid()
      modifies this`width, this`rect, this`state
      modifies entity`direction, entity`state, entity`jumpStart, entity`jumpEnd
      ensures Valid()
      ensures (View(), entity.CurrentMotion()) == EnemyMeets(old(View()), entity.rect, old(entity.CurrentMotion()))
    {
      var _ := CheckCollision(entity, true);
    }

    /** `check_collision(player)`, whose outcome is `PlayerMeets`'s; it reports a hit
        exactly when the door was closed and the player, walking sideways, touched it. */
    method CheckPlayer(entity: Actor) returns (hit: bool)
      requires Valid()
      modifies this`width, this`rect, this`state
      modifies entity`direction, entity`state, entity`jumpStart, entity`jumpEnd
      ensures Valid()
      ensures hit <==> (Overlaps(old(rect), entity.rect) && old(state) != 0 &&
                        (old(entity.state) == Left || old(entity.state) == Right))
      ensures (View(), entity.CurrentMotion()) == PlayerMeets(old(View()), entity.rect, old(entity.CurrentMotion()))
    {
      hit := CheckCollision(entity);
    }

    /** `check_collision`: a closed door touched by an actor walking sideways reports a
        hit. The player opens it. An enemy is turned around when it walks into the
        door's back or into a special door, and otherwise opens it and is stunned.
        A jumping actor is redirected 40 pixels back, to land falling, and the call
        reports no hit. An open door, or one not touched, does nothing. */
    method CheckCollision(entity: Actor, enemy: bool := false) returns (hit: bool)
      requires Valid()
      modifies this`width, this`rect, this`state
      modifies entity`direction, entity`state, entity`jumpStart, entity`jumpEnd
      ensures Valid()
      ensures var touching := Overlaps(old(rect), entity.rect) && old(state) != 0;
        hit <==> touching && (old(entity.state) == Left || old(entity.state) == Right)
      ensures !(Overlaps(old(rect), entity.rect) && old(state) != 0) ==>
        state == old(state) && rect == old(rect) && width == old(width) && entity.SameMotion()
      ensures hit && !enemy ==> state == 0 && width == 50
      ensures hit && !enemy ==> Opened(entity, 50, false)
      ensures !enemy ==> PlayerChecked(entity)
      ensures !enemy ==> (View(), entity.CurrentMotion()) == PlayerMeets(old(View()), entity.rect, old(entity.CurrentMotion()))
      ensures hit && enemy && !special && (old(state) == -1) == (old(entity.state) == Right) ==> Opened(entity, 50, true)
      ensures enemy ==> (View(), entity.CurrentMotion()) == EnemyMeets(old(View()), entity.rect, old(entity.CurrentMotion()))
      ensures hit && enemy && special ==>
        state == old(state) && rect == old(rect) && width == old(width) &&
        entity.state == (if old(entity.state) == Left then Right else Left) &&
        entity.direction == old(entity.direction)
      ensures hit && enemy && !special && old(state) == -1 && old(entity.state) == Left ==>
        state == old(state) && entity.state == Right
      ensures hit && enemy && !special && old(state) == 1 && old(entity.state) == Right ==>
        state == old(state) && entity.state == Left
      ensures hit && enemy && !special && old(state) == -1 && old(entity.state) == Right ==>
        state == 0 && entity.JumpingTo(Point(entity.rect.x - 50 + old(width) - 10, entity.rect.Bottom()), Stun)
      ensures hit && enemy && !special && old(state) == 1 && old(entity.state) == Left ==>
        state == 0 && entity.JumpingTo(Point(entity.rect.x + 50 - old(width) + 10, entity.rect.Bottom()), Stun)
      ensures Overlaps(old(rect), entity.rect) && old(state) != 0 && old(entity.state) == Jump ==>
        state == old(state) && rect == old(rect) && width == old(width) &&
        (old(entity.direction) == Left ==> entity.JumpingTo(Point(entity.rect.x + 40, entity.rect.Bottom()), Down)) &&
        (old(entity.direction) == Right ==> entity.JumpingTo(Point(entity.rect.x - 40, entity.rect.Bottom()), Down)) &&
        (old(entity.direction) != Left && old(entity.direction) != Right ==> entity.SameMotion())
      ensures (Overlaps(old(rect), entity.rect) && old(state) != 0 &&
        !(old(entity.state) in {Left, Right, Jump})) ==>
        state == old(state) && rect == old(rect) && width == old(width) && entity.SameMotion()
    {
      hit := false;
      if Overlaps(rect, entity.rect) {
        if state == -1 || state == 1 {
          if entity.state == Left || entity.state == Right {
            if !enemy {
              Open(entity);
            } else if !special {
              if state == -1 && entity.state == Left {
                entity.state := Right;
              } else if state == 1 && entity.state == Right {
                entity.state := Left;
              } else {
                Open(entity, enemy := true);
              }
            } else {
              if entity.state == Left {
                entity.state := Right;
              } else if entity.state == Right {
                entity.state := Left;
              }
            }
            hit := true;
          } else if entity.state == Jump {
            if entity.direction == Left {
              entity.JumpTo(entity.rect.x + 40, entity.rect.Bottom(), Down);
            } else if entity.direction == Right {
              entity.JumpTo(entity.rect.x - 40, entity.rect.Bottom(), Down);
            }
          }
        }
      }
    }
  }
}

=== FILE: entity.dfy ===
/** Actors: the player (Mappy) and the enemies (Meowkies) share one motion state
    machine (entities/entity.py); the few rules that differ between the two kinds
    (animation counters, the screen clamp, the death animation) are selected by
    `isEnemy`. */
module Entities {
  import opened Basics
  import opened Geometry
  import opened Settings
  import opened Platforms

  /** The motion states an actor can be in. */
  datatype State = Idle | Left | Right | Up | Down | Jump | Stun | LeftStun | RightStun

  /** An actor's motion: its state and its recorded jump (the state it lands in, and
      where it started and ends). */
  datatype Motion = Motion(state: State, direction: State, jumpStart: Point, jumpEnd: Point)

  /** The point on a jump arc at a given frame: (start, end, duration, frame) to midbottom.
      The arc is computed in floating point by the game; the model leaves it abstract. */
  type ArcFn = (Point, Point, nat, nat) -> Point

  /** An actor above this line is sent down again. */
  const CEILING: int := 80

  /** The player is kept inside the playfield between the outer walls. */
  const PLAYER_BOUNDS: Rect := Rect(60, 0, SCREEN_WIDTH - 120, SCREEN_HEIGHT)

  predicate Lateral(s: State) { s == Idle || s == Left || s == Right }
  predicate Vertical(s: State) { s == Idle || s == Up || s == Down }

  /** A sideways move request is honoured only from idle or from walking. */
  function LateralMove(s: State, to: State): (r: State)
    requires to == Left || to == Right
    ensures Lateral(s) <==> r == to
    ensures !Lateral(s) ==> r == s
  {
    if Lateral(s) then to else s
  }

  /** A vertical move request is honoured only from idle or from moving vertically. */
  function VerticalMove(s: State, to: State): (r: State)
    requires to == Up || to == Down
    ensures Vertical(s) <==> r == to
    ensures !Vertical(s) ==> r == s
  {
    if Vertical(s) then to else s
  }

  /** One frame of motion outside a jump: the rectangle moves along exactly one axis
      by the actor's speed, or not at all. */
  function Moved(r: Rect, s: State, speedX: int, speedY: int): (m: Rect)
    ensures m.w == r.w && m.h == r.h
    ensures m.x == r.x || m.y == r.y
    ensures (s == Left || s == LeftStun) ==> m.x == r.x - speedX && m.y == r.y
    ensures (s == Right || s == RightStun) ==> m.x == r.x + speedX && m.y == r.y
    ensures s == Up ==> m.x == r.x && m.y == r.y - speedY
    ensures s == Down ==> m.x == r.x && m.y == r.y + speedY
    ensures (s == Idle || s == Stun || s == Jump) ==> m == r
  {
    match s
    case Left | LeftStun => r.ShiftX(-speedX)
    case Right | RightStun => r.ShiftX(speedX)
    case Up => r.ShiftY(-speedY)
    case Down => r.ShiftY(speedY)
    case _ => r
  }

  /** `rect_on_left`: some member of the group has its centre strictly left of `me`'s. */
  function RectOnLeft(group: seq<Platform>, me: Rect): (b: bool)
    ensures b <==> exists i :: 0 <= i < |group| && group[i].rect.CenterX() < me.CenterX()
  {
    if group == [] then false
    else if group[0].rect.CenterX() < me.CenterX() then true
    else
      var rest := RectOnLeft(group[1..], me);
      assert forall i :: 1 <= i < |group| ==> group[i] == group[1..][i - 1];
      rest
  }

  /** `rect_on_right`: some member of the group has its centre strictly right of `me`'s. */
  function RectOnRight(group: seq<Platform>, me: Rect): (b: bool)
    ensures b <==> exists i :: 0 <= i < |group| && me.CenterX() < group[i].rect.CenterX()
  {
    if group == [] then false
    else if me.CenterX() < group[0].rect.CenterX() then true
    else
      var rest := RectOnRight(group[1..], me);
      assert forall i :: 1 <= i < |group| ==> group[i] == group[1..][i - 1];
      rest
  }

  /** The positions, from `lo` on, of the group members that overlap `me`, each once
      and from first to last. */
  function OverlapIndices(group: seq<Platform>, me: Rect, lo: nat): (idx: seq<nat>)
    requires lo <= |group|
    ensures forall k :: 0 <= k < |idx| ==> lo <= idx[k] < |group| && Overlaps(me, group[idx[k]].rect)
    ensures forall k, l :: 0 <= k < l < |idx| ==> idx[k] < idx[l]
    ensures forall i :: lo <= i < |group| && Overlaps(me, group[i].rect) ==> i in idx
    decreases |group| - lo
  {
    if lo == |group| then []
    else
      var rest := OverlapIndices(group, me, lo + 1);
      if Overlaps(me, group[lo].rect) then [lo] + rest else rest
  }

  /** The members of the group from `lo` on that overlap `me`, in group order. */
  function CollisionsFrom(group: seq<Platform>, me: Rect, lo: nat): (r: seq<Platform>)
    requires lo <= |group|
    ensures var idx := OverlapIndices(group, me, lo);
      |r| == |idx| && forall k :: 0 <= k < |r| ==> r[k] == group[idx[k]]
    decreases |group| - lo
  {
    if lo == |group| then []
    else
      var rest := CollisionsFrom(group, me, lo + 1);
      ghost var idx := OverlapIndices(group, me, lo + 1);
      if Overlaps(me, group[lo].rect) then
        assert OverlapIndices(group, me, lo) == [lo] + idx;
        [group[lo]] + rest
      else
        assert OverlapIndices(group, me, lo) == idx;
        rest
  }

  /** `list_group_collisions`: the members of the group that overlap `me`, in group
      order, each as often as it occurs in the group: the k-th collision is the
      member at the k-th overlapping position. */
  function Collisions(group: seq<Platform>, me: Rect): (r: seq<Platform>)
    ensures |r| <= |group|
    ensures forall p :: p in r <==> p in group && Overlaps(me, p.rect)
    ensures var idx := OverlapIndices(group, me, 0);
      |r| == |idx| && forall k :: 0 <= k < |r| ==> r[k] == group[idx[k]]
  {
    var r := CollisionsFrom(group, me, 0);
    var idx := OverlapIndices(group, me, 0);
    CountIncreasing(idx, |group|);
    assert forall p :: p in group && Overlaps(me, p.rect) ==> p in r by {
      forall p | p in group && Overlaps(me, p.rect)
        ensures p in r
      {
        var i :| 0 <= i < |group| && group[i] == p;
        var k :| 0 <= k < |idx| && idx[k] == i;
        assert r[k] == p;
      }
    }
    r
  }

  /** A strictly increasing sequence of positions below `n` has at most `n` elements. */
  lemma {:induction false} CountIncreasing(idx: seq<nat>, n: nat)
    requires forall k :: 0 <= k < |idx| ==> idx[k] < n
    requires forall k, l :: 0 <= k < l < |idx| ==> idx[k] < idx[l]
    ensures |idx| <= n
  {
    if |idx| > 0 {
      var last := idx[|idx| - 1];
      assert forall k :: 0 <= k < |idx| - 1 ==> idx[k] < last;
      CountIncreasing(idx[..|idx| - 1], last);
    }
  }

  class Actor {
    /** Meowky (true) or Mappy (false). */
    const isEnemy: bool
    const jumpDuration: nat

    var rect: Rect
    var speedX: int
    var speedY: int
    /** The state taken when the current jump lands. */
    var direction: State
    var state: State
    /** The platform the actor may step onto sideways while riding up. */
    var platformChange: Option<Platform>
    var jumpStart: Point
    var jumpEnd: Point
    var jumpFrame: nat
    var animationCounter: int
    var animationFrame: int
    /** Player only. */
    var lifes: int
    var deathAnimationCounter: int
    var deathAnimationFrame: int
    /** Enemy only. */
    var stunCounter: int

    /** `Mappy(x, y, lifes)`: a 30 x 30 player at top-left (x, y). */
    constructor Mappy(x: int, y: int, lifes: int := 4)
      ensures !isEnemy && rect == Rect(x, y, MAPPY_W, MAPPY_H)
      ensures speedX == 3 && speedY == 5 && state == Idle && direction == Idle
      ensures platformChange == None && jumpFrame == 0 && jumpDuration == 20
      ensures animationCounter == 1 && animationFrame == 1
      ensures this.lifes == lifes && deathAnimationCounter == 0 && deathAnimationFrame == 1
    {
      isEnemy := false;
      jumpDuration := 20;
      rect := Rect(x, y, MAPPY_W, MAPPY_H);
      speedX, speedY := 3, 5;
      direction, state := Idle, Idle;
      platformChange := None;
      jumpStart, jumpEnd := Point(0, 0), Point(0, 0);
      jumpFrame := 0;
      animationCounter, animationFrame := 1, 1;
      this.lifes := lifes;
      deathAnimationCounter, deathAnimationFrame := 0, 1;
      stunCounter := 0;
    }

    /** `Meowky(x, y)`: a 25 x 30 enemy at top-left (x, y), slower sideways than the player. */
    constructor Meowky(x: int, y: int)
      ensures isEnemy && rect == Rect(x, y, MEOWKY_W, MEOWKY_H)
      ensures speedX == 2 && speedY == 5 && state == Idle && direction == Idle
      ensures platformChange == None && jumpFrame == 0 && jumpDuration == 20
      ensures animationCounter == 1 && animationFrame == 1 && stunCounter == 0
    {
      isEnemy := true;
      jumpDuration := 20;
      rect := Rect(x, y, MEOWKY_W, MEOWKY_H);
      speedX, speedY := 2, 5;
      direction, state := Idle, Idle;
      platformChange := None;
      jumpStart, jumpEnd := Point(0, 0), Point(0, 0);
      jumpFrame := 0;
      animationCounter, animationFrame := 1, 1;
      lifes := 0;
      deathAnimationCounter, deathAnimationFrame := 0, 1;
      stunCounter := 0;
    }

    /** The actor is in the air towards `target`, and lands in state `dir`. */
    predicate JumpingTo(target: Point, dir: State)
      reads this
    {
      state == Jump && direction == dir && jumpStart == rect.Center() && jumpEnd == target
    }

    /** The actor's motion as a value. */
    function CurrentMotion(): (m: Motion)
      reads this
      ensures m.state == state && m.direction == direction && m.jumpStart == jumpStart && m.jumpEnd == jumpEnd
    {
      Motion(state, direction, jumpStart, jumpEnd)
    }

    /** Neither the motion state nor the recorded jump changed. */
    twostate predicate SameMotion()
      reads this
    {
      state == old(state) && direction == old(direction) &&
      jumpStart == old(jumpStart) && jumpEnd == old(jumpEnd)
    }

    /** `jump_to`: start a jump from the current centre towards (x, y), landing in `dir`. */
    method JumpTo(x: int, y: int, dir: State)
      modifies this`direction, this`state, this`jumpStart, this`jumpEnd
      ensures direction == dir && state == Jump
      ensures jumpStart == rect.Center() && jumpEnd == Point(x, y)
    {
      direction := dir;
      state := Jump;
      jumpStart := rect.Center();
      jumpEnd := Point(x, y);
    }

    /** The outcome of a sideways move request towards `dir` (`Left` or `Right`):
        while an up-ride has found a platform and some platform lies on that side,
        a jump 50 pixels that way onto the found platform; otherwise the state of
        `LateralMove` and the recorded jump untouched. */
    twostate predicate SideMoved(platforms: seq<Platform>, dir: State)
      reads this
    {
      var there := if dir == Left then RectOnLeft(platforms, rect) else RectOnRight(platforms, rect);
      if (dir == Left || dir == Right) && platformChange.Some? && there then
        JumpingTo(Point(rect.CenterX() + (if dir == Left then -50 else 50), platformChange.value.rect.Top() + 1), dir)
      else
        (dir == Left || dir == Right) && state == LateralMove(old(state), dir) &&
        direction == old(direction) && jumpStart == old(jumpStart) && jumpEnd == old(jumpEnd)
    }

    /** `move_left`: walk left when allowed; while an up-ride has found a platform and
        some platform lies to the left, jump 50 pixels left onto it instead. */
    method MoveLeft(platforms: seq<Platform>)
      modifies this`direction, this`state, this`jumpStart, this`jumpEnd
      ensures SideMoved(platforms, Left)
    {
      state := LateralMove(state, Left);
      if platformChange.Some? && RectOnLeft(platforms, rect) {
        JumpTo(rect.CenterX() - 50, platformChange.value.rect.Top() + 1, Left);
      }
    }

    /** `move_right`: the mirror image of `MoveLeft`. */
    method MoveRight(platforms: seq<Platform>)
      modifies this`direction, this`state, this`jumpStart, this`jumpEnd
      ensures SideMoved(platforms, Right)
    {
      state := LateralMove(state, Right);
      if platformChange.Some? && RectOnRight(platforms, rect) {
        JumpTo(rect.CenterX() + 50, platformChange.value.rect.Top() + 1, Right);
      }
    }

    method MoveUp()
      modifies this`state
      ensures state == VerticalMove(old(state), Up)
    {
      state := VerticalMove(state, Up);
    }

    method MoveDown()
      modifies this`state
      ensures state == VerticalMove(old(state), Down)
    {
      state := VerticalMove(state, Down);
    }

    method Stop()
      modifies this`state
      ensures state == Idle
    {
      state := Idle;
    }

    /** `follow_parabolic_trajectory`: once the jump has lasted its duration the actor
        lands exactly on the recorded end point and takes the recorded direction;
        before that it is placed on the arc. */
    method FollowTrajectory(arc: ArcFn)
      modifies this`jumpFrame, this`rect, this`state
      ensures old(jumpFrame) >= jumpDuration ==>
        jumpFrame == 0 && rect.MidBottom() == jumpEnd && state == direction
      ensures old(jumpFrame) < jumpDuration ==>
        jumpFrame == old(jumpFrame) && state == old(state) &&
        rect.MidBottom() == arc(jumpStart, jumpEnd, jumpDuration, old(jumpFrame))
      ensures rect.w == old(rect).w && rect.h == old(rect).h
    {
      if jumpFrame >= jumpDuration {
        jumpFrame := 0;
        rect := rect.WithMidBottom(jumpEnd);
        state := direction;
        return;
      }
      rect := rect.WithMidBottom(arc(jumpStart, jumpEnd, jumpDuration, jumpFrame));
    }

    /** `animate`, reduced to the counters it steps (the image choice is left out).
        The player counts frames while walking; the enemy cycles its walking frame
        through 1..3, advancing when the counter is a multiple of 10. */
    method Animate()
      modifies this`animationCounter, this`animationFrame
      ensures !(state == Left || state == Right) ==>
        animationCounter == old(animationCounter) && animationFrame == old(animationFrame)
      ensures (state == Left || state == Right) && !isEnemy ==>
        animationCounter == old(animationCounter) + 1 && animationFrame == old(animationFrame)
      ensures (state == Left || state == Right) && isEnemy && old(animationFrame) <= 2 ==>
        animationCounter == old(animationCounter) + 1 &&
        animationFrame == old(animationFrame) + (if old(animationCounter) % 10 == 0 then 1 else 0)
      ensures (state == Left || state == Right) && isEnemy && old(animationFrame) > 2 ==>
        animationCounter == old(animationCounter) && animationFrame == 1
      ensures isEnemy && 1 <= old(animationFrame) <= 3 ==> 1 <= animationFrame <= 3
    {
      if state == Left || state == Right {
        if !isEnemy {
          animationCounter := animationCounter + 1;
        } else if animationFrame <= 2 {
          if animationCounter % 10 == 0 {
            animationFrame := animationFrame + 1;
          }
          animationCounter := animationCounter + 1;
        } else {
          animationFrame := 1;
        }
      }
    }

    /** `update`: animate unless stunned, move one frame (or one step of the jump),
        send the actor down if it rose above the ceiling; the player is then kept
        inside the playfield. */
    method Update(arc: ArcFn)
      modifies this`rect, this`state, this`jumpFrame, this`animationCounter, this`animationFrame
      ensures var landed := old(state) == Jump && old(jumpFrame) >= jumpDuration;
        var moved :=
          if old(state) != Jump then Moved(old(rect), old(state), speedX, speedY)
          else if landed then old(rect).WithMidBottom(jumpEnd)
          else old(rect).WithMidBottom(arc(jumpStart, jumpEnd, jumpDuration, old(jumpFrame)));
        var s := if landed then direction else old(state);
        rect == (if isEnemy then moved else Clamp(moved, PLAYER_BOUNDS)) &&
        state == (if moved.y < CEILING then Down else s) &&
        jumpFrame == (if old(state) != Jump then old(jumpFrame) else if landed then 1 else old(jumpFrame) + 1)
      ensures rect.w == old(rect).w && rect.h == old(rect).h
    {
      if state != Stun {
        Animate();
      }
      if state != Jump {
        rect := Moved(rect, state, speedX, speedY);
      } else {
        FollowTrajectory(arc);
        jumpFrame := jumpFrame + 1;
      }
      if rect.y < CEILING {
        state := Down;
      }
      if !isEnemy {
        rect := Clamp(rect, PLAYER_BOUNDS);
      }
    }

    /** One call of `animate_death` on the player: stunned, and the death frame
        counter advances as `AnimateDeath` says. */
    twostate predicate DeathAnimated()
      reads this
    {
      state == Stun &&
      (old(deathAnimationFrame) < 7 ==>
        deathAnimationCounter == old(deathAnimationCounter) + 1 &&
        deathAnimationFrame == old(deathAnimationFrame) + (if old(deathAnimationCounter) % 15 == 0 then 1 else 0)) &&
      (old(deathAnimationFrame) >= 7 ==>
        deathAnimationCounter == old(deathAnimationCounter) && deathAnimationFrame == old(deathAnimationFrame))
    }

    /** `animate_death`: the player is stunned and its death frame advances every
        15 calls up to frame 7; for an enemy only the image changes. */
    method AnimateDeath()
      modifies this`state, this`deathAnimationCounter, this`deathAnimationFrame
      ensures isEnemy ==> (state == old(state) &&
        deathAnimationCounter == old(deathAnimationCounter) && deathAnimationFrame == old(deathAnimationFrame))
      ensures !isEnemy ==> state == Stun
      ensures !isEnemy && old(deathAnimationFrame) < 7 ==>
        deathAnimationCounter == old(deathAnimationCounter) + 1 &&
        deathAnimationFrame == old(deathAnimationFrame) + (if old(deathAnimationCounter) % 15 == 0 then 1 else 0)
      ensures !isEnemy && old(deathAnimationFrame) >= 7 ==>
        deathAnimationCounter == old(deathAnimationCounter) && deathAnimationFrame == old(deathAnimationFrame)
      ensures old(deathAnimationFrame) <= 7 ==> deathAnimationFrame <= 7
    {
      if !isEnemy {
        state := Stun;
        if deathAnimationFrame < 7 {
          if deathAnimationCounter % 15 == 0 {
            deathAnimationFrame := deathAnimationFrame + 1;
          }
          deathAnimationCounter := deathAnimationCounter + 1;
        }
      }
    }
  }
}

=== FILE: game.dfy ===
/** The game loop (core/game.py): the scene machine that takes the player from the
    start screen through the rounds, the pauses between them, the misses and the game
    over to the scores screen. Sound, music, drawing and the scores and progress
    files are left out: what is read from a file arrives as a parameter, and what is
    written to one is not modelled. */
module GameLoop {
  import opened Basics
  import opened Geometry
  import opened Settings
  import opened Entities
  import opened EnemyRules
  import opened Helpers
  import opened Levels
  import opened Platforms
  import opened Layout
  import opened HudScene
  import opened Scores

  /** The scenes of the game. */
  datatype Scene =
    | StartScene | LevelScene | BlockScene | ChangeScene | ResetScene
    | GameOverScene | GameOverScreenScene | ScoresScene | PauseScene

  /** The keys the game reacts to; every other key is `OtherKey`. */
  datatype Key = SpaceKey | LKey | QKey | EscapeKey | LeftKey | RightKey | UpKey | DownKey | OtherKey

  /** A key pressed, a key released, or any other event. */
  datatype Event = KeyDown(key: Key) | KeyUp(key: Key) | OtherEvent

  /** The progress saved when a game is left from the pause screen; round -1 means
      nothing was saved. */
  datatype Progress = Progress(round: int, score: int, lifes: int)

  /** What goes into building a round: the layout templates (`templates(t)` is
      template t), the random draws of the item and door generators (bounded by
      `maxPasses` passes), the facing of each door, the widths of the item images
      and the size of the roof image. */
  datatype LevelDraws = LevelDraws(
    templates: nat -> seq<seq<int>>,
    itemRoll: (nat, nat, nat) -> bool, itemPick: (nat, nat, nat) -> ItemKind,
    doorRoll: (nat, nat, nat) -> bool, doorSpecial: (nat, nat, nat) -> bool,
    maxPasses: nat, coinLeft: (nat, nat) -> bool, itemWidth: int -> nat,
    roofW: nat, roofH: nat)

  /** How many frames each timed scene lasts before it moves on. */
  const LEVEL_INTRO: int := FPS * 2
  const CLEAR_PAUSE: int := FPS * 3
  const CHANGE_PAUSE: int := FPS * 2
  const MISS_PAUSE: int := FPS * 4
  const GAME_OVER_PAUSE: int := FPS * 4
  const GAME_OVER_SCREEN: int := FPS * 10

  /** The screen's middle column, which the camera keeps the player on. */
  const SCREEN_MID: int := SCREEN_WIDTH / 2
  /** Where the player starts a round. */
  const PLAYER_START: Point := Point(SCREEN_WIDTH - 170, SCREEN_HEIGHT - 119)
  /** The lives of a new game. */
  const START_LIFES: int := 4

  /** A layout template: at least one row, all rows equally long. */
  predicate Template(g: seq<seq<int>>) {
    |g| > 0 && Shaped(g, |g|, |g[0]|)
  }

  /** The four layout templates are well formed. */
  predicate Buildable(build: LevelDraws) {
    forall t :: 0 <= t < 4 ==> Template(build.templates(t))
  }

  /** A round that is played: 1 to 30 and not a bonus round. */
  predicate Playable(round: int) {
    1 <= round <= 30 && !IsBonus(round)
  }

  // ------------------------------------------------------------------ rounds

  /** The round after `round` as `block_level` computes it: the next number modulo 30. */
  function NextRoundAsWritten(round: int): (r: int)
    ensures 0 <= r < 30
  {
    (round + 1) % 30
  }

  /** As written, the round after 29 is round 0, which is not a bonus round, so the
      game goes on to build it, and round 0 has no layout template. Round 30 is never
      reached. */
  lemma RoundZeroAfter29()
    ensures NextRoundAsWritten(29) == 0 && !IsBonus(0) && LevelTemplate(0).None?
    ensures forall n :: NextRoundAsWritten(n) != 30
  {
  }

  /** The round after `round`, going round from 30 back to 1. */
  function NextRound(round: int): (r: int)
    ensures 1 <= r <= 30
  {
    round % 30 + 1
  }

  /** The corrected round order differs from the written one only after round 29. */
  lemma NextRoundAgrees(round: int)
    requires 1 <= round <= 30 && round != 29
    ensures NextRound(round) == NextRoundAsWritten(round)
  {
  }

  /** After any round comes a playable round or a bonus round, after a bonus round a
      playable round; so every round the game builds has a template. */
  lemma NextRoundPlayable(round: int)
    requires 1 <= round <= 30
    ensures Playable(NextRound(round)) || IsBonus(NextRound(round))
    ensures IsBonus(round) ==> Playable(NextRound(round))
    ensures Playable(NextRound(round)) ==> LevelTemplate(NextRound(round)).Some?
  {
    TemplatesCoverPlayableRounds(NextRound(round));
  }

  // ------------------------------------------------------------------ misses

  /** A miss costs a life; the game goes on while the lives left are not negative. */
  function AfterMiss(lifes: int): (r: (int, Scene))
    ensures r.0 == lifes - 1
    ensures r.1 == ResetScene <==> lifes - 1 >= 0
    ensures r.1 == GameOverScene <==> lifes - 1 < 0
  {
    (lifes - 1, if lifes - 1 + 1 > 0 then ResetScene else GameOverScene)
  }

  /** The lives after `n` misses from `lifes`, and whether the game is over. */
  function Misses(n: nat, lifes: int): (int, bool) {
    if n == 0 then (lifes, false)
    else
      var before := Misses(n - 1, lifes);
      var after := AfterMiss(before.0);
      (after.0, before.1 || after.1 == GameOverScene)
  }

  /** With the lives of a new game the first four misses restart the round and the
      fifth ends the game. */
  lemma {:induction false} FifthMissEndsGame(n: nat)
    requires n <= 5
    ensures Misses(n, START_LIFES) == (START_LIFES - n, n == 5)
  {
    if n > 0 {
      FifthMissEndsGame(n - 1);
    }
  }

  // ------------------------------------------------------------------ camera

  /** `scroll_screen` moves the level left: it is wider than the screen, the player
      is right of the middle and the level's right end is not yet in view. */
  predicate ScrollsLeft(levelWidth: int, offset: int, centerX: int) {
    levelWidth > SCREEN_WIDTH && centerX > SCREEN_MID && (SCREEN_WIDTH - 60) - offset < levelWidth
  }

  /** `scroll_screen` moves the level right: it is wider than the screen, the player
      is left of the middle and the level has been moved left. */
  predicate ScrollsRight(levelWidth: int, offset: int, centerX: int) {
    levelWidth > SCREEN_WIDTH && centerX < SCREEN_MID && -offset > 0
  }

  /** How far the camera follows: the player's speed when walking that way, one
      pixel less otherwise. */
  function Follow(state: State, toward: State, speed: int): (m: int)
    ensures speed - 1 <= m <= speed
  {
    if state == toward then speed else speed - 1
  }

  /** The offset of the level after one `scroll_screen`. */
  function CameraOffset(levelWidth: int, offset: int, centerX: int, state: State, speed: int): int {
    if ScrollsLeft(levelWidth, offset, centerX) then offset - Follow(state, Right, speed)
    else if ScrollsRight(levelWidth, offset, centerX) then offset + Follow(state, Left, speed)
    else offset
  }

  /** A level starts with its right end 60 pixels from the right of the screen, at
      offset 540 - width. As long as the player moves at least one pixel a frame,
      the camera keeps within one step of that start and of offset 0. */
  lemma CameraBounded(levelWidth: int, offset: int, centerX: int, state: State, speed: int)
    requires speed >= 1
    requires (SCREEN_WIDTH - 60) - levelWidth - speed < offset < speed
    ensures var o := CameraOffset(levelWidth, offset, centerX, state, speed);
      (SCREEN_WIDTH - 60) - levelWidth - speed < o < speed
  {
  }

  /** The shift `update_level` applies to reset the camera after a miss. */
  function CameraReset(levelWidth: int, offset: int): int {
    -Abs(levelWidth - (SCREEN_WIDTH + Abs(offset) - 60))
  }

  /** Where the reset leaves the camera, for every offset. Between the level's start
      position (540 - width) and offset 0 it is the start position. The camera can
      pass either end by less than one step (`CameraBounded`), and then the reset
      misses the start: an offset `d` pixels short of the start ends `d` pixels
      beyond it, and an offset `d` pixels right of 0 ends `2d` pixels right of the
      start. */
  lemma CameraResetReturns(levelWidth: int, offset: int)
    ensures var start, o := (SCREEN_WIDTH - 60) - levelWidth, offset + CameraReset(levelWidth, offset);
      (start <= offset <= 0 ==> o == start) &&
      (offset < start && offset <= 0 ==> o == 2 * offset - start) &&
      (0 < offset <= -start ==> o == start + 2 * offset) &&
      (0 < offset && -start < offset ==> o == -start)
  {
  }

  // ------------------------------------------------------------------ scenes

  /** The scenes a scene can move to in one frame or one event. */
  function Successors(s: Scene): (next: set<Scene>)
    ensures s in next
  {
    match s
    case StartScene => {StartScene, ChangeScene}
    case LevelScene => {LevelScene, BlockScene, ResetScene, GameOverScene, PauseScene}
    case BlockScene => {BlockScene, ChangeScene}
    case ChangeScene => {ChangeScene, LevelScene}
    case ResetScene => {ResetScene, LevelScene}
    case GameOverScene => {GameOverScene, GameOverScreenScene}
    case GameOverScreenScene => {GameOverScreenScene, ScoresScene}
    case ScoresScene => {ScoresScene, StartScene}
    case PauseScene => {PauseScene, LevelScene, StartScene}
  }

  /** The scores screen is reached only through the game over and its screen. */
  lemma ScoresOnlyAfterGameOver(s: Scene)
    requires ScoresScene in Successors(s)
    ensures s == GameOverScreenScene || s == ScoresScene
  {
  }

  /** The scenes in which a level is on screen or about to be resumed. */
  predicate InPlay(s: Scene) {
    s == LevelScene || s == PauseScene || s == ResetScene
  }

  /** `Game`: the state of the running game. The round's level exists from the first
      change scene on. */
  class Game {
    var scene: Scene
    var initialLevelScore: int
    var levelNumber: int
    var level: Level?
    var blockCount: int
    var controls: bool
    const player: Actor
    const hud: Hud
    const scoresScreen: ScoresScreen

    /** The round number is in range and playable outside the pause between rounds,
        a level is there and well formed whenever one is played, the player is
        not an enemy and the name being entered has three places. */
    ghost predicate Valid()
      reads this`scene, this`levelNumber, this`level, scoresScreen`currentName, scoresScreen`selectedLetterIndex
      reads level, if level == null then [] else level.trampolines
      reads if level == null then [] else level.items, if level == null then [] else level.doors
    {
      !player.isEnemy && scoresScreen.Valid() &&
      1 <= levelNumber <= 30 && (scene != BlockScene ==> !IsBonus(levelNumber)) &&
      (InPlay(scene) ==> level != null && level.Valid())
    }

    constructor (saved: seq<ScoreEntry>)
      ensures Valid()
      ensures scene == StartScene && initialLevelScore == 0 && levelNumber == 1
      ensures level == null && blockCount == 0 && !controls
      ensures player.rect == Rect(PLAYER_START.x, PLAYER_START.y, MAPPY_W, MAPPY_H) && player.lifes == START_LIFES
      ensures hud.currentScore == 0 && hud.highScore == HighScore(saved) && hud.playerLifes == START_LIFES
      ensures scoresScreen.currentName == "..." && scoresScreen.prevScores == saved
    {
      scene := StartScene;
      initialLevelScore := 0;
      levelNumber := 1;
      level := null;
      blockCount := 0;
      controls := false;
      var p := new Actor.Mappy(PLAYER_START.x, PLAYER_START.y);
      player := p;
      var h := new Hud(saved);
      h.playerLifes := p.lifes;
      hud := h;
      scoresScreen := new ScoresScreen(saved);
    }

    // ---------------------------------------------------------------- events

    /** `handle_event`: the start screen starts a game or resumes a saved one, the
        round reacts to the arrows and the escape key once the controls are on, the
        scores screen edits the name and files it, and the pause screen resumes or
        leaves the game. `progress` is what the progress file holds and `saved` the
        scores file. */
    method HandleEvent(ev: Event, progress: Progress, saved: seq<ScoreEntry>)
      requires Valid()
      requires progress.round == -1 || Playable(progress.round)
      modifies this`scene, this`levelNumber, this`level, this`blockCount
      modifies player`state, player`lifes, player`direction, player`jumpStart, player`jumpEnd
      modifies hud`currentScore, hud`playerLifes
      modifies scoresScreen`selectedLetterIndex, scoresScreen`currentName
      modifies scoresScreen`prevScores, scoresScreen`top5, scoresScreen`isCurrentInTop
      ensures Valid()
      ensures scene in Successors(old(scene))
    {
      match scene {
        case StartScene =>
          StartEvent(ev, progress);
        case LevelScene =>
          if controls {
            LevelEvent(ev);
          }
        case ScoresScene =>
          ScoresEvent(ev, saved);
        case PauseScene =>
          PauseEvent(ev);
        case _ =>
      }
    }

    /** The start screen: space starts a new game, `L` resumes the saved one when
        there is one. */
    method StartEvent(ev: Event, progress: Progress)
      requires Valid() && scene == StartScene
      requires progress.round == -1 || Playable(progress.round)
      modifies this`scene, this`levelNumber, player`lifes, hud`currentScore, hud`playerLifes
      ensures Valid()
      ensures ev == KeyDown(SpaceKey) ==>
        scene == ChangeScene && levelNumber == old(levelNumber) && player.lifes == old(player.lifes) &&
        hud.currentScore == old(hud.currentScore) && hud.playerLifes == old(hud.playerLifes)
      ensures ev == KeyDown(LKey) && progress.round != -1 ==>
        scene == ChangeScene && levelNumber == progress.round && hud.currentScore == progress.score &&
        player.lifes == progress.lifes && hud.playerLifes == progress.lifes
      ensures ev != KeyDown(SpaceKey) && !(ev == KeyDown(LKey) && progress.round != -1) ==>
        scene == StartScene && levelNumber == old(levelNumber) && player.lifes == old(player.lifes) &&
        hud.currentScore == old(hud.currentScore) && hud.playerLifes == old(hud.playerLifes)
    {
      if ev == KeyDown(SpaceKey) {
        scene := ChangeScene;
      }
      if ev == KeyDown(LKey) && progress.round != -1 {
        levelNumber := progress.round;
        hud.currentScore := progress.score;
        player.lifes := progress.lifes;
        hud.playerLifes := progress.lifes;
        scene := ChangeScene;
      }
    }

    /** A round with the controls on: the side arrows walk (or jump sideways off a
        rising trampoline), the down arrow turns a rise into a fall, escape pauses;
        releasing a side arrow while walking stops the player. */
    method LevelEvent(ev: Event)
      requires Valid() && scene == LevelScene
      modifies this`scene, player`state, player`direction, player`jumpStart, player`jumpEnd
      ensures Valid()
      ensures scene == (if ev == KeyDown(EscapeKey) then PauseScene else LevelScene)
      ensures ev.KeyUp? && (ev.key == LeftKey || ev.key == RightKey) && old(player.state) in {Left, Right} ==>
        player.state == Idle && player.direction == old(player.direction) &&
        player.jumpStart == old(player.jumpStart) && player.jumpEnd == old(player.jumpEnd)
      ensures ev.KeyUp? && !(old(player.state) in {Left, Right} && (ev.key == LeftKey || ev.key == RightKey)) ==>
        player.SameMotion()
      ensures ev.KeyDown? && ev.key == DownKey ==>
        player.state == (if old(player.state) == Up then Down else old(player.state)) &&
        player.direction == old(player.direction) &&
        player.jumpStart == old(player.jumpStart) && player.jumpEnd == old(player.jumpEnd)
      ensures ev.KeyDown? && (ev.key == LeftKey || ev.key == RightKey) && old(player.state) in {Idle, Left, Right, Up} ==>
        player.SideMoved(level.platforms, if ev.key == LeftKey then Left else Right)
      ensures ev.KeyDown? && (ev.key == LeftKey || ev.key == RightKey) && old(player.state) !in {Idle, Left, Right, Up} ==>
        player.SameMotion()
      ensures ev.KeyDown? && ev.key !in {LeftKey, RightKey, DownKey} ==> player.SameMotion()
      ensures !ev.KeyDown? && !ev.KeyUp? ==> player.SameMotion()
    {
      if ev.KeyDown? {
        if player.state in {Idle, Left, Right, Up} {
          if ev.key == LeftKey {
            player.MoveLeft(level.platforms);
          } else if ev.key == RightKey {
            player.MoveRight(level.platforms);
          }
        }
        if player.state == Up && ev.key == DownKey {
          player.MoveDown();
        }
        if ev.key == EscapeKey {
          scene := PauseScene;
        }
      } else if ev.KeyUp? {
        if player.state in {Left, Right} && (ev.key == LeftKey || ev.key == RightKey) {
          player.Stop();
        }
      }
    }

    /** The scores screen: the side arrows choose a letter, up and down change it
        and rank the name again, space files the score once all three letters are
        chosen and goes back to the start screen for a new game. */
    method ScoresEvent(ev: Event, saved: seq<ScoreEntry>)
      requires Valid() && scene == ScoresScene
      modifies this`scene, this`levelNumber, player`state, player`lifes, hud`currentScore
      modifies scoresScreen`selectedLetterIndex, scoresScreen`currentName
      modifies scoresScreen`prevScores, scoresScreen`top5, scoresScreen`isCurrentInTop
      ensures Valid()
      ensures ev == KeyDown(LeftKey) ==> scoresScreen.selectedLetterIndex == Selection(old(scoresScreen.selectedLetterIndex), ArrowLeft)
      ensures ev == KeyDown(RightKey) ==> scoresScreen.selectedLetterIndex == Selection(old(scoresScreen.selectedLetterIndex), ArrowRight)
      ensures ev == KeyDown(LeftKey) || ev == KeyDown(RightKey) ==>
        scoresScreen.currentName == old(scoresScreen.currentName)
      ensures ev == KeyDown(UpKey) || ev == KeyDown(DownKey) ==>
        scoresScreen.selectedLetterIndex == old(scoresScreen.selectedLetterIndex)
      ensures ev == KeyDown(UpKey) ==>
        scoresScreen.currentName == Renamed(old(scoresScreen.currentName), scoresScreen.selectedLetterIndex, ArrowUp) &&
        scoresScreen.top5 == Some(Top5(saved, scoresScreen.Current()))
      ensures ev == KeyDown(DownKey) ==>
        scoresScreen.currentName == Renamed(old(scoresScreen.currentName), scoresScreen.selectedLetterIndex, ArrowDown) &&
        scoresScreen.top5 == Some(Top5(saved, scoresScreen.Current()))
      ensures ev == KeyDown(SpaceKey) && '.' !in old(scoresScreen.currentName) ==>
        scene == StartScene && levelNumber == 1 && scoresScreen.currentName == "..." &&
        hud.currentScore == 0 && player.state == Idle && player.lifes == START_LIFES
      ensures !(ev == KeyDown(SpaceKey) && '.' !in old(scoresScreen.currentName)) ==>
        scene == ScoresScene && levelNumber == old(levelNumber) && player.state == old(player.state) &&
        player.lifes == old(player.lifes) && hud.currentScore == old(hud.currentScore)
      ensures !(ev.KeyDown? && ev.key in {LeftKey, RightKey, UpKey, DownKey}) ==>
        scoresScreen.selectedLetterIndex == old(scoresScreen.selectedLetterIndex)
      ensures !(ev.KeyDown? && ev.key in {UpKey, DownKey, SpaceKey}) ==>
        scoresScreen.currentName == old(scoresScreen.currentName)
    {
      if ev.KeyDown? {
        if ev.key == LeftKey {
          scoresScreen.ChangeSelection(ArrowLeft);
        } else if ev.key == RightKey {
          scoresScreen.ChangeSelection(ArrowRight);
        } else if ev.key == UpKey {
          RetypeLetter(scoresScreen, ArrowUp, saved);
        } else if ev.key == DownKey {
          RetypeLetter(scoresScreen, ArrowDown, saved);
        } else if ev.key == SpaceKey {
          if '.' !in scoresScreen.currentName {
            scene := StartScene;
            levelNumber := 1;
            scoresScreen.currentName := "...";
            hud.currentScore := 0;
            player.state := Idle;
            player.lifes := START_LIFES;
          }
        }
      }
    }

    /** Up or down on the scores screen: the chosen letter changes and the table
        is ranked again with the new name. */
    static method RetypeLetter(ss: ScoresScreen, a: Arrow, saved: seq<ScoreEntry>)
      requires ss.Valid()
      modifies ss`selectedLetterIndex, ss`currentName, ss`prevScores, ss`top5, ss`isCurrentInTop
      ensures ss.Valid() && ss.selectedLetterIndex == old(ss.selectedLetterIndex)
      ensures ss.currentName == Renamed(old(ss.currentName), ss.selectedLetterIndex, a)
      ensures ss.top5 == Some(Top5(saved, ss.Current()))
    {
      ss.ChangeLetter(a);
      ss.GenerateTop5WithStatus(saved);
    }

    /** The pause screen: escape resumes the round, `Q` leaves it for the start
        screen with a new game's round, score and lives and no level. */
    method PauseEvent(ev: Event)
      requires Valid() && scene == PauseScene
      modifies this`scene, this`levelNumber, this`level, this`blockCount
      modifies player`state, player`lifes, hud`currentScore, hud`playerLifes, scoresScreen`currentName
      ensures Valid()
      ensures ev == KeyDown(EscapeKey) ==> scene == LevelScene && level == old(level)
      ensures ev == KeyDown(QKey) ==>
        scene == StartScene && levelNumber == 1 && scoresScreen.currentName == "..." &&
        hud.currentScore == 0 && player.state == Idle && player.lifes == START_LIFES &&
        hud.playerLifes == START_LIFES && level == null && blockCount == 0
      ensures ev != KeyDown(EscapeKey) && ev != KeyDown(QKey) ==> scene == PauseScene && level == old(level)
      ensures ev != KeyDown(QKey) ==>
        levelNumber == old(levelNumber) && player.state == old(player.state) &&
        player.lifes == old(player.lifes) && hud.currentScore == old(hud.currentScore) &&
        hud.playerLifes == old(hud.playerLifes) && scoresScreen.currentName == old(scoresScreen.currentName) &&
        blockCount == old(blockCount)
    {
      if ev == KeyDown(EscapeKey) {
        scene := LevelScene;
      }
      if ev == KeyDown(QKey) {
        scene := StartScene;
        levelNumber := 1;
        scoresScreen.currentName := "...";
        hud.currentScore := 0;
        player.state := Idle;
        player.lifes := START_LIFES;
        hud.playerLifes := START_LIFES;
        level := null;
        blockCount := 0;
      }
    }

    // ---------------------------------------------------------------- frames

    /** `update`: the player's sprite updates in every scene, then the scene's own
        step runs. `draws(i)` and `arc` drive the enemies and the jumps of a round,
        `build` the building of a new round, `saved` is the scores file. */
    method Update(draws: nat -> EnemyDraw, arc: ArcFn, build: LevelDraws, saved: seq<ScoreEntry>)
      requires Valid() && Buildable(build)
      modifies this, player, hud, scoresScreen, level
      modifies if level == null then [] else level.trampolines, if level == null then [] else level.items
      modifies if level == null then [] else level.meowkies, if level == null then [] else level.doors
      modifies if level == null then [] else level.waves
      ensures Valid()
      ensures scene in Successors(old(scene))
    {
      player.Update(arc);
      SceneStep(draws, arc, build, saved);
    }

    /** The scene's own step in `update`, after the player's sprite has updated. */
    method SceneStep(draws: nat -> EnemyDraw, arc: ArcFn, build: LevelDraws, saved: seq<ScoreEntry>)
      requires Valid() && Buildable(build)
      modifies this, player, hud, scoresScreen, level
      modifies if level == null then [] else level.trampolines, if level == null then [] else level.items
      modifies if level == null then [] else level.meowkies, if level == null then [] else level.doors
      modifies if level == null then [] else level.waves
      ensures Valid()
      ensures scene in Successors(old(scene))
    {
      match scene {
        case LevelScene => UpdateLevel(draws, arc);
        case BlockScene => BlockLevel();
        case ChangeScene =>
          ghost var grid, itemsGrid, doorsGrid;
          grid, itemsGrid, doorsGrid := ChangeLevel(build);
        case ResetScene => ResetLevel();
        case GameOverScene => GameOver();
        case GameOverScreenScene => GameOverTransition(saved);
        case _ =>
      }
    }

    /** `update_level`: for the first two seconds the controls are off; after that
        each frame plays the round, adds its score and moves the camera, then checks
        whether the round is cleared and whether the player was caught or fell
        (`EndOfFrame`). */
    method UpdateLevel(draws: nat -> EnemyDraw, arc: ArcFn)
      requires Valid() && scene == LevelScene
      modifies this`controls, this`blockCount, this`scene
      modifies player`rect, player`state, player`direction, player`jumpStart, player`jumpEnd, player`platformChange
      modifies player`lifes, hud`currentScore, hud`highScore
      modifies level, level.trampolines, level.items, level.meowkies, level.doors, level.waves
      ensures Valid()
      ensures level == old(level) && level != null
      ensures scene in Successors(LevelScene)
      ensures old(blockCount) <= LEVEL_INTRO ==>
        !controls && blockCount == old(blockCount) + 1 && scene == LevelScene && hud.currentScore == old(hud.currentScore)
      ensures old(blockCount) > LEVEL_INTRO ==> controls && hud.currentScore >= old(hud.currentScore)
    {
      if blockCount > LEVEL_INTRO {
        controls := true;
        scene, blockCount := LevelFrame(level, player, hud, draws, arc, blockCount);
      } else {
        controls := false;
        blockCount := blockCount + 1;
      }
    }

    /** A frame of a round once the controls are on: the frame is played, then
        the end-of-frame checks give the scene and the pause counter that follow. */
    static method LevelFrame(lv: Level, player: Actor, hud: Hud, draws: nat -> EnemyDraw, arc: ArcFn, blockCount: int)
      returns (scene: Scene, count: int)
      requires lv.Valid() && !player.isEnemy
      modifies player`rect, player`state, player`direction, player`jumpStart, player`jumpEnd, player`platformChange
      modifies player`lifes, hud`currentScore, hud`highScore
      modifies lv, lv.trampolines, lv.items, lv.meowkies, lv.doors, lv.waves
      ensures lv.Valid()
      ensures scene in {LevelScene, BlockScene, ResetScene, GameOverScene}
      ensures hud.currentScore >= old(hud.currentScore)
    {
      var score; ghost var centre, dx;
      score, centre, dx := PlayFrame(lv, player, hud, draws, arc);
      scene, count := EndOfFrame(lv, player, blockCount);
    }

    /** The play of one frame of a round: the level updates, its score goes to the
        display and the camera follows the player, whose centre is then at `centre`.
        Returns the score of the frame. */
    static method PlayFrame(lv: Level, player: Actor, hud: Hud, draws: nat -> EnemyDraw, arc: ArcFn)
      returns (score: int, ghost centre: int, ghost dx: int)
      requires lv.Valid() && !player.isEnemy
      modifies player`rect, player`state, player`direction, player`jumpStart, player`jumpEnd, player`platformChange
      modifies hud`currentScore, hud`highScore
      modifies lv`items, lv`streak, lv`meowkies, lv`currentMeowkies, lv`meowkiesDelayCounter, lv`waves
      modifies lv`offset, lv`platforms, lv`walls, lv`roofRect
      modifies lv.trampolines, lv.items, lv.meowkies, lv.doors, lv.waves
      ensures lv.Valid() && !player.isEnemy
      ensures hud.currentScore >= old(hud.currentScore)
      ensures score >= 0 && hud.currentScore == old(hud.currentScore) + score
      ensures hud.highScore >= hud.currentScore && hud.highScore >= old(hud.highScore)
      ensures lv.offset == CameraOffset(lv.width, old(lv.offset), centre, player.state, player.speedX)
      ensures lv.offset == old(lv.offset) + dx && lv.roofRect == old(lv.roofRect).ShiftX(dx)
      ensures lv.platforms == ShiftPlatforms(old(lv.platforms), dx) && lv.walls == ShiftWalls(old(lv.walls), dx)
      ensures forall j :: 0 <= j < |lv.items| ==> lv.items[j] in old(lv.items)
      ensures forall j :: 0 <= j < |lv.meowkies| ==> lv.meowkies[j] in old(lv.meowkies) || fresh(lv.meowkies[j])
      ensures forall j :: 0 <= j < |lv.waves| ==> lv.waves[j] in old(lv.waves) || fresh(lv.waves[j])
    {
      score := UpdateScored(lv, player, hud, draws, arc);
      centre := player.rect.CenterX();
      dx := ScrollScreen(lv, player);
    }

    /** The level's update for one frame, its score added to the display. */
    static method UpdateScored(lv: Level, player: Actor, hud: Hud, draws: nat -> EnemyDraw, arc: ArcFn)
      returns (score: int)
      requires lv.Valid() && !player.isEnemy
      modifies player`rect, player`state, player`direction, player`jumpStart, player`jumpEnd, player`platformChange
      modifies hud`currentScore, hud`highScore
      modifies lv`items, lv`streak, lv`meowkies, lv`currentMeowkies, lv`meowkiesDelayCounter, lv`waves
      modifies lv.trampolines, lv.items, lv.meowkies, lv.doors, lv.waves
      ensures lv.Valid() && !player.isEnemy
      ensures score >= 0 && hud.currentScore == old(hud.currentScore) + score
      ensures hud.highScore >= hud.currentScore && hud.highScore >= old(hud.highScore)
      ensures forall j :: 0 <= j < |lv.items| ==> lv.items[j] in old(lv.items)
      ensures forall j :: 0 <= j < |lv.meowkies| ==> lv.meowkies[j] in old(lv.meowkies) || fresh(lv.meowkies[j])
      ensures forall j :: 0 <= j < |lv.waves| ==> lv.waves[j] in old(lv.waves) || fresh(lv.waves[j])
    {
      score := lv.Update(player, draws, arc);
      hud.AddScore(score);
    }

    /** The checks at the end of a frame of a round, given the pause counter: a
        cleared round pauses before the next one; a caught or fallen player loses a
        life, the camera goes back to the start and the enemies and trampolines are
        reset. Returns the scene and the pause counter that follow. A miss is
        checked after the clear, so it wins when both happen. */
    static method EndOfFrame(lv: Level, player: Actor, blockCount: int) returns (scene: Scene, count: int)
      requires lv.Valid() && !player.isEnemy
      modifies player`state, player`lifes
      modifies lv`offset, lv`platforms, lv`walls, lv`roofRect, lv`meowkies, lv`currentMeowkies
      modifies lv.trampolines, lv.items, lv.meowkies, lv.doors, lv.waves
      ensures lv.Valid() && !player.isEnemy
      ensures scene in {LevelScene, BlockScene, ResetScene, GameOverScene}
      ensures scene == ResetScene || scene == GameOverScene ==>
        count == 0 && player.state == Idle && player.lifes == old(player.lifes) - 1 &&
        scene == AfterMiss(old(player.lifes)).1 && lv.SceneryShifted(CameraReset(old(lv.width), old(lv.offset))) &&
        lv.meowkies == [] && lv.currentMeowkies == 0 &&
        (forall j :: 0 <= j < |lv.trampolines| ==> lv.trampolines[j].bounceCounter == 0 && !lv.trampolines[j].broken)
      ensures scene == BlockScene ==>
        count == 0 && player.state == Idle && |lv.items| == 0 && player.lifes == old(player.lifes)
      ensures scene == LevelScene ==>
        count == blockCount && player.lifes == old(player.lifes) && player.state == old(player.state) && |lv.items| > 0
      ensures scene == LevelScene || scene == BlockScene ==>
        unchanged(lv) && unchanged(lv.trampolines, lv.items, lv.meowkies, lv.doors, lv.waves)
      ensures var s := if |old(lv.items)| == 0 then Idle else old(player.state);
        (scene == ResetScene || scene == GameOverScene) <==>
        old(lv.CheckFall(player)) ||
        exists j :: 0 <= j < |old(lv.meowkies)| && old(CatchesAt(lv.meowkies[j], player.rect.Center(), s))
    {
      ghost var s := if |lv.items| == 0 then Idle else player.state;
      ghost var caughtBefore := exists j :: 0 <= j < |lv.meowkies| && CatchesAt(lv.meowkies[j], player.rect.Center(), s);
      scene, count := LevelScene, blockCount;
      if |lv.items| == 0 {
        count := 0;
        scene := BlockScene;
        player.Stop();
      }
      var caught := lv.CheckCollision(player);
      assert caught == caughtBefore;
      if caught || lv.CheckFall(player) {
        scene, count := Miss(lv, player);
      }
    }

    /** A miss: the player stops and loses a life, then the camera and the level
        are reset. Returns the scene that follows and the restarted pause counter. */
    static method Miss(lv: Level, player: Actor) returns (scene: Scene, count: int)
      requires lv.Valid() && !player.isEnemy
      modifies player`state, player`lifes
      modifies lv`offset, lv`platforms, lv`walls, lv`roofRect, lv`meowkies, lv`currentMeowkies
      modifies lv.trampolines, lv.items, lv.meowkies, lv.doors, lv.waves
      ensures lv.Valid() && !player.isEnemy
      ensures count == 0 && player.state == Idle && player.lifes == old(player.lifes) - 1
      ensures scene == AfterMiss(old(player.lifes)).1
      ensures lv.offset == old(lv.offset) + CameraReset(old(lv.width), old(lv.offset))
      ensures lv.SceneryShifted(CameraReset(old(lv.width), old(lv.offset)))
      ensures lv.meowkies == [] && lv.currentMeowkies == 0
      ensures forall j :: 0 <= j < |lv.trampolines| ==>
        lv.trampolines[j].bounceCounter == 0 && !lv.trampolines[j].broken
    {
      count := 0;
      player.Stop();
      player.lifes := player.lifes - 1;
      scene := if player.lifes + 1 > 0 then ResetScene else GameOverScene;
      ResetRound(lv);
    }

    /** The level's part of a miss: the camera goes back to the start, the enemies
        leave and the trampolines are mended. */
    static method ResetRound(lv: Level)
      requires lv.Valid()
      modifies lv`offset, lv`platforms, lv`walls, lv`roofRect, lv`meowkies, lv`currentMeowkies
      modifies lv.trampolines, lv.items, lv.meowkies, lv.doors, lv.waves
      ensures lv.Valid()
      ensures lv.offset == old(lv.offset) + CameraReset(old(lv.width), old(lv.offset))
      ensures lv.SceneryShifted(CameraReset(old(lv.width), old(lv.offset)))
      ensures lv.meowkies == [] && lv.currentMeowkies == 0
      ensures forall j :: 0 <= j < |lv.trampolines| ==> lv.trampolines[j].bounceCounter == 0 && !lv.trampolines[j].broken
    {
      lv.Scroll(CameraReset(lv.width, lv.offset));
      lv.ResetMeowkies();
      lv.ResetTrampolines();
    }

    /** `scroll_screen`: on a level wider than the screen the camera follows a
        player who has left the middle column and puts the player back on it, unless
        that end of the level is already in view. */
    static method ScrollScreen(lv: Level, player: Actor) returns (ghost dx: int)
      requires lv.Valid() && !player.isEnemy
      modifies player`rect
      modifies lv`offset, lv`platforms, lv`walls, lv`roofRect
      modifies lv.trampolines, lv.items, lv.meowkies, lv.doors, lv.waves
      ensures lv.Valid()
      ensures lv.SceneryShifted(dx) && lv.ActorsShifted(dx)
      ensures lv.offset ==
        CameraOffset(lv.width, old(lv.offset), old(player.rect.CenterX()), player.state, player.speedX)
      ensures ScrollsLeft(lv.width, old(lv.offset), old(player.rect.CenterX())) ||
              ScrollsRight(lv.width, old(lv.offset), old(player.rect.CenterX())) ==>
        player.rect == old(player.rect).WithCenterX(SCREEN_MID)
      ensures !ScrollsLeft(lv.width, old(lv.offset), old(player.rect.CenterX())) &&
              !ScrollsRight(lv.width, old(lv.offset), old(player.rect.CenterX())) ==>
        player.rect == old(player.rect)
    {
      dx := 0;
      assert lv.platforms == ShiftPlatforms(lv.platforms, 0) && lv.walls == ShiftWalls(lv.walls, 0);
      if lv.width > SCREEN_WIDTH {
        if player.rect.CenterX() > SCREEN_MID {
          if (SCREEN_WIDTH - 60) - lv.offset < lv.width {
            var movement := Follow(player.state, Right, player.speedX);
            Pan(lv, player, -movement);
            dx := -movement;
          }
        }
        if player.rect.CenterX() < SCREEN_MID {
          if -lv.offset > 0 {
            var movement := Follow(player.state, Left, player.speedX);
            Pan(lv, player, movement);
            dx := movement;
          }
        }
      }
    }

    /** One move of the camera: the player goes back to the middle column and the
        level scrolls `dx` sideways. */
    static method Pan(lv: Level, player: Actor, dx: int)
      requires lv.Valid() && !player.isEnemy
      modifies player`rect
      modifies lv`offset, lv`platforms, lv`walls, lv`roofRect
      modifies lv.trampolines, lv.items, lv.meowkies, lv.doors, lv.waves
      ensures lv.Valid()
      ensures lv.SceneryShifted(dx) && lv.ActorsShifted(dx)
      ensures player.rect == old(player.rect).WithCenterX(SCREEN_MID)
    {
      assert player !in lv.meowkies;
      player.rect := player.rect.WithCenterX(SCREEN_MID);
      lv.Scroll(dx);
    }

    /** `block_level`: the pause after a cleared round. When it is over the round
        number moves on; bonus rounds are skipped by staying in the pause one more
        frame, which moves it on again. */
    method BlockLevel()
      requires Valid() && scene == BlockScene
      modifies this`controls, this`blockCount, this`levelNumber, this`scene
      ensures Valid()
      ensures !controls
      ensures old(blockCount) <= CLEAR_PAUSE ==>
        blockCount == old(blockCount) + 1 && levelNumber == old(levelNumber) && scene == BlockScene
      ensures old(blockCount) > CLEAR_PAUSE ==> levelNumber == NextRound(old(levelNumber))
      ensures old(blockCount) > CLEAR_PAUSE && Playable(levelNumber) ==> scene == ChangeScene && blockCount == 0
      ensures old(blockCount) > CLEAR_PAUSE && IsBonus(levelNumber) ==>
        scene == BlockScene && blockCount == old(blockCount)
    {
      controls := false;
      if blockCount > CLEAR_PAUSE {
        NextRoundPlayable(levelNumber);
        levelNumber := NextRound(levelNumber);
        if !IsBonus(levelNumber) {
          scene := ChangeScene;
          blockCount := 0;
        }
      } else {
        blockCount := blockCount + 1;
      }
    }

    /** `change_level`: the screen announcing the next round. When it is over the
        round is built and played, the player is put at the start and the score at
        the round's start is kept. */
    method ChangeLevel(build: LevelDraws) returns (ghost grid: seq<seq<int>>, ghost itemsGrid: seq<seq<int>>, ghost doorsGrid: seq<seq<int>>)
      requires Valid() && scene == ChangeScene && Buildable(build)
      modifies this`scene, this`level, this`blockCount, this`initialLevelScore, player`rect
      ensures Valid()
      ensures old(blockCount) <= CHANGE_PAUSE ==>
        blockCount == old(blockCount) + 1 && scene == ChangeScene && level == old(level) &&
        player.rect == old(player.rect) && initialLevelScore == old(initialLevelScore)
      ensures old(blockCount) > CHANGE_PAUSE ==>
        scene == LevelScene && blockCount == 0 && initialLevelScore == hud.currentScore &&
        level != null && fresh(level) && level.totalMeowkies == levelNumber &&
        player.rect == old(player.rect).WithTopLeft(PLAYER_START)
      ensures old(blockCount) > CHANGE_PAUSE ==>
        LevelTemplate(levelNumber).Some? && grid == build.templates(LevelTemplate(levelNumber).value) &&
        Aligned(grid, itemsGrid, doorsGrid) &&
        ItemsFit(grid, itemsGrid, |grid|, |grid[0]|) && DoorsFit(grid, doorsGrid, |grid|, |grid[0]|) &&
        level != null && level.width == LayoutWidth(grid) && level.height == RowY(|grid| - 1) &&
        level.offset == SCREEN_WIDTH - 60 - level.width && level.BuiltRows(grid, itemsGrid, doorsGrid, |grid|)
    {
      if blockCount > CHANGE_PAUSE {
        scene := LevelScene;
        grid, itemsGrid, doorsGrid := LoadLevel(build);
        player.rect := player.rect.WithTopLeft(PLAYER_START);
        blockCount := 0;
        initialLevelScore := hud.currentScore;
      } else {
        grid, itemsGrid, doorsGrid := [], [], [];
        blockCount := blockCount + 1;
      }
    }

    /** `load_level`: builds the level of the current round from its template and
        the item and door grids the generators scatter over it. */
    method LoadLevel(build: LevelDraws) returns (ghost grid: seq<seq<int>>, ghost itemsGrid: seq<seq<int>>, ghost doorsGrid: seq<seq<int>>)
      requires Playable(levelNumber) && Buildable(build)
      modifies this`level
      ensures level != null && fresh(level) && level.Valid()
      ensures level.totalMeowkies == levelNumber && level.meowkies == [] && level.waves == []
      ensures LevelTemplate(levelNumber).Some? && grid == build.templates(LevelTemplate(levelNumber).value)
      ensures Aligned(grid, itemsGrid, doorsGrid)
      ensures ItemsFit(grid, itemsGrid, |grid|, |grid[0]|) && DoorsFit(grid, doorsGrid, |grid|, |grid[0]|)
      ensures level.width == LayoutWidth(grid) && level.height == RowY(|grid| - 1)
      ensures level.offset == SCREEN_WIDTH - 60 - level.width
      ensures level.BuiltRows(grid, itemsGrid, doorsGrid, |grid|)
    {
      TemplatesCoverPlayableRounds(levelNumber);
      var layout := build.templates(LevelTemplate(levelNumber).value);
      grid := layout;
      var rows, cols := |layout|, |layout[0]|;
      var itemsMade, _ := GenerateItems(layout, rows, cols, build.itemRoll, build.itemPick, build.maxPasses);
      var doorsMade, _, _ := GenerateDoors(layout, rows, cols, build.doorRoll, build.doorSpecial, build.maxPasses);
      itemsGrid, doorsGrid := itemsMade, doorsMade;
      assert forall i, j :: 0 <= i < rows && 0 <= j < cols ==> 0 <= itemsMade[i][j] <= 5;
      level := new Level(levelNumber, layout, itemsMade, doorsMade, build.coinLeft, build.itemWidth, build.roofW, build.roofH);
    }

    /** `reset_level`: the pause after a miss, while the player's death plays.
        When it is over the display shows the lives left and the player stands at
        the start again. */
    method ResetLevel()
      requires Valid() && scene == ResetScene
      modifies this`blockCount, this`scene, hud`playerLifes
      modifies player`state, player`rect, player`deathAnimationCounter, player`deathAnimationFrame
      ensures Valid()
      ensures old(blockCount) <= MISS_PAUSE ==>
        blockCount == old(blockCount) + 1 && scene == ResetScene && player.DeathAnimated() &&
        player.rect == old(player.rect) && hud.playerLifes == old(hud.playerLifes)
      ensures old(blockCount) > MISS_PAUSE ==>
        blockCount == 0 && scene == LevelScene && hud.playerLifes == player.lifes &&
        player.state == Idle && player.deathAnimationCounter == 0 && player.deathAnimationFrame == 0 &&
        player.rect == old(player.rect).WithTopLeft(PLAYER_START)
    {
      if blockCount > MISS_PAUSE {
        hud.playerLifes := player.lifes;
        player.deathAnimationCounter, player.deathAnimationFrame := 0, 0;
        player.state := Idle;
        player.rect := player.rect.WithTopLeft(PLAYER_START);
        blockCount := 0;
        scene := LevelScene;
      } else {
        player.AnimateDeath();
        blockCount := blockCount + 1;
      }
    }

    /** `game_over`: the player's death plays, then the game-over screen shows. */
    method GameOver()
      requires Valid() && scene == GameOverScene
      modifies this`blockCount, this`scene, player`state, player`deathAnimationCounter, player`deathAnimationFrame
      ensures Valid()
      ensures old(blockCount) <= GAME_OVER_PAUSE ==>
        blockCount == old(blockCount) + 1 && scene == GameOverScene && player.DeathAnimated()
      ensures old(blockCount) > GAME_OVER_PAUSE ==>
        blockCount == 0 && scene == GameOverScreenScene && player.SameMotion() &&
        player.deathAnimationCounter == old(player.deathAnimationCounter) &&
        player.deathAnimationFrame == old(player.deathAnimationFrame)
    {
      if blockCount > GAME_OVER_PAUSE {
        scene := GameOverScreenScene;
        blockCount := 0;
      } else {
        player.AnimateDeath();
        blockCount := blockCount + 1;
      }
    }

    /** `game_over_transition`: after the game-over screen the scores screen takes
        the round reached and the final score, and ranks them among the saved
        scores. */
    method GameOverTransition(saved: seq<ScoreEntry>)
      requires Valid() && scene == GameOverScreenScene
      modifies this`blockCount, this`scene
      modifies scoresScreen`currentRound, scoresScreen`currentScore
      modifies scoresScreen`prevScores, scoresScreen`top5, scoresScreen`isCurrentInTop
      ensures Valid()
      ensures old(blockCount) <= GAME_OVER_SCREEN ==>
        blockCount == old(blockCount) + 1 && scene == GameOverScreenScene && unchanged(scoresScreen)
      ensures old(blockCount) > GAME_OVER_SCREEN ==>
        blockCount == 0 && scene == ScoresScene &&
        scoresScreen.currentRound == levelNumber && scoresScreen.currentScore == hud.currentScore &&
        scoresScreen.top5 == Some(Top5(saved, scoresScreen.Current())) &&
        (Ahead(saved, scoresScreen.Current()) < TOP ==> scoresScreen.isCurrentInTop)
    {
      if blockCount > GAME_OVER_SCREEN {
        scene := ScoresScene;
        scoresScreen.currentRound := levelNumber;
        scoresScreen.currentScore := hud.currentScore;
        scoresScreen.GenerateTop5WithStatus(saved);
        if Ahead(saved, scoresScreen.Current()) < TOP {
          CurrentListed(saved, scoresScreen.Current());
        }
        blockCount := 0;
      } else {
        blockCount := blockCount + 1;
      }
    }
  }
}

=== FILE: geometry.dfy ===
/** Integer rectangles with the semantics of the pygame Rect the game relies on:
    attribute setters move a rectangle without resizing it, `colliderect` is a
    half-open overlap that never holds for an empty rectangle, `collidepoint` is
    half-open containment, and `clamp_ip` pulls a rectangle inside a bound. */
module Geometry {

  datatype Point = Point(x: int, y: int)

  datatype Rect = Rect(x: int, y: int, w: nat, h: nat) {
    function Left(): int { x }
    function Right(): int { x + w }
    function Top(): int { y }
    function Bottom(): int { y + h }
    function CenterX(): int { x + w / 2 }
    function CenterY(): int { y + h / 2 }
    function Center(): Point { Point(CenterX(), CenterY()) }
    function MidBottom(): Point { Point(CenterX(), Bottom()) }

    /** `rect.x += dx`, as done by scrolling. */
    function ShiftX(dx: int): (r: Rect)
      ensures r.x == x + dx && r.y == y && r.w == w && r.h == h
    {
      Rect(x + dx, y, w, h)
    }

    function ShiftY(dy: int): (r: Rect)
      ensures r.x == x && r.y == y + dy && r.w == w && r.h == h
    {
      Rect(x, y + dy, w, h)
    }

    /** `rect.midbottom = p` */
    function WithMidBottom(p: Point): (r: Rect)
      ensures r.MidBottom() == p && r.w == w && r.h == h
    {
      Rect(p.x - w / 2, p.y - h, w, h)
    }

    /** `rect.midtop = p` */
    function WithMidTop(p: Point): (r: Rect)
      ensures r.CenterX() == p.x && r.Top() == p.y && r.w == w && r.h == h
    {
      Rect(p.x - w / 2, p.y, w, h)
    }

    /** `rect.bottomleft = p` */
    function WithBottomLeft(p: Point): (r: Rect)
      ensures r.Left() == p.x && r.Bottom() == p.y && r.w == w && r.h == h
    {
      Rect(p.x, p.y - h, w, h)
    }

    /** `rect.bottomright = p` */
    function WithBottomRight(p: Point): (r: Rect)
      ensures r.Right() == p.x && r.Bottom() == p.y && r.w == w && r.h == h
    {
      Rect(p.x - w, p.y - h, w, h)
    }

    /** `rect.topleft = p` */
    function WithTopLeft(p: Point): (r: Rect)
      ensures r.x == p.x && r.y == p.y && r.w == w && r.h == h
    {
      Rect(p.x, p.y, w, h)
    }

    /** `rect.centerx = cx` */
    function WithCenterX(cx: int): (r: Rect)
      ensures r.CenterX() == cx && r.y == y && r.w == w && r.h == h
    {
      Rect(cx - w / 2, y, w, h)
    }
  }

  /** A rectangle of size `w` x `h` whose centre is `c` (`get_rect(center=c)`). */
  function CenteredAt(c: Point, w: nat, h: nat): (r: Rect)
    ensures r.Center() == c && r.w == w && r.h == h
  {
    Rect(c.x - w / 2, c.y - h / 2, w, h)
  }

  /** `a.colliderect(b)`: the interiors intersect; an empty rectangle collides with nothing. */
  predicate Overlaps(a: Rect, b: Rect) {
    a.w > 0 && a.h > 0 && b.w > 0 && b.h > 0 &&
    a.Left() < b.Right() && b.Left() < a.Right() &&
    a.Top() < b.Bottom() && b.Top() < a.Bottom()
  }

  /** `r.collidepoint(p)`: left and top edges are inside, right and bottom edges are not. */
  predicate ContainsPoint(r: Rect, p: Point) {
    r.Left() <= p.x < r.Right() && r.Top() <= p.y < r.Bottom()
  }

  /** `r` lies entirely inside `b`. */
  predicate Inside(r: Rect, b: Rect) {
    b.Left() <= r.Left() && r.Right() <= b.Right() && b.Top() <= r.Top() && r.Bottom() <= b.Bottom()
  }

  /** One axis of `clamp_ip`: a rectangle at least as long as the bound is centred on
      it, otherwise it is moved the least distance that brings it inside. */
  function ClampAxis(pos: int, len: nat, lo: int, span: nat): int {
    if len >= span then lo + span / 2 - len / 2
    else if pos < lo then lo
    else if pos + len > lo + span then lo + span - len
    else pos
  }

  /** `r.clamp_ip(b)` */
  function Clamp(r: Rect, b: Rect): (c: Rect)
    ensures c.w == r.w && c.h == r.h
    ensures r.w <= b.w && r.h <= b.h ==> Inside(c, b)
    ensures Inside(r, b) ==> c == r
  {
    Rect(ClampAxis(r.x, r.w, b.x, b.w), ClampAxis(r.y, r.h, b.y, b.h), r.w, r.h)
  }

  /** pygame compares rectangles as the tuples (x, y, w, h). */
  predicate LexLess(a: Rect, b: Rect) {
    a.x < b.x || (a.x == b.x && (a.y < b.y || (a.y == b.y && (a.w < b.w || (a.w == b.w && a.h < b.h)))))
  }

  lemma LexLessTotal(a: Rect, b: Rect)
    ensures LexLess(a, b) || LexLess(b, a) || a == b
    ensures !(LexLess(a, b) && LexLess(b, a))
  {
  }
}

=== FILE: helpers.dfy ===
/** Level layout helpers (utils/helpers.py): which layout template a round uses, and
    the two random generators that scatter items and doors over a layout grid. A grid
    is a list of rows; cell value 1 marks a platform. The random draws are passed in
    as functions of (pass, row, column), and each generator's retry loop is bounded
    by a number of passes. */
module Helpers {
  import opened Basics

  /** `get_level_matrix`: the template of a round, or `None` for a round that has
      none (the source then fails with an unbound variable). */
  function LevelTemplate(round: int): (t: Option<nat>)
    ensures t.Some? ==> t.value < 4
    ensures t == Some(0) <==> (1 <= round <= 2 || 16 <= round <= 18)
    ensures t == Some(1) <==> (4 <= round <= 6 || 20 <= round <= 22)
    ensures t == Some(2) <==> (8 <= round <= 10 || 24 <= round <= 26)
    ensures t == Some(3) <==> (12 <= round <= 14 || 28 <= round <= 30)
  {
    if 1 <= round <= 2 || 16 <= round <= 18 then Some(0)
    else if 4 <= round <= 6 || 20 <= round <= 22 then Some(1)
    else if 8 <= round <= 10 || 24 <= round <= 26 then Some(2)
    else if 12 <= round <= 14 || 28 <= round <= 30 then Some(3)
    else None
  }

  /** The bonus rounds, which the game skips. */
  predicate IsBonus(round: int) {
    round == 3 || round == 7 || round == 11 || round == 15 || round == 19 || round == 23 || round == 27
  }

  /** Every round from 1 to 30 that is not a bonus round has a template, and no round
      outside 1..30 has one. */
  lemma TemplatesCoverPlayableRounds(round: int)
    ensures (1 <= round <= 30 && !IsBonus(round)) <==> LevelTemplate(round).Some?
  {
  }

  /** A grid with `rows` rows of `cols` cells. */
  predicate Shaped(m: seq<seq<int>>, rows: nat, cols: nat) {
    |m| == rows && forall i :: 0 <= i < rows ==> |m[i]| == cols
  }

  /** The all-zero grid of the given shape. */
  function Zeros(rows: nat, cols: nat): (m: seq<seq<int>>)
    ensures Shaped(m, rows, cols)
    ensures forall i, j :: 0 <= i < rows && 0 <= j < cols ==> m[i][j] == 0
  {
    seq(rows, _ => seq(cols, _ => 0))
  }

  /** The grid `m` with cell (i, j) set to `v`. */
  function Put(m: seq<seq<int>>, i: nat, j: nat, v: int): (r: seq<seq<int>>)
    requires i < |m| && j < |m[i]|
    ensures |r| == |m| && r[i] == m[i][j := v]
    ensures forall k :: 0 <= k < |m| && k != i ==> r[k] == m[k]
  {
    m[i := m[i][j := v]]
  }

  /** How many cells of `m` hold `k`. */
  function CountIn(m: seq<seq<int>>, k: int): nat
  {
    if |m| == 0 then 0 else CountIn(m[..|m| - 1], k) + multiset(m[|m| - 1])[k]
  }

  /** Setting one cell moves one occurrence from its old value to the new one. */
  lemma {:induction false} CountPut(m: seq<seq<int>>, i: nat, j: nat, v: int, k: int)
    requires i < |m| && j < |m[i]|
    ensures CountIn(Put(m, i, j, v), k) ==
      CountIn(m, k) - (if m[i][j] == k then 1 else 0) + (if v == k then 1 else 0)
  {
    var r := Put(m, i, j, v);
    var n := |m| - 1;
    if i == n {
      assert r[..n] == m[..n];
      assert multiset(m[n][j := v]) == multiset(m[n]) - multiset{m[n][j]} + multiset{v};
    } else {
      assert r[..n] == Put(m[..n], i, j, v);
      CountPut(m[..n], i, j, v, k);
    }
  }

  /** A grid of zeros holds no other value. */
  lemma {:induction false} CountZeros(m: seq<seq<int>>, k: int)
    requires forall i, j :: 0 <= i < |m| && 0 <= j < |m[i]| ==> m[i][j] == 0
    requires k != 0
    ensures CountIn(m, k) == 0
  {
    if |m| > 0 {
      CountZeros(m[..|m| - 1], k);
      assert k !in multiset(m[|m| - 1]);
    }
  }

  /** An item type, 1 to 5 (`random.randint(1, 5)`). */
  type ItemKind = k: int | 1 <= k <= 5 witness 1

  /** Where the item generator may place an item: a platform cell that is not in the
      first or the last row and not in the second-to-last column. */
  predicate ItemCell(grid: seq<seq<int>>, i: nat, j: nat, rows: nat, cols: nat)
    requires Shaped(grid, rows, cols) && i < rows && j < cols
  {
    i != 0 && grid[i][j] == 1 && i != rows - 1 && j != cols - 2
  }

  /** The shape of an item grid built over `grid`: cells are empty or hold an item type
      on a cell where items may go. */
  predicate ItemsFit(grid: seq<seq<int>>, items: seq<seq<int>>, rows: nat, cols: nat)
    requires Shaped(grid, rows, cols)
  {
    Shaped(items, rows, cols) &&
    forall i, j :: 0 <= i < rows && 0 <= j < cols && items[i][j] != 0 ==>
      ItemCell(grid, i, j, rows, cols) && 1 <= items[i][j] <= 5
  }

  /** `generate_items_matrix`: passes over the grid place items until two of each of
      the five types are down. In a pass each eligible empty cell whose draw `roll`
      succeeds (the 1-in-5 chance) gets the type `pick` draws, unless that type is
      already down twice. `done` says the grid was completed within `maxPasses`. */
  method GenerateItems(grid: seq<seq<int>>, rows: nat, cols: nat,
                       roll: (nat, nat, nat) -> bool, pick: (nat, nat, nat) -> ItemKind,
                       maxPasses: nat)
    returns (items: seq<seq<int>>, done: bool)
    requires Shaped(grid, rows, cols)
    ensures ItemsFit(grid, items, rows, cols)
    ensures forall k :: 1 <= k <= 5 ==> CountIn(items, k) <= 2
    ensures done ==> forall k :: 1 <= k <= 5 ==> CountIn(items, k) == 2
  {
    items := Zeros(rows, cols);
    var counts := [0, 0, 0, 0, 0];
    forall k | 1 <= k <= 5 {
      CountZeros(items, k);
    }
    done := false;
    var pass := 0;
    while !done && pass < maxPasses
      invariant ItemsFit(grid, items, rows, cols)
      invariant |counts| == 5
      invariant forall k :: 1 <= k <= 5 ==> counts[k - 1] == CountIn(items, k) <= 2
      invariant done ==> counts[0] + counts[1] + counts[2] + counts[3] + counts[4] == 10
      decreases maxPasses - pass
    {
      var i := 0;
      while i < rows
        invariant 0 <= i <= rows
        invariant ItemsFit(grid, items, rows, cols)
        invariant |counts| == 5
        invariant forall k :: 1 <= k <= 5 ==> counts[k - 1] == CountIn(items, k) <= 2
      {
        var j := 0;
        while j < cols
          invariant 0 <= j <= cols
          invariant ItemsFit(grid, items, rows, cols)
          invariant |counts| == 5
          invariant forall k :: 1 <= k <= 5 ==> counts[k - 1] == CountIn(items, k) <= 2
        {
          items, counts := PlaceItem(grid, rows, cols, items, counts, i, j, roll(pass, i, j), pick(pass, i, j));
          j := j + 1;
        }
        i := i + 1;
      }
      done := counts[0] + counts[1] + counts[2] + counts[3] + counts[4] == 10;
      pass := pass + 1;
    }
    if done {
      assert CountIn(items, 1) <= 2 && CountIn(items, 2) <= 2 && CountIn(items, 3) <= 2;
      assert CountIn(items, 4) <= 2 && CountIn(items, 5) <= 2;
    }
  }

  /** One cell of an item-generation pass. The first row is cleared; elsewhere a
      successful draw on an eligible empty cell places the drawn type if fewer than
      two of it are down. */
  method PlaceItem(grid: seq<seq<int>>, rows: nat, cols: nat, items: seq<seq<int>>, counts: seq<nat>,
                   i: nat, j: nat, lucky: bool, kind: ItemKind)
    returns (items': seq<seq<int>>, counts': seq<nat>)
    requires Shaped(grid, rows, cols) && i < rows && j < cols
    requires ItemsFit(grid, items, rows, cols) && |counts| == 5
    requires forall k :: 1 <= k <= 5 ==> counts[k - 1] == CountIn(items, k) <= 2
    ensures ItemsFit(grid, items', rows, cols) && |counts'| == 5
    ensures forall k :: 1 <= k <= 5 ==> counts'[k - 1] == CountIn(items', k) <= 2
    ensures var placed := ItemCell(grid, i, j, rows, cols) && lucky && items[i][j] == 0 && counts[kind - 1] < 2;
      items' == (if placed then Put(items, i, j, kind) else items) &&
      counts' == (if placed then counts[kind - 1 := counts[kind - 1] + 1] else counts)
  {
    items', counts' := items, counts;
    if i == 0 {
      assert items[i][j] == 0;
      assert Put(items, i, j, 0) == items by {
        assert items[i][j := 0] == items[i];
      }
      items' := Put(items, i, j, 0);
    } else if grid[i][j] == 1 && lucky && i != rows - 1 && j != cols - 2 && items[i][j] == 0 {
      if counts[kind - 1] < 2 {
        items' := Put(items, i, j, kind);
        counts' := counts[kind - 1 := counts[kind - 1] + 1];
        forall k | 1 <= k <= 5
          ensures counts'[k - 1] == CountIn(items', k) <= 2
        {
          CountPut(items, i, j, kind, k);
        }
      }
    }
  }

  /** Where the door generator may place a door: a platform cell outside the first
      row and the outer columns. */
  predicate DoorCell(grid: seq<seq<int>>, i: nat, j: nat, rows: nat, cols: nat)
    requires Shaped(grid, rows, cols) && i < rows && j < cols
  {
    i != 0 && j != 0 && j != cols - 1 && grid[i][j] == 1
  }

  /** The shape of a door grid built over `grid`: 0 for no door, 1 for a door and 2
      for a special door, on cells where doors may go. */
  predicate DoorsFit(grid: seq<seq<int>>, doors: seq<seq<int>>, rows: nat, cols: nat)
    requires Shaped(grid, rows, cols)
  {
    Shaped(doors, rows, cols) &&
    forall i, j :: 0 <= i < rows && 0 <= j < cols && doors[i][j] != 0 ==>
      DoorCell(grid, i, j, rows, cols) && (doors[i][j] == 1 || doors[i][j] == 2)
  }

  /** How many doors a door grid holds. */
  function DoorCount(doors: seq<seq<int>>): nat {
    CountIn(doors, 1) + CountIn(doors, 2)
  }

  /** `generate_doors_matrix`: passes over the grid until at least five placements
      were made. In each row a pass places a door (special when `special` draws so) in
      the first eligible cell whose 1-in-10 draw `roll` succeeds, then moves to the
      next row. A placement may land on a cell that already holds a door, so the grid
      can hold fewer doors than placements; `placements` is that count and `done` says
      the loop ended within `maxPasses`. */
  method GenerateDoors(grid: seq<seq<int>>, rows: nat, cols: nat,
                       roll: (nat, nat, nat) -> bool, special: (nat, nat, nat) -> bool,
                       maxPasses: nat)
    returns (doors: seq<seq<int>>, placements: nat, done: bool)
    requires Shaped(grid, rows, cols)
    ensures DoorsFit(grid, doors, rows, cols)
    ensures DoorCount(doors) <= placements
    ensures done <==> placements >= 5
  {
    doors := Zeros(rows, cols);
    CountZeros(doors, 1);
    CountZeros(doors, 2);
    placements := 0;
    var pass := 0;
    while placements < 5 && pass < maxPasses
      invariant DoorsFit(grid, doors, rows, cols)
      invariant DoorCount(doors) <= placements
      decreases maxPasses - pass
    {
      var i := 0;
      while i < rows
        invariant 0 <= i <= rows
        invariant DoorsFit(grid, doors, rows, cols)
        invariant DoorCount(doors) <= placements
      {
        doors, placements := PlaceDoorInRow(grid, rows, cols, doors, placements, i, roll, special, pass);
        i := i + 1;
      }
      pass := pass + 1;
    }
    done := placements >= 5;
  }

  /** One row of a door-generation pass: the first eligible cell of row `i` whose draw
      succeeds gets a door, and the count of placements goes up by one. */
  method PlaceDoorInRow(grid: seq<seq<int>>, rows: nat, cols: nat, doors: seq<seq<int>>, placements: nat,
                        i: nat, roll: (nat, nat, nat) -> bool, special: (nat, nat, nat) -> bool, pass: nat)
    returns (doors': seq<seq<int>>, placements': nat)
    requires Shaped(grid, rows, cols) && i < rows
    requires DoorsFit(grid, doors, rows, cols) && DoorCount(doors) <= placements
    ensures DoorsFit(grid, doors', rows, cols) && DoorCount(doors') <= placements'
    ensures (forall j :: 0 <= j < cols ==> !(DoorCell(grid, i, j, rows, cols) && roll(pass, i, j))) ==>
      doors' == doors && placements' == placements
    ensures placements' == placements || placements' == placements + 1
    ensures placements' == placements + 1 ==>
      exists j :: 0 <= j < cols && DoorCell(grid, i, j, rows, cols) && roll(pass, i, j) &&
        (forall l :: 0 <= l < j ==> !(DoorCell(grid, i, l, rows, cols) && roll(pass, i, l))) &&
        doors' == Put(doors, i, j, if special(pass, i, j) then 2 else 1)
  {
    doors', placements' := doors, placements;
    var j := 0;
    while j < cols
      invariant 0 <= j <= cols
      invariant doors' == doors && placements' == placements
      invariant forall l :: 0 <= l < j ==> !(DoorCell(grid, i, l, rows, cols) && roll(pass, i, l))
    {
      if i != 0 && j != 0 && j != cols - 1 {
        if grid[i][j] == 1 && roll(pass, i, j) {
          var v := if special(pass, i, j) then 2 else 1;
          doors' := Put(doors, i, j, v);
          placements' := placements + 1;
          CountPut(doors, i, j, v, 1);
          CountPut(doors, i, j, v, 2);
          return;
        }
      }
      j := j + 1;
    }
  }
}

=== FILE: hud.dfy ===
/** The heads-up display (core/scenes/hud.py): the score of the running game, the
    best score on record and the lives shown. Drawing is left out. */
module HudScene {
  /** A saved score, as the scores file stores it: a name of three letters, the
      score reached and the round it was reached in. */
  datatype ScoreEntry = ScoreEntry(name: string, score: int, round: int)

  /** The best score of the saved scores, 0 when there are none. */
  function HighScore(scores: seq<ScoreEntry>): (h: int)
    ensures |scores| == 0 ==> h == 0
    ensures |scores| > 0 ==> exists i :: 0 <= i < |scores| && scores[i].score == h
    ensures forall i :: 0 <= i < |scores| ==> scores[i].score <= h
  {
    if |scores| == 0 then 0
    else if |scores| == 1 then scores[0].score
    else
      var rest := HighScore(scores[1..]);
      assert forall i :: 1 <= i < |scores| ==> scores[i] == scores[1..][i - 1];
      if scores[0].score >= rest then scores[0].score else rest
  }

  class Hud {
    var currentScore: int
    var highScore: int
    var playerLifes: int

    /** A fresh display: no score yet, the best saved score, no lives shown. */
    constructor (saved: seq<ScoreEntry>)
      ensures currentScore == 0 && highScore == HighScore(saved) && playerLifes == 0
    {
      currentScore := 0;
      highScore := HighScore(saved);
      playerLifes := 0;
    }

    /** Adds points to the running score; the best score follows it when it is
        overtaken and never goes down. */
    method AddScore(points: int)
      modifies this`currentScore, this`highScore
      ensures currentScore == old(currentScore) + points
      ensures highScore >= currentScore && highScore >= old(highScore)
      ensures highScore == old(highScore) || highScore == currentScore
    {
      currentScore := currentScore + points;
      if currentScore > highScore {
        highScore := currentScore;
      }
    }
  }
}

=== FILE: item.dfy ===
/** Collectable loot (entities/item.py): radio, TV, computer, painting and safe,
    types 1 to 5, worth 100 points per type level. The items of the type the player
    is collecting blink. */
module Items {
  import opened Geometry
  import opened Settings
  import opened Entities

  /** The height items are scaled to. */
  const ITEM_HEIGHT: nat := 30

  /** One frame of blinking on (animation time, visible): every tenth frame the item
      toggles between shown and hidden and the count restarts. */
  function BlinkStep(time: int, visible: bool): (r: (int, bool))
    ensures (time + 1) % 10 == 0 ==> r == (0, !visible)
    ensures (time + 1) % 10 != 0 ==> r == (time + 1, visible)
    ensures 0 <= time < 10 ==> 0 <= r.0 < 10
  {
    if (time + 1) % 10 == 0 then (0, !visible) else (time + 1, visible)
  }

  /** Blinking from a count in 0..9 toggles the item exactly once every ten frames. */
  lemma {:induction false} BlinkPeriod(time: int, visible: bool, n: nat)
    requires 0 <= time < 10
    ensures Blink(time, visible, n) == ((time + n) % 10, if ((time + n) / 10) % 2 == 0 then visible else !visible)
  {
    if n > 0 {
      BlinkPeriod(time, visible, n - 1);
      TenStep(time + n - 1);
    }
  }

  /** Counting up by one in base ten: the last digit steps, and the tens, and so
      their parity, follow when it wraps. */
  lemma TenStep(m: nat)
    ensures (m % 10 + 1) % 10 == (m + 1) % 10
    ensures m % 10 == 9 ==> (m + 1) % 10 == 0 && (((m + 1) / 10) % 2 == 0 <==> (m / 10) % 2 != 0)
    ensures m % 10 != 9 ==> (m + 1) % 10 == m % 10 + 1 && (((m + 1) / 10) % 2 == 0 <==> (m / 10) % 2 == 0)
  {
    var q, r := m / 10, m % 10;
    assert m == 10 * q + r && 0 <= r < 10;
    if r == 9 {
      assert m + 1 == 10 * (q + 1);
      assert (m + 1) / 10 == q + 1;
    } else {
      assert m + 1 == 10 * q + (r + 1);
      assert (m + 1) / 10 == q;
    }
  }

  /** `n` frames of blinking. */
  function Blink(time: int, visible: bool, n: nat): (int, bool)
  {
    if n == 0 then (time, visible)
    else
      var p := Blink(time, visible, n - 1);
      BlinkStep(p.0, p.1)
  }

  class Item {
    const itemType: int
    var visible: bool
    var animationTime: int
    var rect: Rect

    predicate Valid()
    {
      1 <= itemType <= 5
    }

    /** `Item(x, y, item_type)`: visible, not blinking, with its bottom-right corner at
        (x, y). Only types 1..5 have an image; `imageWidth` is the width of that image
        once scaled to the item height. */
    constructor(x: int, y: int, itemType: int, imageWidth: nat, height: nat := ITEM_HEIGHT)
      requires 1 <= itemType <= 5
      ensures this.itemType == itemType && Valid()
      ensures visible && animationTime == 0
      ensures rect.Right() == x && rect.Bottom() == y && rect.w == imageWidth && rect.h == height
    {
      this.itemType := itemType;
      visible := true;
      animationTime := 0;
      rect := Rect(0, 0, imageWidth, height).WithBottomRight(Point(x, y));
    }

    /** `check_collision`: the player collects the item exactly when its centre lies in
        the item's rectangle, scoring 100 points per type level. */
    function CheckCollision(player: Actor): (score: int)
      requires Valid()
      reads this, player
      ensures score > 0 <==> ContainsPoint(rect, player.rect.Center())
      ensures score > 0 ==> score == itemType * BASE_ITEM_SCORE
      ensures 0 <= score <= 5 * BASE_ITEM_SCORE && score % BASE_ITEM_SCORE == 0
    {
      if ContainsPoint(rect, player.rect.Center()) then itemType * BASE_ITEM_SCORE else 0
    }

    /** `start_targeted_animation`: one frame of blinking. */
    method StartTargetedAnimation()
      modifies this`animationTime, this`visible
      ensures (animationTime, visible) == BlinkStep(old(animationTime), old(visible))
    {
      animationTime := animationTime + 1;
      if animationTime % 10 == 0 {
        visible := !visible;
        animationTime := 0;
      }
    }

    method StopTargetedAnimation()
      modifies this`animationTime, this`visible
      ensures visible && animationTime == 0
    {
      visible := true;
      animationTime := 0;
    }
  }
}

=== FILE: layout.dfy ===
/** The geometry of a level layout (levels/level.py, `build_level`): the cells of
    each row are laid out from left to right, a gap or a trampoline taking 75 pixels
    and a platform 100. A platform that follows a gap, or a trampoline next to it, is
    25 pixels wider; that extra width is carried from cell to cell, and from the end
    of one row into the next, until a platform uses it. */
module Layout {
  import opened Settings

  /** Where the first row starts. */
  const START_X: int := 60
  const START_Y: int := 210
  /** The extra width of a platform next to a gap or a trampoline. */
  const WIDENING: int := PLATFORM_WIDTH - TRAMPOLINE_WIDTH

  /** The x position and the carried extra width after cell `c` of `row`, from x
      position `x` and carried width `inc`. Cells other than 0, 1 and 2 build nothing
      and take no room. */
  function CellAdvance(row: seq<int>, c: nat, x: int, inc: int): (r: (int, int))
    requires c < |row|
    ensures row[c] == 0 ==> r == (x + TRAMPOLINE_WIDTH, WIDENING)
    ensures row[c] == 1 ==> r.0 == x + PLATFORM_WIDTH + inc && (inc >= 0 ==> r.1 == 0)
    ensures row[c] == 2 ==> r.0 == x + TRAMPOLINE_WIDTH
    ensures row[c] == 2 ==> r.1 == (if c < |row| - 2 && row[c + 1] == 1 then WIDENING else inc)
    ensures row[c] !in {0, 1, 2} ==> r == (x, inc)
  {
    if row[c] == 0 then (x + TRAMPOLINE_WIDTH, WIDENING)
    else if row[c] == 1 then (x + PLATFORM_WIDTH + inc, if inc > 0 then 0 else inc)
    else if row[c] == 2 then (x + TRAMPOLINE_WIDTH, if c < |row| - 2 && row[c + 1] == 1 then WIDENING else inc)
    else (x, inc)
  }

  /** The x position and carried width after the first `n` cells of `row`. */
  function RowScan(row: seq<int>, n: nat, x: int, inc: int): (int, int)
    requires n <= |row|
  {
    if n == 0 then (x, inc)
    else
      var p := RowScan(row, n - 1, x, inc);
      CellAdvance(row, n - 1, p.0, p.1)
  }

  /** The carried width at the start of row `r`. */
  function CarryInto(grid: seq<seq<int>>, r: nat): int
    requires r <= |grid|
  {
    if r == 0 then 0 else RowScan(grid[r - 1], |grid[r - 1]|, START_X, CarryInto(grid, r - 1)).1
  }

  /** The level width: the x position reached at the end of the last row. */
  function LayoutWidth(grid: seq<seq<int>>): int
    requires |grid| > 0
  {
    RowScan(grid[|grid| - 1], |grid[|grid| - 1]|, START_X, CarryInto(grid, |grid| - 1)).0
  }

  /** The y position of row `r`: rows are a floor height apart. */
  function RowY(r: nat): int {
    START_Y + FLOOR_HEIGHT * r
  }

  /** How many of the first `n` cells of `row` hold `v`. */
  function Occurrences(row: seq<int>, n: nat, v: int): nat
    requires n <= |row|
  {
    multiset(row[..n])[v]
  }

  /** Counting one more cell. */
  lemma OccurrencesSnoc(row: seq<int>, n: nat, v: int)
    requires 0 < n <= |row|
    ensures Occurrences(row, n, v) == Occurrences(row, n - 1, v) + (if row[n - 1] == v then 1 else 0)
  {
    assert row[..n] == row[..n - 1] + [row[n - 1]];
  }

  /** The carried width is always 0 or 25, and the first `n` cells of a row take 75
      pixels per gap or trampoline and 100 or 125 per platform. */
  lemma {:induction false} RowScanBounds(row: seq<int>, n: nat, x: int, inc: int)
    requires n <= |row| && (inc == 0 || inc == 25)
    ensures var r := RowScan(row, n, x, inc);
      var gaps := Occurrences(row, n, 0) + Occurrences(row, n, 2);
      var plats := Occurrences(row, n, 1);
      (r.1 == 0 || r.1 == 25) && x + 75 * gaps + 100 * plats <= r.0 <= x + 75 * gaps + 125 * plats
  {
    if n > 0 {
      RowScanBounds(row, n - 1, x, inc);
      OccurrencesSnoc(row, n, 0);
      OccurrencesSnoc(row, n, 1);
      OccurrencesSnoc(row, n, 2);
    }
  }

  /** Every row starts with a carried width of 0 or 25. */
  lemma {:induction false} CarryBounds(grid: seq<seq<int>>, r: nat)
    requires r <= |grid|
    ensures CarryInto(grid, r) == 0 || CarryInto(grid, r) == 25
  {
    if r > 0 {
      CarryBounds(grid, r - 1);
      RowScanBounds(grid[r - 1], |grid[r - 1]|, START_X, CarryInto(grid, r - 1));
    }
  }

  /** A level is at least as wide as its start position, and every platform of the
      last row adds at least a platform's width. */
  lemma LayoutWidthBounds(grid: seq<seq<int>>)
    requires |grid| > 0
    ensures var last := grid[|grid| - 1];
      LayoutWidth(grid) >= START_X + 100 * Occurrences(last, |last|, 1)
  {
    var last := grid[|grid| - 1];
    CarryBounds(grid, |grid| - 1);
    RowScanBounds(last, |last|, START_X, CarryInto(grid, |grid| - 1));
  }

  /** What a layout cell can build, for counting. */
  datatype Built = PlatformPiece | TrampolinePiece | ItemPiece | DoorPiece

  /** Whether the cell at column `c` of a row of `cols` cells, holding `cell` and
      with entry `mark` in the companion grid, builds a `kind`: a platform cell
      builds a platform, a trampoline cell a trampoline, a platform cell with a
      nonzero item entry an item, and a platform cell away from the outer columns
      with door entry 1 or 2 a door. */
  predicate Builds(kind: Built, c: nat, cols: nat, cell: int, mark: int) {
    match kind
    case PlatformPiece => cell == 1
    case TrampolinePiece => cell == 2
    case ItemPiece => cell == 1 && mark != 0
    case DoorPiece => cell == 1 && (mark == 1 || mark == 2) && c != 0 && c != cols - 1
  }

  /** How many of the first `n` cells of `row` build a `kind`. */
  function RowCount(row: seq<int>, marks: seq<int>, n: nat, kind: Built): nat
    requires n <= |row| <= |marks|
  {
    if n == 0 then 0
    else RowCount(row, marks, n - 1, kind) + (if Builds(kind, n - 1, |row|, row[n - 1], marks[n - 1]) then 1 else 0)
  }

  /** How many cells of the first `r` rows of `grid` build a `kind`. */
  function GridCount(grid: seq<seq<int>>, marks: seq<seq<int>>, r: nat, kind: Built): nat
    requires r <= |grid| <= |marks|
    requires forall i :: 0 <= i < |grid| ==> |grid[i]| <= |marks[i]|
  {
    if r == 0 then 0
    else GridCount(grid, marks, r - 1, kind) + RowCount(grid[r - 1], marks[r - 1], |grid[r - 1]|, kind)
  }

  /** Counting platform cells is counting the value 1. */
  lemma {:induction false} PlatformCount(row: seq<int>, n: nat)
    requires n <= |row|
    ensures RowCount(row, row, n, PlatformPiece) == Occurrences(row, n, 1)
  {
    if n > 0 {
      PlatformCount(row, n - 1);
      OccurrencesSnoc(row, n, 1);
    }
  }
}

=== FILE: level.dfy ===
/** A level (levels/level.py): the structures built from a layout grid, the enemies
    roaming it, the scrolling offset, and one frame of play over all of them. The
    structures are kept in insertion order, as sprite groups iterate. Platforms and
    walls never change after they are built except by scrolling, so they are values;
    trampolines, items, enemies, doors and waves are objects updated in place. */
module Levels {
  import opened Basics
  import opened Geometry
  import opened Settings
  import opened Platforms
  import opened Entities
  import opened Walls
  import opened Trampolines
  import opened Doors
  import opened Waves
  import opened Items
  import opened PlayerRules
  import opened EnemyRules
  import opened Helpers
  import opened Layout

  /** Frames between enemy spawns, and frames an enemy stays stunned. */
  const SPAWN_DELAY: int := FPS * 2
  const STUN_TIME: int := FPS * 2
  /** The score for an enemy that stayed stunned to the end. */
  const STUN_SCORE: int := 50

  /** The walls `build_level` adds at cell `c` of row `r` with x position `x`. */
  function EdgeWalls(r: nat, c: nat, cols: nat, x: int, y: int): (ws: seq<Wall>)
    ensures |ws| == (if c == 0 then 1 else 0) + (if c == cols - 1 then 1 else 0)
    ensures RowWalls(ws, r, y)
  {
    (if c == 0 then [NewWall(x + 2, y, 8, if r == 0 then 20 else 75)] else []) +
    (if c == cols - 1 then [NewWall(x + TRAMPOLINE_WIDTH, y, 8, if r == 0 then 20 else 75)] else [])
  }

  /** The door `build_level` puts on the platform from x to x' at column c of `row`:
      with a gap on its left it faces right, 5 pixels into the platform; otherwise
      with a gap on its right it faces left, 5 pixels before the platform's end;
      otherwise it faces the way the coin fell, at the same place. It stands on the
      row's top and is special as its door entry says. */
  ghost predicate DoorBuilt(d: Door, row: seq<int>, c: nat, x: int, x': int, y: int, special: bool, coinLeft: bool)
    requires 0 < c < |row| - 1
    reads d
  {
    d.Valid() && d.special == special && d.rect.MidBottom().y == y &&
    (if row[c - 1] == 0 then (d.direction == 1 && d.rect.MidBottom().x == x + 5)
     else (d.rect.MidBottom().x == x' - 5 &&
           d.direction == (if row[c + 1] == 0 then -1 else if coinLeft then -1 else 1)))
  }

  /** Walls of row `r`, whose top is at `y`: 20 pixels high on the top row and 75
      below, standing on the row's top. */
  ghost predicate RowWalls(ws: seq<Wall>, r: nat, y: int) {
    forall k :: 0 <= k < |ws| ==> ws[k].rect.h == (if r == 0 then 20 else 75) && ws[k].rect.Bottom() == y
  }

  /** The walls of the first `rows` rows: two per row, in row order. */
  ghost predicate LevelWalls(ws: seq<Wall>, rows: nat) {
    |ws| == 2 * rows && forall i :: 0 <= i < rows ==> RowWalls(ws[2 * i..2 * i + 2], i, RowY(i))
  }

  /** One more row of walls. */
  lemma LevelWallsSnoc(ws: seq<Wall>, rows: nat, more: seq<Wall>)
    requires LevelWalls(ws, rows) && |more| == 2 && RowWalls(more, rows, RowY(rows))
    ensures LevelWalls(ws + more, rows + 1)
  {
    forall i | 0 <= i < rows + 1
      ensures RowWalls((ws + more)[2 * i..2 * i + 2], i, RowY(i))
    {
      if i < rows {
        assert (ws + more)[2 * i..2 * i + 2] == ws[2 * i..2 * i + 2];
      } else {
        assert (ws + more)[2 * i..2 * i + 2] == more;
      }
    }
  }

  /** Scrolling keeps the walls' heights and the rows they stand on. */
  lemma LevelWallsShift(ws: seq<Wall>, rows: nat, dx: int)
    requires LevelWalls(ws, rows)
    ensures LevelWalls(ShiftWalls(ws, dx), rows)
  {
    var s := ShiftWalls(ws, dx);
    forall i | 0 <= i < rows
      ensures RowWalls(s[2 * i..2 * i + 2], i, RowY(i))
    {
      assert RowWalls(ws[2 * i..2 * i + 2], i, RowY(i));
      assert s[2 * i] == Wall(ws[2 * i].rect.ShiftX(dx));
      assert s[2 * i + 1] == Wall(ws[2 * i + 1].rect.ShiftX(dx));
    }
  }

  /** `np` platforms, `nt` trampolines, `ni` items and `nd` doors are as many as the
      first `r` rows of the grids ask for, and `ws` are those rows' walls. */
  ghost predicate RowsBuilt(grid: seq<seq<int>>, itemsGrid: seq<seq<int>>, doorsGrid: seq<seq<int>>, r: nat,
                            np: nat, nt: nat, ni: nat, nd: nat, ws: seq<Wall>)
    requires Aligned(grid, itemsGrid, doorsGrid) && r <= |grid|
  {
    np == GridCount(grid, grid, r, PlatformPiece) &&
    nt == GridCount(grid, grid, r, TrampolinePiece) &&
    ni == GridCount(grid, itemsGrid, r, ItemPiece) &&
    nd == GridCount(grid, doorsGrid, r, DoorPiece) &&
    (|grid[0]| > 0 ==> LevelWalls(ws, r)) &&
    (|grid[0]| == 0 ==> ws == [])
  }

  /** Scrolling keeps the built structures of every row. */
  lemma ScrolledRows(grid: seq<seq<int>>, itemsGrid: seq<seq<int>>, doorsGrid: seq<seq<int>>,
                     ws: seq<Wall>, dx: int, np: nat, nt: nat, ni: nat, nd: nat)
    requires Aligned(grid, itemsGrid, doorsGrid)
    requires RowsBuilt(grid, itemsGrid, doorsGrid, |grid|, np, nt, ni, nd, ws)
    ensures RowsBuilt(grid, itemsGrid, doorsGrid, |grid|, np, nt, ni, nd, ShiftWalls(ws, dx))
  {
    if |grid[0]| > 0 {
      LevelWallsShift(ws, |grid|, dx);
    }
  }

  /** A wave `w` sent out by door `d`: a 5 by 70 column centred on the door, going
      the way it faced at speed 4. */
  ghost predicate FromDoor(w: Wave, d: Door)
    reads w, d
  {
    FromView(w, d.View(), d.direction)
  }

  /** `FromDoor` for a door given as the value `v`, facing `direction`. */
  ghost predicate FromView(w: Wave, v: DoorView, direction: int)
    reads w
  {
    w.rect == CenteredAt(v.rect.Center(), 5, 70) && w.direction == direction && w.speedX == 4
  }

  /** A wave `w` that special door `d` sent out this frame: made at the door, then
      drifted once with the other waves. */
  ghost predicate SentFrom(w: Wave, d: Door)
    reads w, d
  {
    d.special && w.direction == d.direction && w.speedX == 4 &&
    w.rect == CenteredAt(d.rect.Center(), 5, 70).ShiftX(Drift(d.direction, 4))
  }

  /** Whether wave `w` travels the way some special door of `ds` faces. */
  predicate SentBy(w: Wave, ds: seq<Door>) {
    exists k :: 0 <= k < |ds| && ds[k].special && w.direction == ds[k].direction
  }

  /** The first `c` cells of a row built `np` platforms, `nt` trampolines, `ni`
      items and `nd` doors. */
  ghost predicate RowCounted(row: seq<int>, itemRow: seq<int>, doorRow: seq<int>, c: nat, np: int, nt: int, ni: int, nd: int)
    requires c <= |row| && |itemRow| == |row| && |doorRow| == |row|
  {
    np == RowCount(row, row, c, PlatformPiece) && nt == RowCount(row, row, c, TrampolinePiece) &&
    ni == RowCount(row, itemRow, c, ItemPiece) && nd == RowCount(row, doorRow, c, DoorPiece)
  }

  /** A layout grid of equal rows, and item and door grids of the same shape. */
  predicate Aligned(grid: seq<seq<int>>, itemsGrid: seq<seq<int>>, doorsGrid: seq<seq<int>>) {
    |grid| > 0 && Shaped(grid, |grid|, |grid[0]|) &&
    Shaped(itemsGrid, |grid|, |grid[0]|) && Shaped(doorsGrid, |grid|, |grid[0]|)
  }

  /** The enemy `m` catches the player: neither is in the air or riding, the enemy's
      rectangle holds the player's centre, and the player stands still or walks the
      same way as the enemy. */
  predicate Catches(m: Actor, player: Actor)
    reads m, player
  {
    CatchesAt(m, player.rect.Center(), player.state)
  }

  /** `Catches` for a player whose centre is `c` and whose state is `s`. */
  predicate CatchesAt(m: Actor, c: Point, s: State)
    reads m
  {
    s !in {Jump, Up, Down} && m.state !in {Jump, Up, Down} &&
    ContainsPoint(m.rect, c) && (s == m.state || s == Idle)
  }

  /** The state and speed an actor ends with after the waves of `ws` were checked
      against it in order. */
  function WavesHit(ws: seq<Wave>, r: Rect, s: State, speed: int): (res: (State, int))
    reads ws
    ensures (forall j :: 0 <= j < |ws| ==> !Overlaps(ws[j].rect, r)) ==> res == (s, speed)
    ensures (exists j :: 0 <= j < |ws| && Overlaps(ws[j].rect, r) && ws[j].direction in {-1, 1}) ==>
      res.0 == LeftStun || res.0 == RightStun
  {
    if ws == [] then (s, speed)
    else
      var prev := WavesHit(ws[..|ws| - 1], r, s, speed);
      var w := ws[|ws| - 1];
      assert forall j :: 0 <= j < |ws| - 1 ==> ws[..|ws| - 1][j] == ws[j];
      if Overlaps(w.rect, r) then (StunState(w.direction, prev.0), w.speedX) else prev
  }

  /** `wave.check_collision(e)` for every wave in order. */
  method WavesOn(ws: seq<Wave>, e: Actor)
    modifies e`speedX, e`state
    ensures (e.state, e.speedX) == WavesHit(ws, e.rect, old(e.state), old(e.speedX))
  {
    var i := 0;
    while i < |ws|
      invariant 0 <= i <= |ws|
      invariant (e.state, e.speedX) == WavesHit(ws[..i], e.rect, old(e.state), old(e.speedX))
    {
      assert ws[..i + 1][..i] == ws[..i];
      ws[i].CheckCollision(e);
      i := i + 1;
    }
    assert ws[..i] == ws;
  }

  /** The doors of `ds` as values. */
  function Views(ds: seq<Door>): (vs: seq<DoorView>)
    reads ds
    ensures |vs| == |ds| && forall j {:trigger vs[j]} :: 0 <= j < |ds| ==> vs[j] == ds[j].View()
  {
    seq(|ds|, j requires 0 <= j < |ds| reads ds => ds[j].View())
  }

  /** The doors `ds` and the motion of an enemy at `r` that started with motion `m`,
      after the enemy met each door in order (`EnemyMeets`). */
  function DoorsMet(ds: seq<DoorView>, r: Rect, m: Motion): (res: (seq<DoorView>, Motion))
    ensures |res.0| == |ds|
    ensures forall j :: 0 <= j < |ds| ==>
      res.0[j] == ds[j] || (res.0[j].state == 0 && res.0[j].width == 50 && res.0[j].special == ds[j].special)
    ensures forall j :: 0 <= j < |ds| && (ds[j].special || ds[j].state == 0) ==> res.0[j] == ds[j]
    ensures (forall j :: 0 <= j < |ds| ==> !(Overlaps(ds[j].rect, r) && ds[j].state != 0)) ==> res == (ds, m)
  {
    if ds == [] then ([], m)
    else
      var prev := DoorsMet(ds[..|ds| - 1], r, m);
      var met := EnemyMeets(ds[|ds| - 1], r, prev.1);
      assert forall j :: 0 <= j < |ds| - 1 ==> ds[..|ds| - 1][j] == ds[j];
      assert ds == ds[..|ds| - 1] + [ds[|ds| - 1]];
      (prev.0 + [met.0], met.1)
  }

  /** The doors `ds` and the player's motion, at `r` and moving as `m`, after the
      player met door `i`, then door `i + 1`, and so on to the last, in order
      (`PlayerMeets`); the doors before `i` are left as they are. */
  function DoorsPassed(ds: seq<DoorView>, i: nat, r: Rect, m: Motion): (res: (seq<DoorView>, Motion))
    requires i <= |ds|
    ensures |res.0| == |ds|
    decreases |ds| - i
  {
    if i == |ds| then (ds, m)
    else
      var met := PlayerMeets(ds[i], r, m);
      DoorsPassed(ds[i := met.0], i + 1, r, met.1)
  }

  /** What `DoorsPassed` does to the doors: each is left as it was or is open at its
      full width of 50 with its kind kept; the doors before `i` and the open doors are
      left as they were; and when the player touches no closed door from `i` on,
      nothing changes at all. */
  lemma {:induction false} DoorsPassedChanges(ds: seq<DoorView>, i: nat, r: Rect, m: Motion)
    requires i <= |ds|
    ensures var res := DoorsPassed(ds, i, r, m);
      (forall j :: 0 <= j < |ds| ==>
        res.0[j] == ds[j] || (res.0[j].state == 0 && res.0[j].width == 50 && res.0[j].special == ds[j].special)) &&
      (forall j :: 0 <= j < |ds| && (j < i || ds[j].state == 0) ==> res.0[j] == ds[j]) &&
      ((forall j :: i <= j < |ds| ==> !(Overlaps(ds[j].rect, r) && ds[j].state != 0)) ==> res == (ds, m))
    decreases |ds| - i
  {
    if i < |ds| {
      var met := PlayerMeets(ds[i], r, m);
      DoorsPassedChanges(ds[i := met.0], i + 1, r, met.1);
      assert !(Overlaps(ds[i].rect, r) && ds[i].state != 0) ==> ds[i := met.0] == ds;
    }
  }

  /** `door.check_collision(e, enemy=True)` for every door in order: the doors and
      the enemy's motion end as `DoorsMet` folds them. Special doors and open doors
      are left as they were; no door closes. */
  method DoorsOnEnemy(ds: seq<Door>, e: Actor)
    requires Distinct(ds)
    requires forall j :: 0 <= j < |ds| ==> ds[j].Valid()
    modifies ds`width, ds`rect, ds`state
    modifies e`direction, e`state, e`jumpStart, e`jumpEnd
    ensures forall j :: 0 <= j < |ds| ==> ds[j].Valid()
    ensures forall j :: 0 <= j < |ds| && (ds[j].special || old(ds[j].state) == 0) ==>
      ds[j].state == old(ds[j].state) && ds[j].rect == old(ds[j].rect) && ds[j].width == old(ds[j].width)
    ensures (Views(ds), e.CurrentMotion()) == DoorsMet(old(Views(ds)), e.rect, old(e.CurrentMotion()))
  {
    ghost var vs := Views(ds);
    ghost var m0 := e.CurrentMotion();
    var i := 0;
    while i < |ds|
      invariant 0 <= i <= |ds|
      invariant forall j :: 0 <= j < |ds| ==> ds[j].Valid()
      invariant forall j :: i <= j < |ds| ==> ds[j].View() == vs[j]
      invariant var met := DoorsMet(vs[..i], e.rect, m0);
        e.CurrentMotion() == met.1 && forall j :: 0 <= j < i ==> ds[j].View() == met.0[j]
    {
      MeetDoor(ds, ds[i], e, i, vs, m0);
      i := i + 1;
    }
    assert vs[..i] == vs;
    assert Views(ds) == DoorsMet(vs, e.rect, m0).0;
  }

  /** One pass of `DoorsOnEnemy`'s loop: door `i` meets the enemy, and the doors
      and the enemy's motion are `DoorsMet`'s one door further. */
  method MeetDoor(ds: seq<Door>, d: Door, e: Actor, i: int, ghost vs: seq<DoorView>, ghost m0: Motion)
    requires Distinct(ds) && 0 <= i < |ds| && d == ds[i] && |vs| == |ds|
    requires forall j :: 0 <= j < |ds| ==> ds[j].Valid()
    requires forall j :: i <= j < |ds| ==> ds[j].View() == vs[j]
    requires var met := DoorsMet(vs[..i], e.rect, m0);
      e.CurrentMotion() == met.1 && forall j :: 0 <= j < i ==> ds[j].View() == met.0[j]
    modifies d`width, d`rect, d`state
    modifies e`direction, e`state, e`jumpStart, e`jumpEnd
    ensures forall j :: 0 <= j < |ds| ==> ds[j].Valid()
    ensures forall j :: i + 1 <= j < |ds| ==> ds[j].View() == vs[j]
    ensures var met := DoorsMet(vs[..i + 1], e.rect, m0);
      e.CurrentMotion() == met.1 && forall j :: 0 <= j < i + 1 ==> ds[j].View() == met.0[j]
  {
    ghost var met := DoorsMet(vs[..i], e.rect, m0);
    assert vs[..i + 1][..i] == vs[..i];
    ghost var step := EnemyMeets(vs[i], e.rect, met.1);
    assert DoorsMet(vs[..i + 1], e.rect, m0) == (met.0 + [step.0], step.1);
    d.CheckEnemy(e);
  }

  /** The doors among the first `n` that are special and went from closed (in `vs`,
      before the doors' turn) to open (in `cur`, now), in increasing order. */
  function OpenedDoors(vs: seq<DoorView>, cur: seq<DoorView>, n: nat): (ks: seq<nat>)
    requires n <= |vs| == |cur|
    ensures |ks| <= n && forall j :: 0 <= j < |ks| ==> ks[j] < n
  {
    if n == 0 then []
    else
      OpenedDoors(vs, cur, n - 1) +
      (if cur[n - 1].special && vs[n - 1].state != 0 && cur[n - 1].state == 0 then [n - 1] else [])
  }

  /** `OpenedDoors` lists each door at most once, in increasing order, and lists a
      door exactly when it is special and went from closed to open. */
  lemma {:induction false} OpenedDoorsMembers(vs: seq<DoorView>, cur: seq<DoorView>, n: nat)
    requires n <= |vs| == |cur|
    ensures var ks := OpenedDoors(vs, cur, n);
      (forall j, k :: 0 <= j < k < |ks| ==> ks[j] < ks[k]) &&
      forall k :: 0 <= k < n ==> (k in ks <==> cur[k].special && vs[k].state != 0 && cur[k].state == 0)
  {
    if n > 0 {
      OpenedDoorsMembers(vs, cur, n - 1);
      var ks := OpenedDoors(vs, cur, n - 1);
      forall k | 0 <= k < n - 1
        ensures k in OpenedDoors(vs, cur, n) <==> k in ks
      {
      }
    }
  }

  /** `OpenedDoors` over the first `n` doors does not look at door `i >= n`. */
  lemma {:induction false} OpenedDoorsBefore(vs: seq<DoorView>, cur: seq<DoorView>, n: nat, i: int, d: DoorView)
    requires n <= i < |vs| == |cur|
    ensures OpenedDoors(vs, cur[i := d], n) == OpenedDoors(vs, cur, n)
  {
    if n > 0 {
      OpenedDoorsBefore(vs, cur, n - 1, i, d);
    }
  }

  /** While the doors' turn runs, the waves `ws` grew from `before` by one wave per
      door of `sources` (indices into `ds`), sent from the centre of that door as
      `cur` has it now. */
  ghost predicate WavesSeen(ws: seq<Wave>, before: seq<Wave>, sources: seq<nat>, ds: seq<Door>, cur: seq<DoorView>)
    reads ws
  {
    before <= ws && |ws| == |before| + |sources| && |cur| == |ds| &&
    forall j :: 0 <= j < |sources| ==>
      sources[j] < |ds| && FromView(ws[|before| + j], cur[sources[j]], ds[sources[j]].direction)
  }

  /** `WavesSeen` survives a change of door `i`, which sent none of the waves. */
  lemma WavesKept(ws: seq<Wave>, before: seq<Wave>, sources: seq<nat>, ds: seq<Door>, cur: seq<DoorView>,
                  i: int, d: DoorView)
    requires WavesSeen(ws, before, sources, ds, cur) && 0 <= i < |cur|
    requires forall j :: 0 <= j < |sources| ==> sources[j] < i
    ensures WavesSeen(ws, before, sources, ds, cur[i := d])
  {
  }

  /** `WavesSeen` with one more wave `w`, sent by door `i`. */
  lemma WavesGrow(ws: seq<Wave>, before: seq<Wave>, sources: seq<nat>, ds: seq<Door>, cur: seq<DoorView>,
                  i: nat, w: Wave)
    requires WavesSeen(ws, before, sources, ds, cur) && i < |ds|
    requires FromView(w, cur[i], ds[i].direction)
    ensures WavesSeen(ws + [w], before, sources + [i], ds, cur)
  {
    forall j | 0 <= j < |sources|
      ensures FromView((ws + [w])[|before| + j], cur[sources[j]], ds[sources[j]].direction)
    {
      assert (ws + [w])[|before| + j] == ws[|before| + j];
    }
  }

  /** One door of the player's doors' turn: door `d`, the `i`-th of `ds`, which are
      `cur` as values, is checked against the player; that door and the player's
      motion become what `PlayerMeets` makes of them, and the other doors are left as
      they were. Reports a hit exactly when the player, walking sideways, touched the
      closed door, which is exactly when the door went from closed to open. */
  method PassDoor(ds: seq<Door>, d: Door, p: Actor, i: int, ghost cur: seq<DoorView>)
    returns (hit: bool)
    requires Distinct(ds) && 0 <= i < |ds| && d == ds[i]
    requires forall j :: 0 <= j < |ds| ==> ds[j].Valid()
    requires Views(ds) == cur
    modifies d`width, d`rect, d`state
    modifies p`direction, p`state, p`jumpStart, p`jumpEnd
    ensures forall j :: 0 <= j < |ds| ==> ds[j].Valid()
    ensures var met := PlayerMeets(cur[i], p.rect, old(p.CurrentMotion()));
      Views(ds) == cur[i := met.0] && p.CurrentMotion() == met.1
    ensures hit <==> Overlaps(cur[i].rect, p.rect) && cur[i].state != 0 && (old(p.state) == Left || old(p.state) == Right)
    ensures hit <==> cur[i].state != 0 && d.state == 0
  {
    hit := d.CheckPlayer(p);
    forall j | 0 <= j < |ds| && j != i
      ensures ds[j].View() == cur[j]
    {
      assert ds[j] != d;
    }
  }

  /** The loop of the doors' turn: every door of `ds` is checked against the player
      in order, and the doors and the player's motion end as `DoorsPassed` folds
      `PlayerMeets` over them. Each special door the player opens adds a wave to
      `ws`; `sources` (`OpenedDoors`) names the door each new wave came from. */
  method PassDoors(ds: seq<Door>, p: Actor, ws: seq<Wave>)
    returns (ws': seq<Wave>, ghost sources: seq<nat>, ghost cur: seq<DoorView>)
    requires Distinct(ds) && Distinct(ws)
    requires forall j :: 0 <= j < |ds| ==> ds[j].Valid()
    modifies ds`width, ds`rect, ds`state
    modifies p`direction, p`state, p`jumpStart, p`jumpEnd
    ensures Distinct(ws') && forall j :: 0 <= j < |ds| ==> ds[j].Valid()
    ensures Views(ds) == cur
    ensures (cur, p.CurrentMotion()) == DoorsPassed(old(Views(ds)), 0, p.rect, old(p.CurrentMotion()))
    ensures sources == OpenedDoors(old(Views(ds)), cur, |ds|)
    ensures WavesSeen(ws', ws, sources, ds, cur)
    ensures forall j :: |ws| <= j < |ws'| ==> fresh(ws'[j])
  {
    ghost var vs := Views(ds);
    cur := vs;
    ghost var goal := DoorsPassed(vs, 0, p.rect, p.CurrentMotion());
    ws' := ws;
    sources := [];
    var i := 0;
    while i < |ds|
      invariant 0 <= i <= |ds|
      invariant Distinct(ws') && forall j :: 0 <= j < |ds| ==> ds[j].Valid()
      invariant Views(ds) == cur && DoorsPassed(cur, i, p.rect, p.CurrentMotion()) == goal
      invariant |cur| == |vs| && forall j :: i <= j < |vs| ==> cur[j] == vs[j]
      invariant sources == OpenedDoors(vs, cur, i) && WavesSeen(ws', ws, sources, ds, cur)
      invariant forall j :: |ws| <= j < |ws'| ==> fresh(ws'[j])
    {
      ws', sources, cur := VisitDoor(ds, p, i, ws', sources, vs, goal, ws, cur);
      i := i + 1;
    }
    assert DoorsPassed(cur, i, p.rect, p.CurrentMotion()) == (cur, p.CurrentMotion());
  }

  /** The doors' turn read door by door: `sources` lists, in increasing order, exactly
      the special doors that went from closed to open, and each sent one fresh wave
      from its centre, appended in that order. */
  method OpenDoors(ds: seq<Door>, p: Actor, ws: seq<Wave>) returns (ws': seq<Wave>, ghost sources: seq<nat>)
    requires Distinct(ds) && Distinct(ws)
    requires forall j :: 0 <= j < |ds| ==> ds[j].Valid()
    modifies ds`width, ds`rect, ds`state
    modifies p`direction, p`state, p`jumpStart, p`jumpEnd
    ensures Distinct(ws') && forall j :: 0 <= j < |ds| ==> ds[j].Valid()
    ensures ws <= ws' && |ws'| == |ws| + |sources| && |sources| <= |ds|
    ensures (Views(ds), p.CurrentMotion()) == DoorsPassed(old(Views(ds)), 0, p.rect, old(p.CurrentMotion()))
    ensures DoorsOpenedOn(ds, sources)
    ensures forall j :: 0 <= j < |sources| ==>
      ds[sources[j]].special && ds[sources[j]].state == 0 &&
      fresh(ws'[|ws| + j]) && FromDoor(ws'[|ws| + j], ds[sources[j]])
  {
    ghost var vs := Views(ds);
    ghost var cur;
    ws', sources, cur := PassDoors(ds, p, ws);
    OpenedDoorsMembers(vs, Views(ds), |ds|);
    forall k | 0 <= k < |ds|
      ensures k in sources <==> ds[k].special && old(ds[k].state) != 0 && ds[k].state == 0
    {
      assert vs[k].state == old(ds[k].state);
    }
    forall j | 0 <= j < |sources|
      ensures ds[sources[j]].special && ds[sources[j]].state == 0
      ensures fresh(ws'[|ws| + j]) && FromDoor(ws'[|ws| + j], ds[sources[j]])
    {
      assert sources[j] in sources;
      assert ds[sources[j]].View() == cur[sources[j]];
    }
  }

  /** What the doors' and waves' turn leaves behind, with `ws` the waves before it and
      `ws'` after: the old waves stay, in order, each drifted one step; the special
      doors of `ds` the player opened, and only those, are named in increasing order
      by `sources`, and each added one fresh wave, in that order, which left the door's
      centre facing the door's way and drifted once. */
  twostate predicate WavesSentOn(new ws': seq<Wave>, ws: seq<Wave>, ds: seq<Door>, sources: seq<nat>)
    reads ws', ds
  {
    DoorsOpenedOn(ds, sources) && WavesFrom(ws', ws, ds, sources) &&
    (forall j :: 0 <= j < |ws| ==> ws'[j].rect == old(ws[j].rect).ShiftX(Drift(ws[j].direction, ws[j].speedX))) &&
    (forall j :: |ws| <= j < |ws'| ==> fresh(ws'[j]))
  }

  /** The doors of `ds` the player opened: `sources` lists, in increasing order,
      exactly the special doors that were closed and are now open. */
  twostate predicate DoorsOpenedOn(ds: seq<Door>, sources: seq<nat>)
    reads ds
  {
    |sources| <= |ds| && (forall j :: 0 <= j < |sources| ==> sources[j] < |ds|) &&
    (forall j, k :: 0 <= j < k < |sources| ==> sources[j] < sources[k]) &&
    (forall i :: 0 <= i < |ds| ==> (i in sources <==> ds[i].special && old(ds[i].state) != 0 && ds[i].state == 0))
  }

  /** The waves `ws'` are the waves `ws` followed by one wave per door `sources`
      names, in that order, each sent from its door's centre and drifted once. */
  ghost predicate WavesFrom(ws': seq<Wave>, ws: seq<Wave>, ds: seq<Door>, sources: seq<nat>)
    reads ws', ds
  {
    ws <= ws' && |ws'| == |ws| + |sources| &&
    (forall j :: 0 <= j < |sources| ==> sources[j] < |ds| && SentFrom(ws'[|ws| + j], ds[sources[j]])) &&
    (forall j :: |ws| <= j < |ws'| ==> SentBy(ws'[j], ds))
  }

  /** The doors and waves of `update` on the groups themselves: the doors `ds` are
      checked against the player (`OpenDoors`), then every wave drifts, the new ones
      included (`DriftWaves`). The player's motion ends as `DoorsPassed` leaves it. */
  method SendWavesOn(ds: seq<Door>, p: Actor, ws: seq<Wave>) returns (ws': seq<Wave>, ghost sources: seq<nat>)
    requires Distinct(ds) && Distinct(ws)
    requires forall j :: 0 <= j < |ds| ==> ds[j].Valid()
    modifies ds`width, ds`rect, ds`state, ws`rect
    modifies p`direction, p`state, p`jumpStart, p`jumpEnd
    ensures Distinct(ws') && forall j :: 0 <= j < |ds| ==> ds[j].Valid()
    ensures WavesSentOn(ws', ws, ds, sources)
    ensures (Views(ds), p.CurrentMotion()) == DoorsPassed(old(Views(ds)), 0, p.rect, old(p.CurrentMotion()))
  {
    ws', sources := OpenDoors(ds, p, ws);
    forall j | 0 <= j < |ws'|
      ensures ws'[j] in ws || fresh(ws'[j])
    {
      if j < |ws| {
        assert ws'[j] == ws[j];
      } else {
        assert sources[j - |ws|] < |ds|;
      }
    }
    DriftWaves(ws', ws, ds, sources);
  }

  /** One pass of the doors' turn: door `i` of `ds` is checked against the player,
      the doors and the player's motion are `DoorsPassed`'s one door further, and a
      special door that opened sends out a wave, appended to the waves `ws`. */
  method VisitDoor(ds: seq<Door>, p: Actor, i: nat, ws: seq<Wave>, ghost sources: seq<nat>,
                   ghost vs: seq<DoorView>, ghost goal: (seq<DoorView>, Motion), ghost before: seq<Wave>,
                   ghost cur: seq<DoorView>)
    returns (ws': seq<Wave>, ghost sources': seq<nat>, ghost cur': seq<DoorView>)
    requires Distinct(ds) && Distinct(ws) && i < |ds|
    requires forall j :: 0 <= j < |ds| ==> ds[j].Valid()
    requires Views(ds) == cur && DoorsPassed(cur, i, p.rect, p.CurrentMotion()) == goal
    requires |vs| == |cur| && forall j :: i <= j < |vs| ==> cur[j] == vs[j]
    requires sources == OpenedDoors(vs, cur, i) && WavesSeen(ws, before, sources, ds, cur)
    modifies ds`width, ds`rect, ds`state
    modifies p`direction, p`state, p`jumpStart, p`jumpEnd
    ensures Distinct(ws') && forall j :: 0 <= j < |ds| ==> ds[j].Valid()
    ensures Views(ds) == cur' && DoorsPassed(cur', i + 1, p.rect, p.CurrentMotion()) == goal
    ensures |vs| == |cur'| && forall j :: i + 1 <= j < |vs| ==> cur'[j] == vs[j]
    ensures sources' == OpenedDoors(vs, cur', i + 1) && WavesSeen(ws', before, sources', ds, cur')
    ensures ws <= ws' && forall j :: |ws| <= j < |ws'| ==> fresh(ws'[j])
  {
    ghost var met := PlayerMeets(cur[i], p.rect, p.CurrentMotion());
    var hit := PassDoor(ds, ds[i], p, i, cur);
    cur' := cur[i := met.0];
    assert cur[i] == vs[i];
    assert ds[i].View() == Views(ds)[i] == met.0;
    var opens := hit && ds[i].special;
    assert opens <==> met.0.special && vs[i].state != 0 && met.0.state == 0;
    OpenedDoorsBefore(vs, cur, i, i, met.0);
    WavesKept(ws, before, sources, ds, cur, i, met.0);
    if opens {
      ws' := SendWave(ds, i, ws, before, sources, cur');
      sources' := sources + [i];
    } else {
      ws' := ws;
      sources' := sources;
    }
  }

  /** `self.waves.add(Wave(...))` for door `i` of `ds`: a new wave from the door's
      centre, going the way it faces, joins the waves `ws`. */
  method SendWave(ds: seq<Door>, i: nat, ws: seq<Wave>, ghost before: seq<Wave>, ghost sources: seq<nat>,
                  ghost cur: seq<DoorView>)
    returns (ws': seq<Wave>)
    requires Distinct(ws) && i < |ds| == |cur| && cur[i] == ds[i].View()
    requires WavesSeen(ws, before, sources, ds, cur)
    ensures Distinct(ws') && WavesSeen(ws', before, sources + [i], ds, cur)
    ensures ws <= ws' && |ws'| == |ws| + 1 && fresh(ws'[|ws|])
  {
    var w := new Wave(ds[i].rect.CenterX(), ds[i].rect.CenterY(), ds[i].direction);
    WavesGrow(ws, before, sources, ds, cur, i, w);
    AddDistinct(ws, w);
    ws' := ws + [w];
  }

  /** Every trampoline took one animation step: an idle one stays idle on its frame,
      an animating one advances by `AnimStep`. */
  twostate predicate Animated(ts: seq<Trampoline>)
    reads ts
  {
    (forall j :: 0 <= j < |ts| && !old(ts[j].animation) ==>
      ts[j].animationFrame == old(ts[j].animationFrame) && !ts[j].animation) &&
    (forall j :: 0 <= j < |ts| && old(ts[j].animation) ==>
      (ts[j].animationFrame, ts[j].animationCounter, ts[j].animation) ==
      AnimStep(old(ts[j].animationFrame), old(ts[j].animationCounter)))
  }

  /** `trampoline.update()` for every trampoline: only the animations advance. */
  method UpdateTrampolines(ts: seq<Trampoline>)
    requires Distinct(ts)
    requires forall j :: 0 <= j < |ts| ==> ts[j].Valid()
    modifies ts`color, ts`animationFrame, ts`animationCounter, ts`animation, ts`shown
    ensures forall j :: 0 <= j < |ts| ==> ts[j].Valid()
    ensures Animated(ts)
  {
    var i := 0;
    while i < |ts|
      invariant 0 <= i <= |ts|
      invariant forall j :: 0 <= j < |ts| ==> ts[j].Valid()
      invariant forall j :: i <= j < |ts| ==>
        ts[j].animation == old(ts[j].animation) && ts[j].animationFrame == old(ts[j].animationFrame) &&
        ts[j].animationCounter == old(ts[j].animationCounter)
      invariant forall j :: 0 <= j < i && !old(ts[j].animation) ==>
        ts[j].animationFrame == old(ts[j].animationFrame) && !ts[j].animation
      invariant forall j :: 0 <= j < i && old(ts[j].animation) ==>
        (ts[j].animationFrame, ts[j].animationCounter, ts[j].animation) ==
        AnimStep(old(ts[j].animationFrame), old(ts[j].animationCounter))
    {
      ts[i].Update();
      i := i + 1;
    }
  }

  /** `wave.update()` for every wave: each drifts one step. */
  method UpdateWaves(ws: seq<Wave>)
    requires Distinct(ws)
    modifies ws`rect
    ensures forall j :: 0 <= j < |ws| ==> ws[j].rect == old(ws[j].rect).ShiftX(Drift(ws[j].direction, ws[j].speedX))
  {
    var i := 0;
    while i < |ws|
      invariant 0 <= i <= |ws|
      invariant forall j :: 0 <= j < i ==> ws[j].rect == old(ws[j].rect).ShiftX(Drift(ws[j].direction, ws[j].speedX))
      invariant forall j :: i <= j < |ws| ==> ws[j].rect == old(ws[j].rect)
    {
      ws[i].Update();
      i := i + 1;
    }
  }

  /** The waves' drift after the doors' turn: every wave of `ws` drifts one step, and
      the last `|sources|` of them, sent by the doors `sources` names, drifted once
      from those doors' centres. */
  method DriftWaves(ws: seq<Wave>, ghost before: seq<Wave>, ds: seq<Door>, ghost sources: seq<nat>)
    requires Distinct(ws) && before <= ws && |before| + |sources| == |ws|
    requires forall j :: 0 <= j < |sources| ==>
      sources[j] < |ds| && ds[sources[j]].special && FromDoor(ws[|before| + j], ds[sources[j]])
    modifies ws`rect
    ensures forall j :: 0 <= j < |ws| ==> ws[j].rect == old(ws[j].rect).ShiftX(Drift(ws[j].direction, ws[j].speedX))
    ensures WavesFrom(ws, before, ds, sources)
    ensures unchanged(ds)
  {
    ghost var n := |before|;
    label checked:
    UpdateWaves(ws);
    forall j | 0 <= j < |sources|
      ensures SentFrom(ws[n + j], ds[sources[j]])
    {
      assert old@checked(FromDoor(ws[n + j], ds[sources[j]]));
    }
    forall j | n <= j < |ws|
      ensures SentBy(ws[j], ds)
    {
      var k := sources[j - n];
      assert SentFrom(ws[j], ds[k]);
    }
  }

  /** Scrolling helpers: every rectangle of a group moves `dx` sideways. */
  method ShiftTrampolines(ts: seq<Trampoline>, dx: int)
    requires Distinct(ts) && forall j :: 0 <= j < |ts| ==> ts[j].Valid()
    modifies ts`rect
    ensures forall j :: 0 <= j < |ts| ==> ts[j].rect == old(ts[j].rect).ShiftX(dx)
    ensures forall j :: 0 <= j < |ts| ==> ts[j].Valid()
  {
    var i := 0;
    while i < |ts|
      invariant 0 <= i <= |ts|
      invariant forall j :: 0 <= j < |ts| ==> ts[j].Valid()
      invariant forall j :: 0 <= j < i ==> ts[j].rect == old(ts[j].rect).ShiftX(dx)
      invariant forall j :: i <= j < |ts| ==> ts[j].rect == old(ts[j].rect)
    {
      ts[i].rect := ts[i].rect.ShiftX(dx);
      i := i + 1;
    }
  }

  method ShiftItems(its: seq<Item>, dx: int)
    requires Distinct(its) && forall j :: 0 <= j < |its| ==> its[j].Valid()
    modifies its`rect
    ensures forall j :: 0 <= j < |its| ==> its[j].rect == old(its[j].rect).ShiftX(dx)
    ensures forall j :: 0 <= j < |its| ==> its[j].Valid()
  {
    var i := 0;
    while i < |its|
      invariant 0 <= i <= |its|
      invariant forall j :: 0 <= j < |its| ==> its[j].Valid()
      invariant forall j :: 0 <= j < i ==> its[j].rect == old(its[j].rect).ShiftX(dx)
      invariant forall j :: i <= j < |its| ==> its[j].rect == old(its[j].rect)
    {
      its[i].rect := its[i].rect.ShiftX(dx);
      i := i + 1;
    }
  }

  method ShiftActors(ms: seq<Actor>, dx: int)
    requires Distinct(ms)
    modifies ms`rect
    ensures forall j :: 0 <= j < |ms| ==> ms[j].rect == old(ms[j].rect).ShiftX(dx)
  {
    var i := 0;
    while i < |ms|
      invariant 0 <= i <= |ms|
      invariant forall j :: 0 <= j < i ==> ms[j].rect == old(ms[j].rect).ShiftX(dx)
      invariant forall j :: i <= j < |ms| ==> ms[j].rect == old(ms[j].rect)
    {
      ms[i].rect := ms[i].rect.ShiftX(dx);
      i := i + 1;
    }
  }

  method ShiftDoors(ds: seq<Door>, dx: int)
    requires Distinct(ds) && forall j :: 0 <= j < |ds| ==> ds[j].Valid()
    modifies ds`rect
    ensures forall j :: 0 <= j < |ds| ==> ds[j].rect == old(ds[j].rect).ShiftX(dx)
    ensures forall j :: 0 <= j < |ds| ==> ds[j].Valid()
  {
    var i := 0;
    while i < |ds|
      invariant 0 <= i <= |ds|
      invariant forall j :: 0 <= j < |ds| ==> ds[j].Valid()
      invariant forall j :: 0 <= j < i ==> ds[j].rect == old(ds[j].rect).ShiftX(dx)
      invariant forall j :: i <= j < |ds| ==> ds[j].rect == old(ds[j].rect)
    {
      ds[i].rect := ds[i].rect.ShiftX(dx);
      i := i + 1;
    }
  }

  method ShiftWaves(ws: seq<Wave>, dx: int)
    requires Distinct(ws)
    modifies ws`rect
    ensures forall j :: 0 <= j < |ws| ==> ws[j].rect == old(ws[j].rect).ShiftX(dx)
  {
    var i := 0;
    while i < |ws|
      invariant 0 <= i <= |ws|
      invariant forall j :: 0 <= j < i ==> ws[j].rect == old(ws[j].rect).ShiftX(dx)
      invariant forall j :: i <= j < |ws| ==> ws[j].rect == old(ws[j].rect)
    {
      ws[i].rect := ws[i].rect.ShiftX(dx);
      i := i + 1;
    }
  }

  /** Every wall moved `dx` sideways. */
  function ShiftWalls(ws: seq<Wall>, dx: int): (r: seq<Wall>)
    ensures |r| == |ws| && forall j :: 0 <= j < |ws| ==> r[j].rect == ws[j].rect.ShiftX(dx)
  {
    seq(|ws|, j requires 0 <= j < |ws| => Wall(ws[j].rect.ShiftX(dx)))
  }

  /** One call of `generate_enemies` on the spawned count, the level's enemy total
      and the delay counter: whether an enemy spawns, and the new count and delay.
      An enemy spawns once the delay counter has passed two seconds of frames while
      fewer enemies than the total were spawned; the count never passes the total. */
  function SpawnStep(current: int, total: int, delay: int): (r: (bool, int, int))
    ensures r.0 <==> current < total && delay > SPAWN_DELAY
    ensures r.0 ==> r.1 == current + 1 && r.2 == 0
    ensures !r.0 ==> r.1 == current
    ensures current <= total ==> r.1 <= total
  {
    if current < total then
      if delay > SPAWN_DELAY then (true, current + 1, 0) else (false, current, delay + 1)
    else (false, current, delay)
  }

  /** The spawned count and delay counter after `n` calls of `generate_enemies`. */
  function SpawnRun(n: nat, current: int, total: int, delay: int): (int, int) {
    if n == 0 then (current, delay)
    else
      var r := SpawnStep(current, total, delay);
      SpawnRun(n - 1, r.1, total, r.2)
  }

  /** While fewer enemies than the total were spawned, nothing spawns until the delay
      counter reaches two seconds of frames plus one. */
  lemma {:induction false} NoSpawnWhileWaiting(n: nat, current: int, total: int, delay: int)
    requires current < total && 0 <= delay && delay + n <= SPAWN_DELAY + 1
    ensures SpawnRun(n, current, total, delay) == (current, delay + n)
  {
    if n > 0 {
      NoSpawnWhileWaiting(n - 1, current, total, delay + 1);
    }
  }

  /** Enemies arrive one every two seconds of frames plus two: from a spawn (delay 0)
      the next one comes on the 122nd call. */
  lemma SpawnInterval(current: int, total: int)
    requires current < total
    ensures SpawnRun(SPAWN_DELAY + 1, current, total, 0) == (current, SPAWN_DELAY + 1)
    ensures SpawnStep(current, total, SPAWN_DELAY + 1) == (true, current + 1, 0)
  {
    NoSpawnWhileWaiting(SPAWN_DELAY + 1, current, total, 0);
  }

  /** Once as many enemies as the total were spawned, no more spawn. */
  lemma {:induction false} NoSpawnPastTotal(n: nat, current: int, total: int, delay: int)
    requires current >= total
    ensures SpawnRun(n, current, total, delay) == (current, delay)
  {
    if n > 0 {
      NoSpawnPastTotal(n - 1, current, total, delay);
    }
  }

  /** The spawned count never passes the total, however many calls are made. */
  lemma {:induction false} SpawnBounded(n: nat, current: int, total: int, delay: int)
    requires current <= total
    ensures SpawnRun(n, current, total, delay).0 <= total
  {
    if n > 0 {
      var r := SpawnStep(current, total, delay);
      SpawnBounded(n - 1, r.1, total, r.2);
    }
  }

  class Level {
    var platforms: seq<Platform>
    var walls: seq<Wall>
    var trampolines: seq<Trampoline>
    var items: seq<Item>
    var meowkies: seq<Actor>
    var doors: seq<Door>
    var waves: seq<Wave>
    var offset: int
    var width: int
    var height: int
    var roofRect: Rect
    var streak: Streak
    var totalMeowkies: int
    var currentMeowkies: int
    var meowkiesDelayCounter: int

    /** The groups hold no object twice, every trampoline, item and door is well
        formed, the enemy group holds enemies, and the pair count is not negative. */
    ghost predicate Valid()
      reads this, trampolines, items, doors
    {
      StructuresValid() && ActorsValid()
    }

    /** No enemy or wave twice in its group, the enemy group holds enemies, and the
        pair count is not negative. */
    ghost predicate ActorsValid()
      reads this`meowkies, this`waves, this`streak
    {
      Distinct(meowkies) && Distinct(waves) &&
      (forall j :: 0 <= j < |meowkies| ==> meowkies[j].isEnemy) &&
      streak.pairs >= 0
    }

    /** The built structures: no object twice in a group, each well formed. */
    ghost predicate StructuresValid()
      reads this`trampolines, this`items, this`doors
      reads trampolines`bounceCounter, trampolines`broken, trampolines`animationFrame, doors`state
    {
      Distinct(trampolines) && Distinct(items) && Distinct(doors) &&
      (forall j :: 0 <= j < |trampolines| ==> trampolines[j].Valid()) &&
      (forall j :: 0 <= j < |items| ==> items[j].Valid()) &&
      (forall j :: 0 <= j < |doors| ==> doors[j].Valid())
    }

    /** Every trampoline, item and door not there before building is new. */
    twostate predicate Grew()
      reads this
    {
      (forall t :: t in trampolines ==> t in old(trampolines) || fresh(t)) &&
      (forall t :: t in items ==> t in old(items) || fresh(t)) &&
      (forall t :: t in doors ==> t in old(doors) || fresh(t))
    }

    /** The structures of the first `r` rows of the grids are built: as many of each
        kind as those rows ask for, and their walls. */
    ghost predicate BuiltRows(grid: seq<seq<int>>, itemsGrid: seq<seq<int>>, doorsGrid: seq<seq<int>>, r: nat)
      requires Aligned(grid, itemsGrid, doorsGrid) && r <= |grid|
      reads this
    {
      RowsBuilt(grid, itemsGrid, doorsGrid, r, |platforms|, |trampolines|, |items|, |doors|, walls)
    }

    /** `Level(level_number)` over a layout grid and its item and door grids, as the
        generators make them. `coinLeft(r, c)` is the random facing of a door built
        at row r, column c without a gap beside it; `itemWidth(t)` is the width of the
        image of item type t; the roof image is `roofW` x `roofH`. */
    constructor(levelNumber: int, grid: seq<seq<int>>, itemsGrid: seq<seq<int>>, doorsGrid: seq<seq<int>>,
                coinLeft: (nat, nat) -> bool, itemWidth: int -> nat, roofW: nat, roofH: nat)
      requires Aligned(grid, itemsGrid, doorsGrid)
      requires forall i, j :: 0 <= i < |grid| && 0 <= j < |grid[0]| ==> 0 <= itemsGrid[i][j] <= 5
      ensures Valid()
      ensures streak == NEW_STREAK && totalMeowkies == levelNumber
      ensures currentMeowkies == 0 && meowkiesDelayCounter == 0 && meowkies == [] && waves == []
      ensures width == LayoutWidth(grid) && height == RowY(|grid| - 1)
      ensures offset == SCREEN_WIDTH - 60 - width
      ensures roofRect == Rect(START_X + offset, START_Y - roofH, roofW, roofH)
      ensures BuiltRows(grid, itemsGrid, doorsGrid, |grid|)
    {
      platforms, walls, trampolines, items, meowkies, doors, waves := [], [], [], [], [], [], [];
      offset, width, height := 0, 0, 0;
      roofRect := Rect(0, 0, roofW, roofH);
      streak := NEW_STREAK;
      totalMeowkies := levelNumber;
      currentMeowkies := 0;
      meowkiesDelayCounter := 0;
      new;
      BuildLevel(grid, itemsGrid, doorsGrid, coinLeft, itemWidth);
    }

    /** `build_level`: lays the grid out, puts the roof's bottom-left corner at
        (60, 210), then scrolls the level so that its right end is 60 pixels from the
        right of the screen. The roof keeps the size of its unscaled image. */
    method BuildLevel(grid: seq<seq<int>>, itemsGrid: seq<seq<int>>, doorsGrid: seq<seq<int>>,
                      coinLeft: (nat, nat) -> bool, itemWidth: int -> nat)
      requires Aligned(grid, itemsGrid, doorsGrid)
      requires forall i, j :: 0 <= i < |grid| && 0 <= j < |grid[0]| ==> 0 <= itemsGrid[i][j] <= 5
      requires platforms == [] && walls == [] && trampolines == [] && items == [] && doors == []
      requires meowkies == [] && waves == [] && offset == 0 && ActorsValid()
      modifies this`platforms, this`walls, this`trampolines, this`items, this`doors, this`width, this`height
      modifies this`offset, this`roofRect
      ensures Valid()
      ensures width == LayoutWidth(grid) && height == RowY(|grid| - 1)
      ensures offset == SCREEN_WIDTH - 60 - width
      ensures roofRect == Rect(START_X + offset, START_Y - old(roofRect).h, old(roofRect).w, old(roofRect).h)
      ensures BuiltRows(grid, itemsGrid, doorsGrid, |grid|)
    {
      LayOut(grid, itemsGrid, doorsGrid, coinLeft, itemWidth);
      PlaceRoofAndScroll(grid, itemsGrid, doorsGrid);
    }

    /** The end of `build_level`: the roof's bottom-left corner goes to (60, 210) and
        the level scrolls so that its right end is 60 pixels from the right of the
        screen. */
    method PlaceRoofAndScroll(grid: seq<seq<int>>, itemsGrid: seq<seq<int>>, doorsGrid: seq<seq<int>>)
      requires Aligned(grid, itemsGrid, doorsGrid) && BuiltRows(grid, itemsGrid, doorsGrid, |grid|)
      requires Valid() && offset == 0
      modifies this`platforms, this`walls, this`offset, this`roofRect
      modifies trampolines`rect, items`rect, meowkies`rect, doors`rect, waves`rect
      ensures Valid() && BuiltRows(grid, itemsGrid, doorsGrid, |grid|)
      ensures offset == SCREEN_WIDTH - 60 - width
      ensures roofRect == Rect(START_X + offset, START_Y - old(roofRect).h, old(roofRect).w, old(roofRect).h)
    {
      roofRect := roofRect.WithBottomLeft(Point(START_X, START_Y));
      ghost var built := walls;
      Scroll(-width + SCREEN_WIDTH - 60);
      ScrolledRows(grid, itemsGrid, doorsGrid, built, -width + SCREEN_WIDTH - 60,
                   |platforms|, |trampolines|, |items|, |doors|);
    }

    /** The rows loop of `build_level`: lays the grid out row by row from (60, 210). */
    method LayOut(grid: seq<seq<int>>, itemsGrid: seq<seq<int>>, doorsGrid: seq<seq<int>>,
                      coinLeft: (nat, nat) -> bool, itemWidth: int -> nat)
      requires Aligned(grid, itemsGrid, doorsGrid)
      requires forall i, j :: 0 <= i < |grid| && 0 <= j < |grid[0]| ==> 0 <= itemsGrid[i][j] <= 5
      requires platforms == [] && walls == [] && trampolines == [] && items == [] && doors == []
      requires StructuresValid()
      modifies this`platforms, this`walls, this`trampolines, this`items, this`doors, this`width, this`height
      ensures StructuresValid()
      ensures forall j :: 0 <= j < |trampolines| ==> fresh(trampolines[j])
      ensures forall j :: 0 <= j < |items| ==> fresh(items[j])
      ensures forall j :: 0 <= j < |doors| ==> fresh(doors[j])
      ensures width == LayoutWidth(grid) && height == RowY(|grid| - 1)
      ensures BuiltRows(grid, itemsGrid, doorsGrid, |grid|)
    {
      LayRows(grid, itemsGrid, doorsGrid, coinLeft, itemWidth);
      forall j | 0 <= j < |trampolines| ensures fresh(trampolines[j]) { assert trampolines[j] in trampolines; }
      forall j | 0 <= j < |items| ensures fresh(items[j]) { assert items[j] in items; }
      forall j | 0 <= j < |doors| ensures fresh(doors[j]) { assert doors[j] in doors; }
    }

    /** The rows loop of `build_level`. */
    method LayRows(grid: seq<seq<int>>, itemsGrid: seq<seq<int>>, doorsGrid: seq<seq<int>>,
                   coinLeft: (nat, nat) -> bool, itemWidth: int -> nat)
      requires Aligned(grid, itemsGrid, doorsGrid)
      requires forall i, j :: 0 <= i < |grid| && 0 <= j < |grid[0]| ==> 0 <= itemsGrid[i][j] <= 5
      requires platforms == [] && walls == [] && trampolines == [] && items == [] && doors == []
      requires StructuresValid()
      modifies this`platforms, this`walls, this`trampolines, this`items, this`doors, this`width, this`height
      ensures StructuresValid() && Grew()
      ensures width == LayoutWidth(grid) && height == RowY(|grid| - 1)
      ensures BuiltRows(grid, itemsGrid, doorsGrid, |grid|)
    {
      var rows := |grid|;
      var inc := 0;
      var y := START_Y;
      var x := START_X;
      var r := 0;
      while r < rows
        invariant 0 <= r <= rows && y == RowY(r) && inc == CarryInto(grid, r)
        invariant r > 0 ==> x == RowScan(grid[r - 1], |grid[r - 1]|, START_X, CarryInto(grid, r - 1)).0
        invariant StructuresValid() && Grew()
        invariant BuiltRows(grid, itemsGrid, doorsGrid, r)
      {
        CarryBounds(grid, r);
        x, inc := BuildNextRow(grid, itemsGrid, doorsGrid, r, y, inc, coinLeft, itemWidth);
        y := y + FLOOR_HEIGHT;
        r := r + 1;
      }
      width := x;
      height := y - FLOOR_HEIGHT;
    }

    /** Row `r` of `build_level`, after the rows above it. */
    method BuildNextRow(grid: seq<seq<int>>, itemsGrid: seq<seq<int>>, doorsGrid: seq<seq<int>>, r: nat,
                        y: int, inc: int, coinLeft: (nat, nat) -> bool, itemWidth: int -> nat)
      returns (x: int, inc': int)
      requires Aligned(grid, itemsGrid, doorsGrid) && r < |grid|
      requires forall j :: 0 <= j < |grid[0]| ==> 0 <= itemsGrid[r][j] <= 5
      requires StructuresValid() && BuiltRows(grid, itemsGrid, doorsGrid, r)
      requires y == RowY(r) && (inc == 0 || inc == 25)
      modifies this`platforms, this`walls, this`trampolines, this`items, this`doors
      ensures StructuresValid() && Grew()
      ensures BuiltRows(grid, itemsGrid, doorsGrid, r + 1)
      ensures (x, inc') == RowScan(grid[r], |grid[r]|, START_X, inc)
    {
      ghost var before := walls;
      x, inc' := BuildRow(grid[r], itemsGrid[r], doorsGrid[r], r, r == |grid| - 1, y, inc, coinLeft, itemWidth);
      if |grid[0]| > 0 {
        LevelWallsSnoc(before, r, walls[|before|..]);
        assert before + walls[|before|..] == walls;
      }
    }

    /** One row of `build_level`: the cells from left to right, starting at x = 60
        with the width carried from the previous row. Returns the x position reached
        and the width carried on. */
    method BuildRow(row: seq<int>, itemRow: seq<int>, doorRow: seq<int>, r: nat, lastRow: bool,
                    y: int, inc: int, coinLeft: (nat, nat) -> bool, itemWidth: int -> nat)
      returns (x: int, inc': int)
      requires |itemRow| == |row| && |doorRow| == |row|
      requires forall j :: 0 <= j < |row| ==> 0 <= itemRow[j] <= 5
      requires StructuresValid() && (inc == 0 || inc == 25)
      modifies this`platforms, this`walls, this`trampolines, this`items, this`doors
      ensures StructuresValid() && Grew()
      ensures (x, inc') == RowScan(row, |row|, START_X, inc)
      ensures |platforms| == |old(platforms)| + RowCount(row, row, |row|, PlatformPiece)
      ensures |trampolines| == |old(trampolines)| + RowCount(row, row, |row|, TrampolinePiece)
      ensures |items| == |old(items)| + RowCount(row, itemRow, |row|, ItemPiece)
      ensures |doors| == |old(doors)| + RowCount(row, doorRow, |row|, DoorPiece)
      ensures |walls| == |old(walls)| + (if |row| == 0 then 0 else 2)
      ensures walls[..|old(walls)|] == old(walls) && RowWalls(walls[|old(walls)|..], r, y)
    {
      var cols := |row|;
      x, inc' := START_X, inc;
      var c := 0;
      ghost var built: seq<Wall> := [];
      while c < cols
        invariant 0 <= c <= cols
        invariant (x, inc') == RowScan(row, c, START_X, inc)
        invariant inc' == 0 || inc' == 25
        invariant StructuresValid() && Grew()
        invariant RowCounted(row, itemRow, doorRow, c, |platforms| - |old(platforms)|, |trampolines| - |old(trampolines)|,
                             |items| - |old(items)|, |doors| - |old(doors)|)
        invariant walls == old(walls) + built && RowWalls(built, r, y)
        invariant |built| == (if c >= 1 then 1 else 0) + (if c >= cols > 0 then 1 else 0)
      {
        RowScanBounds(row, c + 1, START_X, inc);
        ghost var edge := EdgeWalls(r, c, cols, x, y);
        x, inc' := BuildCell(row, itemRow[c], doorRow[c], r, c, lastRow, x, y, inc', coinLeft(r, c), itemWidth);
        built := built + edge;
        c := c + 1;
      }
      assert walls[|old(walls)|..] == built;
    }

    /** One cell of `build_level` at row r, column c, from position (x, y) with the
        carried width `inc`: the walls at the row's ends, and the platform (with its
        item and door), the trampoline or the gap the cell holds. Returns the next x
        position and carried width. */
    method BuildCell(row: seq<int>, itemEntry: int, doorEntry: int, r: nat, c: nat, lastRow: bool,
                     x: int, y: int, inc: int, coinLeft: bool, itemWidth: int -> nat)
      returns (x': int, inc': int)
      requires c < |row| && 0 <= itemEntry <= 5
      requires StructuresValid() && (inc == 0 || inc == 25)
      modifies this`platforms, this`walls, this`trampolines, this`items, this`doors
      ensures StructuresValid() && Grew()
      ensures (x', inc') == CellAdvance(row, c, x, inc)
      ensures |platforms| == |old(platforms)| + (if Builds(PlatformPiece, c, |row|, row[c], row[c]) then 1 else 0)
      ensures |trampolines| == |old(trampolines)| + (if Builds(TrampolinePiece, c, |row|, row[c], row[c]) then 1 else 0)
      ensures |items| == |old(items)| + (if Builds(ItemPiece, c, |row|, row[c], itemEntry) then 1 else 0)
      ensures |doors| == |old(doors)| + (if Builds(DoorPiece, c, |row|, row[c], doorEntry) then 1 else 0)
      ensures walls == old(walls) + EdgeWalls(r, c, |row|, x, y)
    {
      AddEdgeWalls(r, c, |row|, x, y);
      x', inc' := x, inc;
      if row[c] == 0 {
        x' := x' + TRAMPOLINE_WIDTH;
        inc' := PLATFORM_WIDTH - TRAMPOLINE_WIDTH;
      } else if row[c] == 1 {
        x', inc' := PlacePlatform(row, r, c, lastRow, x, y, inc, itemEntry, doorEntry, coinLeft, itemWidth);
      } else if row[c] == 2 {
        if c < |row| - 2 {
          if row[c + 1] == 1 {
            inc' := PLATFORM_WIDTH - TRAMPOLINE_WIDTH;
          }
        }
        PlaceTrampoline(x, y);
        x' := x' + TRAMPOLINE_WIDTH;
      }
    }

    /** The walls at the ends of a row: at the first cell one 2 pixels right of x, at
        the last cell one a trampoline's width right of x; 20 pixels high on the top
        row and 75 below. */
    method AddEdgeWalls(r: nat, c: nat, cols: nat, x: int, y: int)
      modifies this`walls
      ensures walls == old(walls) + EdgeWalls(r, c, cols, x, y)
    {
      if c == 0 {
        walls := walls + [NewWall(x + 2, y, 8, if r == 0 then 20 else 75)];
      }
      if c == cols - 1 {
        walls := walls + [NewWall(x + TRAMPOLINE_WIDTH, y, 8, if r == 0 then 20 else 75)];
      }
    }

    /** A trampoline cell: the trampoline sits 5 pixels below the row's top. */
    method PlaceTrampoline(x: int, y: int)
      requires StructuresValid()
      modifies this`trampolines
      ensures StructuresValid() && Grew()
      ensures |trampolines| == |old(trampolines)| + 1 && trampolines[..|old(trampolines)|] == old(trampolines)
      ensures trampolines[|trampolines| - 1].rect == Rect(x, y + 5, TRAMPOLINE_WIDTH, TRAMPOLINE_HEIGHT)
      ensures trampolines[|trampolines| - 1].bounceCounter == 0 && !trampolines[|trampolines| - 1].broken
    {
      var t := new Trampoline(x, y + (PLATFORM_HEIGHT - TRAMPOLINE_HEIGHT), TRAMPOLINE_WIDTH, TRAMPOLINE_HEIGHT);
      trampolines := trampolines + [t];
    }

    /** A platform cell at column c of `row`: a platform as wide as a platform plus the
        carried width (a floor piece below the last row, one 15 pixels thicker on the
        last row), the item its item entry names, ending 10 pixels before the
        platform's right end, and the door its door entry asks for away from the outer
        columns. Returns the next x position and carried width 0. */
    method PlacePlatform(row: seq<int>, r: nat, c: nat, lastRow: bool, x: int, y: int, inc: int,
                         itemEntry: int, doorEntry: int, coinLeft: bool, itemWidth: int -> nat)
      returns (x': int, inc': int)
      requires c < |row| && row[c] == 1 && 0 <= itemEntry <= 5 && (inc == 0 || inc == 25)
      requires StructuresValid()
      modifies this`platforms, this`items, this`doors
      ensures StructuresValid() && Grew()
      ensures x' == x + PLATFORM_WIDTH + inc && inc' == 0
      ensures platforms == old(platforms) + [NewPlatform(x, y, PLATFORM_WIDTH + inc, PLATFORM_HEIGHT, !lastRow)]
      ensures |items| == |old(items)| + (if itemEntry != 0 then 1 else 0)
      ensures items[..|old(items)|] == old(items)
      ensures itemEntry != 0 ==>
        items[|items| - 1].itemType == itemEntry && items[|items| - 1].rect.Right() == x' - 10 &&
        items[|items| - 1].rect.Bottom() == y
      ensures |doors| == |old(doors)| + (if Builds(DoorPiece, c, |row|, 1, doorEntry) then 1 else 0)
      ensures doors[..|old(doors)|] == old(doors)
      ensures |doors| > |old(doors)| ==> DoorBuilt(doors[|doors| - 1], row, c, x, x', y, doorEntry == 2, coinLeft)
    {
      platforms := platforms + [NewPlatform(x, y, PLATFORM_WIDTH + inc, PLATFORM_HEIGHT, !lastRow)];
      x' := x + PLATFORM_WIDTH + inc;
      if itemEntry != 0 {
        var item := new Item(x' - 10, y, itemEntry, itemWidth(itemEntry));
        items := items + [item];
      }
      if (doorEntry == 1 || doorEntry == 2) && c != 0 && c != |row| - 1 {
        PlaceDoor(row, c, x, x', y, doorEntry == 2, coinLeft);
      }
      inc' := if inc > 0 then 0 else inc;
    }

    /** A door on the platform spanning x to x' at column c of `row`. */
    method PlaceDoor(row: seq<int>, c: nat, x: int, x': int, y: int, special: bool, coinLeft: bool)
      requires 0 < c < |row| - 1
      requires StructuresValid()
      modifies this`doors
      ensures StructuresValid() && Grew()
      ensures |doors| == |old(doors)| + 1 && doors[..|old(doors)|] == old(doors)
      ensures DoorBuilt(doors[|doors| - 1], row, c, x, x', y, special, coinLeft)
    {
      var door;
      if row[c - 1] == 0 {
        door := new Door(x + 5, y, coinLeft, 10, 60, 1, special);
      } else if row[c + 1] == 0 {
        door := new Door(x' - 5, y, coinLeft, 10, 60, -1, special);
      } else {
        door := new Door(x' - 5, y, coinLeft, 10, 60, 0, special);
      }
      doors := doors + [door];
    }

    /** `generate_enemies()`: one frame of the spawn timer. A spawned enemy appears
        at x = width // 2 - |offset| + 40, y = 100, already moving down, and joins the
        end of the enemy group. */
    method GenerateEnemies()
      requires ActorsValid() && StructuresValid()
      modifies this`meowkies, this`currentMeowkies, this`meowkiesDelayCounter
      ensures ActorsValid() && StructuresValid()
      ensures SpawnTicked()
    {
      if currentMeowkies < totalMeowkies {
        if meowkiesDelayCounter > SPAWN_DELAY {
          var m := new Actor.Meowky(width / 2 - Abs(offset) + 40, 100);
          m.MoveDown();
          meowkies := meowkies + [m];
          meowkiesDelayCounter := 0;
          currentMeowkies := currentMeowkies + 1;
        } else {
          meowkiesDelayCounter := meowkiesDelayCounter + 1;
        }
      }
    }

    /** The spawn timer took one `SpawnStep`: the spawned count and the delay counter
        are the step's, and an enemy joined the end of the group, new and at the spawn
        point, exactly when the step spawned one. */
    twostate predicate SpawnTicked()
      reads this, meowkies
    {
      var r := SpawnStep(old(currentMeowkies), totalMeowkies, old(meowkiesDelayCounter));
      currentMeowkies == r.1 && meowkiesDelayCounter == r.2 &&
      (!r.0 ==> meowkies == old(meowkies)) &&
      (r.0 ==> |meowkies| == |old(meowkies)| + 1 && meowkies[..|old(meowkies)|] == old(meowkies) &&
               fresh(meowkies[|old(meowkies)|]) && Spawned(meowkies[|old(meowkies)|]))
    }

    /** A newly spawned enemy: at the spawn point, moving down. */
    ghost predicate Spawned(m: Actor)
      reads this, m
    {
      m.isEnemy && m.rect == Rect(width / 2 - Abs(offset) + 40, 100, MEOWKY_W, MEOWKY_H) && m.state == Down
    }

    /** `reset_meowkies()`: no enemy is left and none counts as spawned. */
    method ResetMeowkies()
      requires ActorsValid()
      modifies this`meowkies, this`currentMeowkies
      ensures ActorsValid() && meowkies == [] && currentMeowkies == 0
    {
      meowkies := [];
      currentMeowkies := 0;
    }

    /** `reset_trampolines()`: every trampoline loses its bounces and is mended;
        nothing else about it changes. */
    method ResetTrampolines()
      requires StructuresValid()
      modifies trampolines`bounceCounter, trampolines`broken
      ensures StructuresValid()
      ensures forall j :: 0 <= j < |trampolines| ==> trampolines[j].bounceCounter == 0 && !trampolines[j].broken
    {
      var i := 0;
      while i < |trampolines|
        invariant 0 <= i <= |trampolines|
        invariant StructuresValid()
        invariant forall j :: 0 <= j < i ==> trampolines[j].bounceCounter == 0 && !trampolines[j].broken
      {
        trampolines[i].Reset();
        trampolines[i].broken := false;
        i := i + 1;
      }
    }

    /** `check_collision(player)`: whether some enemy catches the player. */
    method CheckCollision(player: Actor) returns (hit: bool)
      ensures hit <==> exists j :: 0 <= j < |meowkies| && Catches(meowkies[j], player)
    {
      var i := 0;
      while i < |meowkies|
        invariant 0 <= i <= |meowkies|
        invariant forall j :: 0 <= j < i ==> !Catches(meowkies[j], player)
      {
        if Catches(meowkies[i], player) {
          return true;
        }
        i := i + 1;
      }
      return false;
    }

    /** `check_fall(player)`: the player's top is below the top of the lowest row. */
    predicate CheckFall(player: Actor)
      reads this, player
    {
      player.rect.y > height
    }

    /** `update(player)`: one frame of play. The player moves first and may collect
        an item; then every enemy present at the start of the frame takes its turn
        (`draws(i)` is the random draw of the i-th); then the doors are checked
        against the player, the waves drift, the trampolines animate and the spawn
        timer runs. Returns the score of the frame. The level stays well formed,
        items are only ever removed, enemies only leave or spawn, every enemy removed
        is subtracted from the spawned count (possibly twice, see `UpdateEnemy`), and
        every new wave comes from a special door and travels the way it faced. */
    method Update(player: Actor, draws: nat -> EnemyDraw, arc: ArcFn) returns (score: int)
      requires Valid() && !player.isEnemy
      modifies this`items, this`streak, this`meowkies, this`currentMeowkies, this`meowkiesDelayCounter, this`waves
      modifies player`rect, player`state, player`direction, player`jumpStart, player`jumpEnd, player`platformChange
      modifies trampolines, items, meowkies, doors, waves
      ensures Valid()
      ensures score >= 0
      ensures forall j :: 0 <= j < |items| ==> items[j] in old(items)
      ensures forall j :: 0 <= j < |meowkies| ==> meowkies[j] in old(meowkies) || fresh(meowkies[j])
      ensures |meowkies| <= |old(meowkies)| + 1
      ensures currentMeowkies - |meowkies| <= old(currentMeowkies) - |old(meowkies)|
      ensures old(waves) <= waves && |waves| <= |old(waves)| + |doors|
      ensures forall j :: |old(waves)| <= j < |waves| ==>
        fresh(waves[j]) && SentBy(waves[j], doors)
    {
      var playerScore, remaining, after := PlayerTurn(player);
      KeepLoot(remaining, after);
      var bonus; ghost var expired, moved;
      bonus, expired, moved := UpdateEnemies(player, draws, arc);
      ghost var sources;
      sources := FinishFrame(player);
      score := playerScore + bonus;
    }

    /** The end of a frame in `update`, after the enemies' turns: doors and waves
        (the old waves drift; each special door the player opens, and only those, adds
        one wave, in door order, which `sources` names), then the trampolines'
        animation (`Animated`), then the spawn timer (`SpawnTicked`). At most one
        enemy spawns, and it is counted. */
    method FinishFrame(player: Actor) returns (ghost sources: seq<nat>)
      requires StructuresValid() && ActorsValid()
      modifies this`meowkies, this`currentMeowkies, this`meowkiesDelayCounter, this`waves
      modifies player`direction, player`state, player`jumpStart, player`jumpEnd
      modifies trampolines, doors, waves
      ensures StructuresValid() && ActorsValid()
      ensures |old(meowkies)| <= |meowkies| <= |old(meowkies)| + 1 && old(meowkies) <= meowkies
      ensures forall j :: |old(meowkies)| <= j < |meowkies| ==> fresh(meowkies[j])
      ensures currentMeowkies - |meowkies| == old(currentMeowkies) - |old(meowkies)|
      ensures WavesSent(sources)
      ensures (Views(doors), player.CurrentMotion()) == DoorsPassed(old(Views(doors)), 0, player.rect, old(player.CurrentMotion()))
      ensures Animated(trampolines)
      ensures SpawnTicked()
    {
      sources := SendWaves(player);
      ghost var motion := player.CurrentMotion();
      Tick();
      assert player.CurrentMotion() == motion;
    }

    /** The last two steps of a frame in `update`: the trampolines animate, then the
        spawn timer runs. */
    method Tick()
      requires StructuresValid() && ActorsValid()
      modifies this`meowkies, this`currentMeowkies, this`meowkiesDelayCounter
      modifies trampolines`color, trampolines`animationFrame, trampolines`animationCounter,
               trampolines`animation, trampolines`shown
      ensures StructuresValid() && ActorsValid()
      ensures |old(meowkies)| <= |meowkies| <= |old(meowkies)| + 1 && old(meowkies) <= meowkies
      ensures forall j :: |old(meowkies)| <= j < |meowkies| ==> fresh(meowkies[j])
      ensures currentMeowkies - |meowkies| == old(currentMeowkies) - |old(meowkies)|
      ensures Animated(trampolines)
      ensures SpawnTicked()
      ensures unchanged(this`waves, this`doors, waves, doors)
    {
      UpdateTrampolines(trampolines);
      GenerateEnemies();
    }

    /** The player's turn in `update`: `update_on_level` over the level's groups
        (`PlayerRules.UpdateOnLevel` states how it goes). The level stays well
        formed; the items left are drawn from the level's, none twice, at most one
        gone, and neither the score nor the pair count goes down. Returns the score,
        the items left and the new streak, which `update` stores. */
    method PlayerTurn(player: Actor) returns (score: int, remaining: seq<Item>, after: Streak)
      requires StructuresValid() && ActorsValid()
      modifies player`rect, player`state, player`direction, player`jumpStart, player`jumpEnd, player`platformChange
      modifies trampolines`bounceCounter, trampolines`broken, trampolines`animationCounter,
               trampolines`animationFrame, trampolines`animation
      modifies items`animationTime, items`visible
      ensures StructuresValid()
      ensures Distinct(remaining) && |remaining| >= |items| - 1
      ensures forall j :: 0 <= j < |remaining| ==> remaining[j] in items
      ensures score >= 0 && after.pairs >= streak.pairs
    {
      score, remaining, after := PlayerRules.Turn(player, platforms, trampolines, items, walls, streak);
    }

    /** The level keeps the items the player left and the new streak. */
    method KeepLoot(remaining: seq<Item>, after: Streak)
      requires StructuresValid() && ActorsValid()
      requires Distinct(remaining) && forall j :: 0 <= j < |remaining| ==> remaining[j] in items
      requires after.pairs >= streak.pairs
      modifies this`items, this`streak
      ensures StructuresValid() && ActorsValid()
      ensures items == remaining && streak == after
    {
      items, streak := remaining, after;
    }

    /** The enemies' turns in `update`, over the group as it was when the turns
        began. Returns the stun score earned: 50 for each enemy of `expired`, the
        enemies, each from the group and none twice, that were stunned once they had
        moved (`moved[i]` is the i-th one's motion then) with their stun already
        counted out, and which left the level. */
    method UpdateEnemies(player: Actor, draws: nat -> EnemyDraw, arc: ArcFn)
      returns (bonus: int, ghost expired: seq<Actor>, ghost moved: seq<Motion>)
      requires StructuresValid() && ActorsValid() && !player.isEnemy
      modifies meowkies, trampolines, doors, this`meowkies, this`currentMeowkies
      ensures StructuresValid() && ActorsValid()
      ensures 0 <= bonus <= STUN_SCORE * |old(meowkies)| && bonus % STUN_SCORE == 0
      ensures bonus == STUN_SCORE * |expired|
      ensures Distinct(expired) && forall k :: 0 <= k < |expired| ==> expired[k] in old(meowkies) && expired[k] !in meowkies
      ensures |moved| == |old(meowkies)|
      ensures forall i :: 0 <= i < |old(meowkies)| ==>
        (old(meowkies)[i] in expired <==> moved[i].state == Stun && old(meowkies[i].stunCounter) >= STUN_TIME)
      ensures forall j :: 0 <= j < |meowkies| ==> meowkies[j] in old(meowkies)
      ensures |meowkies| <= |old(meowkies)|
      ensures currentMeowkies - |meowkies| <= old(currentMeowkies) - |old(meowkies)|
    {
      var ms := meowkies;
      bonus, expired, moved := 0, [], [];
      var i := 0;
      while i < |ms|
        invariant 0 <= i <= |ms| && |moved| == i
        invariant StructuresValid() && ActorsValid()
        invariant bonus == STUN_SCORE * |expired| && |expired| <= i
        invariant Distinct(expired)
        invariant forall k :: 0 <= k < |expired| ==> expired[k] in ms[..i] && expired[k] !in meowkies
        invariant forall k :: 0 <= k < i ==>
          (ms[k] in expired <==> moved[k].state == Stun && old(ms[k].stunCounter) >= STUN_TIME)
        invariant forall k :: i <= k < |ms| ==> ms[k].stunCounter == old(ms[k].stunCounter)
        invariant forall j :: 0 <= j < |ms| ==> ms[j].isEnemy
        invariant forall j :: 0 <= j < |meowkies| ==> meowkies[j] in ms
        invariant |meowkies| <= |ms|
        invariant currentMeowkies - |meowkies| <= old(currentMeowkies) - |ms|
      {
        var b; ghost var mv;
        b, mv := UpdateEnemy(ms[i], player, draws(i), arc);
        moved := moved + [mv];
        if b == STUN_SCORE {
          assert ms[i] !in expired by {
            forall k | 0 <= k < |expired| ensures expired[k] != ms[i] {
              assert expired[k] in ms[..i];
            }
          }
          expired := expired + [ms[i]];
        }
        bonus := bonus + b;
        assert ms[..i + 1] == ms[..i] + [ms[i]];
        i := i + 1;
      }
      assert ms[..i] == ms;
    }

    /** One enemy's turn in `update`: it moves, the doors act on it, a stunned enemy
        counts its stun for two seconds of frames and then leaves the level for 50
        points, the waves act on it, and it leaves the level when it falls below the
        top of the lowest row. An enemy whose stun runs out on the frame it is below
        that line is subtracted from the spawned count twice. */
    method UpdateEnemy(m: Actor, player: Actor, draw: EnemyDraw, arc: ArcFn) returns (bonus: int, ghost moved: Motion)
      requires StructuresValid() && ActorsValid() && m.isEnemy && !player.isEnemy
      modifies m, trampolines, doors, this`meowkies, this`currentMeowkies
      ensures StructuresValid() && ActorsValid()
      ensures bonus == 0 || bonus == STUN_SCORE
      ensures bonus == STUN_SCORE <==> moved.state == Stun && old(m.stunCounter) >= STUN_TIME
      ensures forall j :: 0 <= j < |meowkies| ==> meowkies[j] in old(meowkies)
      ensures |meowkies| <= |old(meowkies)|
      ensures currentMeowkies - |meowkies| <= old(currentMeowkies) - |old(meowkies)|
      ensures bonus == STUN_SCORE ==> m !in meowkies
      ensures m.rect.y > height ==> m !in meowkies
    {
      MoveEnemy(m, player, draw, arc);
      moved := m.CurrentMotion();
      bonus := StunStep(m);
      WavesOn(waves, m);
      if m.rect.y > height {
        RemoveEnemy(m);
      }
    }

    /** The movement part of one enemy's turn: the enemy moves under the level's
        rules, then the doors act on it. */
    method MoveEnemy(m: Actor, player: Actor, draw: EnemyDraw, arc: ArcFn)
      requires StructuresValid()
      modifies m`rect, m`state, m`direction, m`jumpStart, m`jumpEnd, m`platformChange,
               m`jumpFrame, m`animationCounter, m`animationFrame
      modifies trampolines, doors
      ensures StructuresValid()
    {
      EnemyRules.UpdateOnLevel(m, platforms, trampolines, walls, player.rect, draw, arc);
      DoorsOnEnemy(doors, m);
    }

    /** The stun count of one enemy's turn: a stunned enemy counts its stun for two
        seconds of frames, and then leaves the level for 50 points. */
    method StunStep(m: Actor) returns (bonus: int)
      requires ActorsValid() && m.isEnemy
      modifies m`stunCounter, m`state, m`deathAnimationCounter, m`deathAnimationFrame
      modifies this`meowkies, this`currentMeowkies
      ensures ActorsValid() && m.state == old(m.state)
      ensures old(m.state) != Stun ==>
        bonus == 0 && m.stunCounter == old(m.stunCounter) && meowkies == old(meowkies) &&
        currentMeowkies == old(currentMeowkies)
      ensures old(m.state) == Stun && old(m.stunCounter) < STUN_TIME ==>
        bonus == 0 && m.stunCounter == old(m.stunCounter) + 1 && meowkies == old(meowkies) &&
        currentMeowkies == old(currentMeowkies)
      ensures old(m.state) == Stun && old(m.stunCounter) >= STUN_TIME ==>
        bonus == STUN_SCORE && m.stunCounter == old(m.stunCounter) &&
        meowkies == Without(old(meowkies), m) && currentMeowkies == old(currentMeowkies) - 1
      ensures forall j :: 0 <= j < |meowkies| ==> meowkies[j] in old(meowkies)
      ensures |meowkies| <= |old(meowkies)|
      ensures currentMeowkies - |meowkies| <= old(currentMeowkies) - |old(meowkies)|
    {
      bonus := 0;
      if m.state == Stun {
        if m.stunCounter < STUN_TIME {
          m.stunCounter := m.stunCounter + 1;
          m.AnimateDeath();
        } else {
          bonus := STUN_SCORE;
          RemoveEnemy(m);
        }
      }
    }

    /** `self.meowkies.remove(m)` with `self.current_meowkies -= 1`. */
    method RemoveEnemy(m: Actor)
      requires ActorsValid()
      modifies this`meowkies, this`currentMeowkies
      ensures ActorsValid()
      ensures meowkies == Without(old(meowkies), m) && currentMeowkies == old(currentMeowkies) - 1
      ensures m in old(meowkies) ==> |meowkies| == |old(meowkies)| - 1
      ensures currentMeowkies - |meowkies| <= old(currentMeowkies) - |old(meowkies)|
    {
      WithoutDistinct(meowkies, m);
      if m in meowkies {
        WithoutMember(meowkies, m);
      }
      meowkies := Without(meowkies, m);
      currentMeowkies := currentMeowkies - 1;
    }

    /** The waves after the doors' and waves' turn: the old waves stayed, in order, and
        drifted once; the special doors the player opened, and only those, each added
        one fresh wave, in door order, `sources` naming each new wave's door. */
    twostate predicate WavesSent(sources: seq<nat>)
      reads this`waves, this`doors, waves, doors
    {
      doors == old(doors) && WavesSentOn(waves, old(waves), doors, sources)
    }

    /** The doors and waves of `update`: the doors are checked against the player,
        then every wave drifts, the new ones included (`SendWavesOn`). */
    method SendWaves(player: Actor) returns (ghost sources: seq<nat>)
      requires StructuresValid() && ActorsValid()
      modifies doors, player`direction, player`state, player`jumpStart, player`jumpEnd, this`waves, waves
      ensures StructuresValid() && ActorsValid()
      ensures WavesSent(sources)
      ensures (Views(doors), player.CurrentMotion()) == DoorsPassed(old(Views(doors)), 0, player.rect, old(player.CurrentMotion()))
    {
      var ws;
      ws, sources := SendWavesOn(doors, player, waves);
      waves := ws;
    }

    /** `scroll(dx)`: the offset, every structure and enemy, and the roof move `dx`
        sideways; nothing else changes. */
    method Scroll(dx: int)
      requires Valid()
      modifies this`offset, this`platforms, this`walls, this`roofRect
      modifies trampolines`rect, items`rect, meowkies`rect, doors`rect, waves`rect
      ensures Valid()
      ensures offset == old(offset) + dx && roofRect == old(roofRect).ShiftX(dx)
      ensures platforms == ShiftPlatforms(old(platforms), dx) && walls == ShiftWalls(old(walls), dx)
      ensures StructuresShifted(dx) && ActorsShifted(dx)
    {
      ScrollActors(dx);
      ScrollStructures(dx);
    }

    /** The scenery moved `dx` sideways with the camera: the offset, the platforms, the
        walls, the roof, the trampolines, items and doors, and the waves. */
    twostate predicate SceneryShifted(dx: int)
      reads this`offset, this`platforms, this`walls, this`roofRect, this`trampolines, this`items, this`doors, this`waves
      reads trampolines`rect, items`rect, doors`rect, waves`rect
    {
      offset == old(offset) + dx && platforms == ShiftPlatforms(old(platforms), dx) &&
      walls == ShiftWalls(old(walls), dx) && roofRect == old(roofRect).ShiftX(dx) &&
      StructuresShifted(dx) && waves == old(waves) &&
      forall j :: 0 <= j < |waves| ==> waves[j].rect == old(waves[j].rect).ShiftX(dx)
    }

    /** The trampolines, items and doors are the same objects, each moved `dx` sideways. */
    twostate predicate StructuresShifted(dx: int)
      reads this`trampolines, this`items, this`doors, trampolines`rect, items`rect, doors`rect
    {
      trampolines == old(trampolines) && items == old(items) && doors == old(doors) &&
      (forall j :: 0 <= j < |trampolines| ==> trampolines[j].rect == old(trampolines[j].rect).ShiftX(dx)) &&
      (forall j :: 0 <= j < |items| ==> items[j].rect == old(items[j].rect).ShiftX(dx)) &&
      (forall j :: 0 <= j < |doors| ==> doors[j].rect == old(doors[j].rect).ShiftX(dx))
    }

    /** The enemies and waves are the same objects, each moved `dx` sideways. */
    twostate predicate ActorsShifted(dx: int)
      reads this`meowkies, this`waves, meowkies`rect, waves`rect
    {
      meowkies == old(meowkies) && waves == old(waves) &&
      (forall j :: 0 <= j < |meowkies| ==> meowkies[j].rect == old(meowkies[j].rect).ShiftX(dx)) &&
      (forall j :: 0 <= j < |waves| ==> waves[j].rect == old(waves[j].rect).ShiftX(dx))
    }

    /** The enemies' and waves' part of `scroll`. */
    method ScrollActors(dx: int)
      requires ActorsValid()
      modifies meowkies`rect, waves`rect
      ensures ActorsValid() && ActorsShifted(dx)
      ensures unchanged(trampolines) && unchanged(items) && unchanged(doors)
    {
      ShiftActors(meowkies, dx);
      ShiftWaves(waves, dx);
    }

    /** The offset's, the platforms', the walls' and the roof's part of `scroll`. */
    method ShiftScenery(dx: int)
      modifies this`offset, this`platforms, this`walls, this`roofRect
      ensures offset == old(offset) + dx && roofRect == old(roofRect).ShiftX(dx)
      ensures platforms == ShiftPlatforms(old(platforms), dx) && walls == ShiftWalls(old(walls), dx)
    {
      offset := offset + dx;
      roofRect := roofRect.ShiftX(dx);
      platforms := ShiftPlatforms(platforms, dx);
      walls := ShiftWalls(walls, dx);
    }

    /** The structures' part of `scroll`: the scenery, then the trampolines, items
        and doors. */
    method ScrollStructures(dx: int)
      requires StructuresValid()
      modifies this`offset, this`platforms, this`walls, this`roofRect, trampolines`rect, items`rect, doors`rect
      ensures StructuresValid() && StructuresShifted(dx)
      ensures offset == old(offset) + dx && roofRect == old(roofRect).ShiftX(dx)
      ensures platforms == ShiftPlatforms(old(platforms), dx) && walls == ShiftWalls(old(walls), dx)
    {
      ShiftScenery(dx);
      ShiftTrampolines(trampolines, dx);
      ShiftItems(items, dx);
      ShiftDoors(doors, dx);
    }
  }
}

=== FILE: mappy.dfy ===
/** The player's per-frame interaction with a level (entities/mappy.py,
    `update_on_level`): trampolines, alignment over a trampoline, platform edge
    jumps, landing on a platform, picking up loot with the streak bonus, blinking the
    targeted loot, and walls, in that order. The level's collections and its streak
    bookkeeping are passed in; the items left and the new streak are handed back. */
module PlayerRules {
  import opened Basics
  import opened Geometry
  import opened Settings
  import opened Platforms
  import opened Entities
  import opened Walls
  import opened Trampolines
  import opened Items

  /** The level's pickup bookkeeping: the type being collected (-1 before the first
      pickup), whether the last pickup matched it, and the number of matches so far. */
  datatype Streak = Streak(targeted: int, streak: bool, pairs: int)

  /** A fresh level targets nothing, starts on a streak and has no pairs. */
  const NEW_STREAK: Streak := Streak(-1, true, 0)

  /** Collecting an item of `itemType` worth `value`: a match of the targeted type
      extends the streak and multiplies the value by the number of pairs plus one;
      any other type becomes the new target and scores its plain value. The pair
      count never goes down. */
  function Collect(t: Streak, itemType: int, value: int): (r: (Streak, int))
    ensures r.0.targeted == itemType && r.0.pairs >= t.pairs
    ensures r.0.streak <==> itemType == t.targeted
    ensures r.0.streak ==> r.0.pairs == t.pairs + 1 && r.1 == value * (r.0.pairs + 1)
    ensures !r.0.streak ==> r.0.pairs == t.pairs && r.1 == value
    ensures t.pairs >= 0 && value >= 0 ==> r.1 >= value
  {
    var t' := if t.targeted == itemType then Streak(t.targeted, true, t.pairs + 1)
              else Streak(itemType, false, t.pairs);
    (t', if t'.streak then value * (t'.pairs + 1) else value)
  }

  /** Picking up two items of one type in a row: the second pickup scores its value
      times (pairs + 2), whatever the streak was before. */
  lemma PairBonus(t: Streak, itemType: int, v1: int, v2: int)
    ensures var r1 := Collect(t, itemType, v1);
      var r2 := Collect(r1.0, itemType, v2);
      r2.0.streak && r2.0.pairs == r1.0.pairs + 1 && r2.1 == v2 * (r1.0.pairs + 2)
  {
  }

  /** States in which the player can pick up loot: walking, or stunned by a wave. */
  predicate Collecting(s: State) {
    s != Jump && s != Up && s != Down && s != Idle
  }

  /** A platform whose bottom is more than `lo` and at most `hi` pixels below `bottom`. */
  predicate Close(p: Platform, bottom: int, lo: int, hi: int) {
    lo < p.rect.Bottom() - bottom <= hi
  }

  /** The index of the first platform close below `bottom`, or -1. */
  function FirstClose(platforms: seq<Platform>, bottom: int, lo: int, hi: int): (k: int)
    ensures -1 <= k < |platforms|
    ensures k >= 0 ==> Close(platforms[k], bottom, lo, hi)
    ensures forall j :: 0 <= j < |platforms| && (k == -1 || j < k) ==> !Close(platforms[j], bottom, lo, hi)
  {
    if platforms == [] then -1
    else if Close(platforms[0], bottom, lo, hi) then 0
    else
      var k := FirstClose(platforms[1..], bottom, lo, hi);
      assert forall j :: 1 <= j < |platforms| ==> platforms[j] == platforms[1..][j - 1];
      if k == -1 then -1 else k + 1
  }

  /** The index of the first item whose rectangle contains `c`, or -1. */
  function FirstHit(items: seq<Item>, c: Point): (k: int)
    reads items`rect
    ensures -1 <= k < |items|
    ensures k >= 0 ==> ContainsPoint(items[k].rect, c)
    ensures forall j :: 0 <= j < |items| && (k == -1 || j < k) ==> !ContainsPoint(items[j].rect, c)
  {
    if items == [] then -1
    else if ContainsPoint(items[0].rect, c) then 0
    else
      var k := FirstHit(items[1..], c);
      assert forall j :: 1 <= j < |items| ==> items[j] == items[1..][j - 1];
      if k == -1 then -1 else k + 1
  }

  /** The index of the first unbroken trampoline touching `a`, or -1: the one a
      falling player bounces on. */
  function FirstSpring(ts: seq<Trampoline>, a: Rect): (k: int)
    reads ts
    ensures -1 <= k < |ts|
    ensures k >= 0 ==> !ts[k].broken && Overlaps(a, ts[k].rect)
    ensures forall j :: 0 <= j < |ts| && (k == -1 || j < k) ==> ts[j].broken || !Overlaps(a, ts[j].rect)
  {
    if ts == [] then -1
    else if !ts[0].broken && Overlaps(a, ts[0].rect) then 0
    else
      var k := FirstSpring(ts[1..], a);
      assert forall j :: 1 <= j < |ts| ==> ts[j] == ts[1..][j - 1];
      if k == -1 then -1 else k + 1
  }

  /** Trampoline `t` after the player's loop has reached it, from bounce count
      `counter` and broken flag `broken`: a `bounce` counts one more bounce and
      breaks it on the third; it keeps its count only while it lies `under` the
      player, and is reset to none otherwise. */
  predicate Bounced(t: Trampoline, a: Rect, counter: int, broken: bool, bounce: bool)
    reads t
  {
    t.bounceCounter == (if UnderActor(t.rect, a) then counter + (if bounce then 1 else 0) else 0) &&
    t.broken == (broken || (bounce && counter + 1 >= 3))
  }

  /** Trampoline `t` during the player's loop: well formed, and once `visited` as
      the loop leaves it, otherwise untouched. */
  ghost predicate Visited(t: Trampoline, a: Rect, visited: bool, counter: int, broken: bool, bounce: bool)
    reads t
  {
    t.Valid() &&
    if visited then Bounced(t, a, counter, broken, bounce)
    else t.bounceCounter == counter && t.broken == broken
  }

  /** One trampoline of the loop: it may bounce the player (and then springs), and it
      is reset unless it lies under the player. */
  method TrampolineFrame(p: Actor, t: Trampoline) returns (score: int, under: bool)
    requires t.Valid()
    modifies t`bounceCounter, t`broken, t`animationCounter, t`animationFrame, t`animation, p`state
    ensures t.Valid() && under == UnderActor(t.rect, p.rect)
    ensures var bounce := !old(t.broken) && Overlaps(p.rect, t.rect) && old(p.state) == Down;
      Bounced(t, p.rect, old(t.bounceCounter), old(t.broken), bounce) &&
      (bounce ==> score == TRAMPOLINE_SCORE && p.state == Up && t.animation) &&
      (!bounce ==> score == 0 && p.state == old(p.state))
  {
    under := UnderActor(t.rect, p.rect);
    score := t.CheckCollision(p);
    if score != 0 {
      t.StartAnimation();
    }
    if !under {
      t.Reset();
    }
  }

  /** The trampoline loop once it has visited the first `i` trampolines: the player,
      at `r`, entered it in state `s0`, and `counters` and `broken` are the group's
      bounce counts and broken flags from before the loop; `b` is the trampoline the
      player bounces on (-1 for none) and `mj` the last one found under it so far,
      whose rectangle is `matched`. */
  ghost predicate LoopState(p: Actor, ts: seq<Trampoline>, r: Rect, s0: State, counters: seq<int>, broken: seq<bool>,
                            b: int, i: int, score: int, matched: Option<Rect>, mj: int)
    reads p, ts
  {
    |counters| == |ts| && |broken| == |ts| && 0 <= i <= |ts| && -1 <= b < |ts| && -1 <= mj < i &&
    (forall j :: 0 <= j < |ts| ==> Visited(ts[j], r, j < i, counters[j], broken[j], j == b)) &&
    (b >= 0 ==> s0 == Down && !broken[b] && Overlaps(r, ts[b].rect)) &&
    (s0 == Down ==> forall j :: 0 <= j < |ts| && (b == -1 || j < b) ==> broken[j] || !Overlaps(r, ts[j].rect)) &&
    (mj == -1 ==> matched.None? && forall j :: 0 <= j < i ==> !UnderActor(ts[j].rect, r)) &&
    (mj >= 0 ==> matched == Some(ts[mj].rect) && UnderActor(ts[mj].rect, r)) &&
    (mj >= 0 ==> forall l :: mj < l < i ==> !UnderActor(ts[l].rect, r)) &&
    score == (if 0 <= b < i then TRAMPOLINE_SCORE else 0) &&
    p.state == (if 0 <= b < i then Up else s0)
  }

  /** One pass of the trampoline loop: trampoline `i` is bounced on or not and reset
      or not, and becomes the matched one when it lies under the player. */
  method VisitTrampoline(p: Actor, ts: seq<Trampoline>, t: Trampoline, i: int, score: int, matched: Option<Rect>,
                         ghost r: Rect, ghost s0: State, ghost counters: seq<int>, ghost broken: seq<bool>,
                         ghost b: int, ghost mj: int)
    returns (score': int, matched': Option<Rect>, ghost mj': int)
    requires Distinct(ts) && p.rect == r && 0 <= i < |ts| && t == ts[i]
    requires LoopState(p, ts, r, s0, counters, broken, b, i, score, matched, mj)
    modifies t`bounceCounter, t`broken, t`animationCounter, t`animationFrame, t`animation, p`state
    ensures LoopState(p, ts, r, s0, counters, broken, b, i + 1, score', matched', mj')
  {
    var s, under := TrampolineFrame(p, t);
    matched', mj' := matched, mj;
    if under {
      matched', mj' := Some(t.rect), i;
    }
    score' := score + s;
  }

  /** The trampoline loop. Returns the bounce score and the rectangle of the last
      trampoline under the player. A falling player bounces on the first unbroken
      trampoline it touches and on no other, since the bounce turns it upwards; that
      one counts the bounce, and every trampoline not under the player is reset. */
  method TrampolineStep(p: Actor, ts: seq<Trampoline>) returns (score: int, matched: Option<Rect>)
    requires Distinct(ts)
    requires forall j :: 0 <= j < |ts| ==> ts[j].Valid()
    modifies ts`bounceCounter, ts`broken, ts`animationCounter, ts`animationFrame, ts`animation, p`state
    ensures forall j :: 0 <= j < |ts| ==> ts[j].Valid()
    ensures var b := if old(p.state) == Down then old(FirstSpring(ts, p.rect)) else -1;
      score == (if b >= 0 then TRAMPOLINE_SCORE else 0) &&
      p.state == (if b >= 0 then Up else old(p.state)) &&
      forall j :: 0 <= j < |ts| ==> Bounced(ts[j], p.rect, old(ts[j].bounceCounter), old(ts[j].broken), j == b)
    ensures matched.None? <==> forall j :: 0 <= j < |ts| ==> !UnderActor(ts[j].rect, p.rect)
    ensures matched.Some? ==> exists j :: 0 <= j < |ts| && LastUnder(ts, j, p.rect) && ts[j].rect == matched.value
    ensures Sprang(ts, p.rect, old(p.state), if old(p.state) == Down then old(FirstSpring(ts, p.rect)) else -1, matched,
                   old(Springs(ts)), old(FirstSpring(ts, p.rect)))
  {
    score := 0;
    ghost var r := p.rect;
    ghost var s0 := p.state;
    ghost var b := if s0 == Down then FirstSpring(ts, r) else -1;
    ghost var counters := seq(|ts|, j requires 0 <= j < |ts| reads ts => ts[j].bounceCounter);
    ghost var broken := seq(|ts|, j requires 0 <= j < |ts| reads ts => ts[j].broken);
    matched := None;
    ghost var mj := -1;
    var i := 0;
    while i < |ts|
      invariant LoopState(p, ts, r, s0, counters, broken, b, i, score, matched, mj)
      invariant forall j :: 0 <= j < |ts| ==> counters[j] == old(ts[j].bounceCounter) && broken[j] == old(ts[j].broken)
    {
      score, matched, mj := VisitTrampoline(p, ts, ts[i], i, score, matched, r, s0, counters, broken, b, mj);
      i := i + 1;
    }
    if mj >= 0 {
      assert LastUnder(ts, mj, r);
    }
  }

  /** `ts[j]` is the last trampoline of the group lying under `a`. */
  ghost predicate LastUnder(ts: seq<Trampoline>, j: int, a: Rect)
    requires 0 <= j < |ts|
    reads ts
  {
    UnderActor(ts[j].rect, a) && forall l :: j < l < |ts| ==> !UnderActor(ts[l].rect, a)
  }

  /** An actor at `a` in state `s` with no platform underfoot (`collide` empty),
      neither rising nor jumping, whose centre is within 15 pixels of the centre of
      the trampoline `matched` under it. */
  predicate Aligns(matched: Option<Rect>, s: State, collide: seq<Platform>, a: Rect) {
    matched.Some? && s != Up && s != Jump && |collide| == 0 &&
    matched.value.CenterX() - 15 <= a.CenterX() <= matched.value.CenterX() + 15
  }

  /** Standing next to the trampoline under it, with no platform underfoot, an actor
      that is not rising or jumping is stopped and sent falling onto it. */
  method AlignOverTrampoline(a: Actor, matched: Option<Rect>, collide: seq<Platform>)
    modifies a`state
    ensures a.state == (if Aligns(matched, old(a.state), collide, a.rect) then Down else old(a.state))
  {
    if matched.Some? && a.state != Up && a.state != Jump {
      var tr := matched.value.CenterX();
      var pl := a.rect.CenterX();
      if |collide| == 0 {
        if pl >= tr - 15 && pl <= tr + 15 {
          a.Stop();
          a.MoveDown();
        }
      }
    }
  }

  /** Platform `pl` offers an actor at `a`, walking in state `s`, an edge to step off:
      it overlaps the actor and starts right of the actor's left side (unless the
      actor walks right) or ends left of its right side (unless it walks left). */
  predicate AtEdge(pl: Platform, a: Rect, s: State) {
    Overlaps(a, pl.rect) &&
    ((pl.rect.Left() > a.Left() && s != Right) || (pl.rect.Right() < a.Right() && s != Left))
  }

  /** The index of the first platform offering an edge, or -1. */
  function FirstEdge(platforms: seq<Platform>, a: Rect, s: State): (k: int)
    ensures -1 <= k < |platforms|
    ensures k >= 0 ==> AtEdge(platforms[k], a, s)
    ensures forall j :: 0 <= j < |platforms| && (k == -1 || j < k) ==> !AtEdge(platforms[j], a, s)
  {
    if platforms == [] then -1
    else if AtEdge(platforms[0], a, s) then 0
    else
      var k := FirstEdge(platforms[1..], a, s);
      assert forall j :: 1 <= j < |platforms| ==> platforms[j] == platforms[1..][j - 1];
      if k == -1 then -1 else k + 1
  }

  /** The actor steps off platform `pl`: a jump from its centre `dx` pixels sideways
      onto the platform's top, landing falling. */
  predicate EdgeJump(a: Actor, pl: Platform, dx: int)
    reads a
  {
    a.JumpingTo(Point(a.rect.CenterX() + dx, pl.rect.Top() + 1), Down)
  }

  /** Where the player's edge jump off `pl` goes: the right-edge test runs after the
      left-edge one and overrides it, so 50 pixels right whenever the platform ends
      left of the player's right side, and 50 pixels left otherwise. */
  function PlayerEdgeDx(pl: Platform, a: Rect): (dx: int)
    ensures dx == 50 || dx == -50
    ensures dx == -50 ==> pl.rect.Right() >= a.Right()
  {
    if pl.rect.Right() < a.Right() then 50 else -50
  }

  /** The edge test of the player's platform loop for one platform: with a single
      platform underfoot and a trampoline under it, a walking player steps off
      `platform` when it offers an edge; the second test sees the state the first
      one left, so it may redirect a jump the first one started. */
  method StepOffEdge(p: Actor, platform: Platform, single: bool, matched: bool)
    modifies p`direction, p`state, p`jumpStart, p`jumpEnd
    ensures if single && matched && (old(p.state) == Left || old(p.state) == Right) && AtEdge(platform, p.rect, old(p.state))
      then EdgeJump(p, platform, PlayerEdgeDx(platform, p.rect))
      else p.SameMotion()
  {
    if single && Overlaps(p.rect, platform.rect) {
      if matched && (p.state == Right || p.state == Left) {
        if platform.rect.Left() > p.rect.Left() && p.state != Right {
          p.JumpTo(p.rect.CenterX() - 50, platform.rect.Top() + 1, Down);
        }
        if platform.rect.Right() < p.rect.Right() && p.state != Left {
          p.JumpTo(p.rect.CenterX() + 50, platform.rect.Top() + 1, Down);
        }
      }
    }
  }

  /** One platform of the player's loop, after the edge check: rising, it remembers
      the platform if that lies 1 to 25 pixels below it and reports it; otherwise it
      forgets any remembered platform. */
  method NoteRising(p: Actor, platform: Platform) returns (found: bool)
    modifies p`platformChange
    ensures found == (p.state == Up && Close(platform, p.rect.Bottom(), 0, 25))
    ensures p.platformChange == if found then Some(platform)
      else if p.state == Up then old(p.platformChange) else None
  {
    found := false;
    if p.state == Up {
      if 0 < platform.rect.Bottom() - p.rect.Bottom() <= 25 {
        p.platformChange := Some(platform);
        found := true;
      }
    } else {
      p.platformChange := None;
    }
  }

  /** With exactly one platform underfoot and a trampoline under it, a player at `a`
      walking in state `s` finds a platform offering an edge to step off. */
  predicate StepsOff(platforms: seq<Platform>, collide: seq<Platform>, matched: bool, a: Rect, s: State) {
    |collide| == 1 && matched && (s == Left || s == Right) && FirstEdge(platforms, a, s) >= 0
  }

  /** The player's platform loop. While rising it remembers the first platform whose
      bottom is 1 to 25 pixels below its own; otherwise it forgets any remembered
      platform. Walking while a trampoline is under it and exactly one platform
      underfoot, it jumps 50 pixels down off the first platform offering an edge,
      and does nothing else to its motion. */
  method PlatformStep(p: Actor, platforms: seq<Platform>, collide: seq<Platform>, matched: bool)
    modifies p`direction, p`state, p`jumpStart, p`jumpEnd, p`platformChange
    ensures old(p.state) == Up ==> p.SameMotion()
    ensures old(p.state) == Up ==>
      var k := FirstClose(platforms, p.rect.Bottom(), 0, 25);
      p.platformChange == (if k >= 0 then Some(platforms[k]) else old(p.platformChange))
    ensures old(p.state) != Up && |platforms| > 0 ==> p.platformChange == None
    ensures old(p.state) != Up && |platforms| == 0 ==> p.platformChange == old(p.platformChange)
    ensures var k := FirstEdge(platforms, p.rect, old(p.state));
      if StepsOff(platforms, collide, matched, p.rect, old(p.state))
      then EdgeJump(p, platforms[k], PlayerEdgeDx(platforms[k], p.rect))
      else p.SameMotion()
  {
    ghost var s0 := p.state;
    ghost var k := FirstEdge(platforms, p.rect, s0);
    ghost var trig := |collide| == 1 && matched && (s0 == Left || s0 == Right);
    var i := 0;
    while i < |platforms|
      invariant 0 <= i <= |platforms|
      invariant s0 == Up ==> p.SameMotion() && p.platformChange == old(p.platformChange)
      invariant s0 == Up ==> forall j :: 0 <= j < i ==> !Close(platforms[j], p.rect.Bottom(), 0, 25)
      invariant s0 != Up ==> p.state != Up
      invariant s0 != Up && i > 0 ==> p.platformChange == None
      invariant s0 != Up && i == 0 ==> p.platformChange == old(p.platformChange)
      invariant trig && 0 <= k < i ==> EdgeJump(p, platforms[k], PlayerEdgeDx(platforms[k], p.rect))
      invariant !(trig && 0 <= k < i) ==> p.SameMotion()
    {
      var platform := platforms[i];
      StepOffEdge(p, platform, |collide| == 1, matched);
      var found := NoteRising(p, platform);
      if found {
        break;
      }
      i := i + 1;
    }
  }

  /** Where an actor at `a` in state `s` ends after landing, with `collide` the
      platforms underfoot: with exactly one, a rising actor stops idle with its top
      just under the platform and a falling one stops idle standing on it, 1 pixel
      in; any other actor keeps its place and state. Only the height changes. */
  function Landing(collide: seq<Platform>, a: Rect, s: State): (r: (Rect, State))
    ensures r.0.x == a.x && r.0.w == a.w && r.0.h == a.h
    ensures r.1 == s || r.1 == Idle
    ensures r != (a, s) ==> |collide| == 1 && (s == Up || s == Down)
    ensures |collide| == 1 && (s == Up || s == Down) ==> r.1 == Idle
  {
    if |collide| == 1 && s == Up then
      (a.WithMidTop(Point(a.CenterX(), collide[0].rect.Bottom() + 1)), Idle)
    else if |collide| == 1 && s == Down then
      (a.WithMidBottom(Point(a.CenterX(), collide[0].rect.Top() + 1)), Idle)
    else
      (a, s)
  }

  /** Landing: with exactly one platform underfoot, a rising actor stops with its top
      just under the platform and a falling one stops standing on it, 1 pixel in. */
  method SnapToPlatform(a: Actor, collide: seq<Platform>)
    modifies a`state, a`rect
    ensures (a.rect, a.state) == Landing(collide, old(a.rect), old(a.state))
    ensures |collide| == 1 && old(a.state) == Up ==>
      a.state == Idle && a.rect == old(a.rect).WithMidTop(Point(old(a.rect).CenterX(), collide[0].rect.Bottom() + 1))
    ensures |collide| == 1 && old(a.state) == Down ==>
      a.state == Idle && a.rect == old(a.rect).WithMidBottom(Point(old(a.rect).CenterX(), collide[0].rect.Top() + 1))
    ensures !(|collide| == 1 && (old(a.state) == Up || old(a.state) == Down)) ==>
      a.state == old(a.state) && a.rect == old(a.rect)
    ensures a.rect.x == old(a.rect).x && a.rect.w == old(a.rect).w && a.rect.h == old(a.rect).h
  {
    if |collide| == 1 && a.state == Up {
      a.Stop();
      a.rect := a.rect.WithMidTop(Point(a.rect.CenterX(), collide[0].rect.Bottom() + 1));
    }
    if |collide| == 1 && a.state == Down {
      a.Stop();
      a.rect := a.rect.WithMidBottom(Point(a.rect.CenterX(), collide[0].rect.Top() + 1));
    }
  }

  /** The pickup loop: while the player can collect, the first item containing its
      centre is removed from the group and scored through the streak rule; at most
      one item is taken per frame. */
  method ItemStep(p: Actor, items: seq<Item>, streak: Streak) returns (score: int, remaining: seq<Item>, after: Streak)
    requires forall j :: 0 <= j < |items| ==> items[j].Valid()
    ensures var k := if Collecting(p.state) then FirstHit(items, p.rect.Center()) else -1;
      if k >= 0 then
        remaining == Without(items, items[k]) &&
        (after, score) == Collect(streak, items[k].itemType, items[k].itemType * BASE_ITEM_SCORE)
      else
        remaining == items && after == streak && score == 0
  {
    score, remaining, after := 0, items, streak;
    var i := 0;
    while i < |items|
      invariant 0 <= i <= |items|
      invariant Collecting(p.state) ==> forall j :: 0 <= j < i ==> !ContainsPoint(items[j].rect, p.rect.Center())
    {
      var item := items[i];
      if Collecting(p.state) {
        var itemScore := item.CheckCollision(p);
        if itemScore != 0 {
          assert FirstHit(items, p.rect.Center()) == i;
          remaining := Without(items, item);
          var r := Collect(streak, item.itemType, itemScore);
          after, score := r.0, r.1;
          return;
        }
      }
      i := i + 1;
    }
  }

  /** Items of the targeted type take one blinking step; all others are shown steadily. */
  method AnimateTargets(items: seq<Item>, targeted: int)
    requires Distinct(items)
    modifies items`animationTime, items`visible
    ensures forall j :: 0 <= j < |items| ==> items[j].rect == old(items[j].rect)
    ensures forall j :: 0 <= j < |items| && items[j].itemType == targeted ==>
      (items[j].animationTime, items[j].visible) == BlinkStep(old(items[j].animationTime), old(items[j].visible))
    ensures forall j :: 0 <= j < |items| && items[j].itemType != targeted ==>
      items[j].visible && items[j].animationTime == 0
  {
    var i := 0;
    while i < |items|
      invariant 0 <= i <= |items|
      invariant forall j :: 0 <= j < |items| ==> items[j].rect == old(items[j].rect)
      invariant forall j :: i <= j < |items| ==>
        items[j].animationTime == old(items[j].animationTime) && items[j].visible == old(items[j].visible)
      invariant forall j :: 0 <= j < i && items[j].itemType == targeted ==>
        (items[j].animationTime, items[j].visible) == BlinkStep(old(items[j].animationTime), old(items[j].visible))
      invariant forall j :: 0 <= j < i && items[j].itemType != targeted ==>
        items[j].visible && items[j].animationTime == 0
    {
      if items[i].itemType == targeted {
        items[i].StartTargetedAnimation();
      } else {
        items[i].StopTargetedAnimation();
      }
      i := i + 1;
    }
  }

  /** Items of any type but `targeted` are shown steadily. */
  predicate Steady(items: seq<Item>, targeted: int)
    reads items
  {
    forall j :: 0 <= j < |items| && items[j].itemType != targeted ==>
      items[j].visible && items[j].animationTime == 0
  }

  /** The player's way through the motion half of a frame, after the trampoline loop:
      the rectangle of the last trampoline under it (`matched`), its state after the
      alignment (`aligned`) and after the platform loop (`stepped`), the rectangle it
      landed at (`landed`), its motion then (`moved`, whose state is the one it picks
      up loot in) and the platform it remembers (`change`). */
  datatype Path = Path(matched: Option<Rect>, aligned: State, stepped: State, landed: Rect,
                       moved: Motion, change: Option<Platform>)

  /** The trampolines' bounce counts and broken flags, in order. */
  function Springs(ts: seq<Trampoline>): (r: seq<(int, bool)>)
    reads ts
    ensures |r| == |ts| && forall j :: 0 <= j < |ts| ==> r[j] == (ts[j].bounceCounter, ts[j].broken)
  {
    seq(|ts|, j requires 0 <= j < |ts| reads ts => (ts[j].bounceCounter, ts[j].broken))
  }

  /** The trampoline loop of the player's frame, from bounce counts and broken flags
      `before` and first springing trampoline `first`, with the player at `r` in
      state `s`: a falling player bounced up on trampoline `first` (`spring`, -1 for
      none); every trampoline is well formed and took its frame (`Bounced`);
      `matched` is the rectangle of the last trampoline under the player. */
  ghost predicate Sprang(trampolines: seq<Trampoline>, r: Rect, s: State, spring: int, matched: Option<Rect>,
                   before: seq<(int, bool)>, first: int)
    reads trampolines
  {
    |before| == |trampolines| &&
    spring == (if s == Down then first else -1) &&
    (forall j :: 0 <= j < |trampolines| ==>
      trampolines[j].Valid() && Bounced(trampolines[j], r, before[j].0, before[j].1, j == spring)) &&
    (matched.None? <==> forall j :: 0 <= j < |trampolines| ==> !UnderActor(trampolines[j].rect, r)) &&
    (matched.Some? ==>
      exists j :: 0 <= j < |trampolines| && LastUnder(trampolines, j, r) && trampolines[j].rect == matched.value)
  }

  /** The rest of the motion half went along `path`, from motion `m` and remembered
      platform `change`, with the player's rectangle `r` fixed until the landing: a
      player lined up over the matched trampoline (`Aligns`) was sent falling; a
      walking player that `StepsOff` an edge jumped off the first platform offering
      one, and otherwise its direction and recorded jump stayed; rising, it
      remembered the first platform 1 to 25 pixels below it, and otherwise forgot
      any; it then landed as `Landing` says. */
  predicate Steered(platforms: seq<Platform>, r: Rect, m: Motion, change: Option<Platform>, path: Path) {
    var collide := Collisions(platforms, r);
    var k := FirstEdge(platforms, r, path.aligned);
    var c := FirstClose(platforms, r.Bottom(), 0, 25);
    var jumped := path.moved;
    path.aligned == (if Aligns(path.matched, m.state, collide, r) then Down else m.state) &&
    (if StepsOff(platforms, collide, path.matched.Some?, r, path.aligned) then
       path.stepped == Jump && jumped.direction == Down && jumped.jumpStart == r.Center() &&
       jumped.jumpEnd == Point(r.CenterX() + PlayerEdgeDx(platforms[k], r), platforms[k].rect.Top() + 1)
     else
       path.stepped == path.aligned && jumped.direction == m.direction &&
       jumped.jumpStart == m.jumpStart && jumped.jumpEnd == m.jumpEnd) &&
    path.change == (if path.aligned == Up && c >= 0 then Some(platforms[c])
                    else if path.aligned == Up || |platforms| == 0 then change
                    else None) &&
    (path.landed, path.moved.state) == Landing(collide, r, path.stepped)
  }

  /** The motion half of the player's frame, from the state before it: the
      trampoline loop as `Sprang` says, bouncing on trampoline `spring`, then the rest
      along `path` as `Steered` says, from the player's old rectangle and motion, its
      state turned up by a bounce. */
  twostate predicate Followed(p: Actor, platforms: seq<Platform>, trampolines: seq<Trampoline>, spring: int, path: Path)
    reads trampolines
  {
    Sprang(trampolines, old(p.rect), old(p.state), spring, path.matched,
           old(Springs(trampolines)), old(FirstSpring(trampolines, p.rect))) &&
    Steered(platforms, old(p.rect),
            old(p.CurrentMotion()).(state := if spring >= 0 then Up else old(p.state)),
            old(p.platformChange), path)
  }

  /** The steps of the motion half after the trampoline loop, with `collide` the
      platforms underfoot and `matched` the trampoline under the player: alignment,
      the platform loop and the landing. */
  method Steer(p: Actor, platforms: seq<Platform>, collide: seq<Platform>, matched: Option<Rect>)
    returns (ghost path: Path)
    requires collide == Collisions(platforms, p.rect)
    modifies p`rect, p`state, p`direction, p`jumpStart, p`jumpEnd, p`platformChange
    ensures Steered(platforms, old(p.rect), old(p.CurrentMotion()), old(p.platformChange), path)
    ensures path.matched == matched && path.landed == p.rect
    ensures path.moved == p.CurrentMotion() && path.change == p.platformChange
    ensures p.state == old(p.state) || !Collecting(p.state)
    ensures Collecting(old(p.state)) && matched.None? ==> p.state == old(p.state)
    ensures Collecting(p.state) ==> p.rect == old(p.rect)
  {
    ghost var r := p.rect;
    ghost var aligned := if Aligns(matched, p.state, collide, r) then Down else p.state;
    AlignOverTrampoline(p, matched, collide);
    PlatformStep(p, platforms, collide, matched.Some?);
    ghost var stepped := p.state;
    SnapToPlatform(p, collide);
    path := Path(matched, aligned, stepped, p.rect, p.CurrentMotion(), p.platformChange);
  }

  /** The motion half of `update_on_level`: trampolines, alignment over a trampoline,
      edge jumps and landing, along `path` as `Followed` states, the player ending
      at `path.landed` with motion `path.moved`. Returns the bounce score. The player
      ends in its old state or in one in which it cannot collect; it keeps a
      collecting state when no trampoline lies under it, and it has moved only if it
      can no longer collect. */
  method MoveOnLevel(p: Actor, platforms: seq<Platform>, trampolines: seq<Trampoline>)
    returns (bounce: int, ghost spring: int, ghost path: Path)
    requires Distinct(trampolines)
    requires forall j :: 0 <= j < |trampolines| ==> trampolines[j].Valid()
    modifies p`rect, p`state, p`direction, p`jumpStart, p`jumpEnd, p`platformChange
    modifies trampolines`bounceCounter, trampolines`broken, trampolines`animationCounter,
             trampolines`animationFrame, trampolines`animation
    ensures Followed(p, platforms, trampolines, spring, path)
    ensures path.landed == p.rect && path.moved == p.CurrentMotion() && path.change == p.platformChange
    ensures bounce == if spring >= 0 then TRAMPOLINE_SCORE else 0
    ensures p.state == old(p.state) || !Collecting(p.state)
    ensures Collecting(old(p.state)) && (forall j :: 0 <= j < |trampolines| ==> !UnderActor(trampolines[j].rect, old(p.rect))) ==>
      p.state == old(p.state)
    ensures Collecting(p.state) ==> p.rect == old(p.rect)
  {
    ghost var r := p.rect;
    spring := if p.state == Down then FirstSpring(trampolines, r) else -1;
    var collide := Collisions(platforms, p.rect);
    var matched;
    bounce, matched := TrampolineStep(p, trampolines);
    ghost var m, change := p.CurrentMotion(), p.platformChange;
    assert m == old(p.CurrentMotion()).(state := if spring >= 0 then Up else old(p.state));
    path := Steer(p, platforms, collide, matched);
    assert Steered(platforms, r, m, change, path);
    assert Sprang(trampolines, r, old(p.state), spring, path.matched, old(Springs(trampolines)), old(FirstSpring(trampolines, r)));
  }

  /** What taking item `taken` (-1 for none) leaves: the remaining items, the new
      streak and the item's score under the streak rule. */
  function Loot(items: seq<Item>, taken: int, streak: Streak): (seq<Item>, Streak, int)
    requires -1 <= taken < |items|
  {
    if taken >= 0 then
      var c := Collect(streak, items[taken].itemType, items[taken].itemType * BASE_ITEM_SCORE);
      (Without(items, items[taken]), c.0, c.1)
    else
      (items, streak, 0)
  }

  /** Taking at most one item keeps the group duplicate-free, loses at most the
      taken item, never lowers the pair count and never scores negatively. */
  lemma {:induction false} LootKeeps(items: seq<Item>, taken: int, streak: Streak)
    requires Distinct(items) && -1 <= taken < |items| && streak.pairs >= 0
    ensures var (remaining, after, score) := Loot(items, taken, streak);
      |remaining| >= |items| - 1 && Distinct(remaining) &&
      (forall j :: 0 <= j < |remaining| ==> remaining[j] in items) &&
      (taken >= 0 ==> items[taken] !in remaining) &&
      after.pairs >= streak.pairs && (score >= 0 <==> taken < 0 || items[taken].itemType >= 0)
  {
    if taken >= 0 {
      WithoutMember(items, items[taken]);
    }
  }

  /** The items' animation times and visibility, in order. */
  function Looks(items: seq<Item>): (r: seq<(int, bool)>)
    reads items
    ensures |r| == |items| && forall j :: 0 <= j < |items| ==> r[j] == (items[j].animationTime, items[j].visible)
  {
    seq(|items|, j requires 0 <= j < |items| reads items => (items[j].animationTime, items[j].visible))
  }

  /** The items' blinking from `looks` once item `taken` (-1 for none) has left the
      group: every other item of the targeted type took one `BlinkStep`, every other
      item is shown steadily, and the taken item kept its animation. */
  predicate Blinked(items: seq<Item>, taken: int, targeted: int, looks: seq<(int, bool)>)
    reads items
  {
    |looks| == |items| &&
    forall j :: 0 <= j < |items| ==>
      (items[j].animationTime, items[j].visible) ==
        if j == taken then looks[j]
        else if items[j].itemType == targeted then BlinkStep(looks[j].0, looks[j].1)
        else (0, true)
  }

  /** The loot half of `update_on_level`: while the player can collect, the first
      item containing its centre (`taken`, -1 for none) is removed and scored through
      the streak rule; then the items of the targeted type blink. */
  method TakeLoot(p: Actor, items: seq<Item>, streak: Streak)
    returns (itemScore: int, remaining: seq<Item>, after: Streak, ghost taken: int)
    requires Distinct(items)
    requires forall j :: 0 <= j < |items| ==> items[j].Valid()
    modifies items`animationTime, items`visible
    ensures taken == if Collecting(p.state) then FirstHit(items, p.rect.Center()) else -1
    ensures (remaining, after, itemScore) == Loot(items, taken, streak)
    ensures Steady(remaining, after.targeted) && Blinked(items, taken, after.targeted, old(Looks(items)))
  {
    taken := if Collecting(p.state) then FirstHit(items, p.rect.Center()) else -1;
    itemScore, remaining, after := ItemStep(p, items, streak);
    if taken >= 0 {
      WithoutMember(items, items[taken]);
    }
    forall j | 0 <= j < |items| && j != taken
      ensures items[j] in remaining
    {
      if taken >= 0 {
        assert items[j] != items[taken];
      }
    }
    AnimateTargets(remaining, after.targeted);
    forall j | 0 <= j < |items| && j != taken
      ensures exists m :: 0 <= m < |remaining| && remaining[m] == items[j]
    {
      assert items[j] in remaining;
    }
  }

  /** The loot half and the walls of the player's frame, from state `pickup` at
      rectangle `landed` and the items' animation `looks`: item `taken` is the first
      one containing the player's centre while it can collect, and is the one
      removed and scored (`Loot`); the items then blinked (`Blinked`); the walls
      turned the player back. */
  predicate Looted(p: Actor, items: seq<Item>, walls: seq<Wall>, streak: Streak, itemScore: int,
                   remaining: seq<Item>, after: Streak, taken: int, pickup: State, landed: Rect,
                   looks: seq<(int, bool)>)
    reads p, items, remaining
  {
    taken == (if Collecting(pickup) then FirstHit(items, landed.Center()) else -1) &&
    (remaining, after, itemScore) == Loot(items, taken, streak) &&
    (p.rect, p.state) == BounceAll(walls, landed, pickup) &&
    Steady(remaining, after.targeted) && Blinked(items, taken, after.targeted, looks)
  }

  /** The steps of `update_on_level` after the motion half: the loot, then the walls.
      The trampolines are not touched. */
  method LootAndWalls(p: Actor, items: seq<Item>, walls: seq<Wall>, streak: Streak, ghost trampolines: seq<Trampoline>)
    returns (itemScore: int, remaining: seq<Item>, after: Streak, ghost taken: int)
    requires Distinct(items)
    requires forall j :: 0 <= j < |items| ==> items[j].Valid()
    modifies p`rect, p`state, items`animationTime, items`visible
    ensures Looted(p, items, walls, streak, itemScore, remaining, after, taken, old(p.state), old(p.rect), old(Looks(items)))
    ensures unchanged(trampolines)
  {
    itemScore, remaining, after, taken := TakeLoot(p, items, streak);
    CheckAll(walls, p);
  }

  /** The outcome of the player's `update_on_level` over the given groups, from the
      state before it: the motion half went along `path` (`Followed`), so the player
      picked up loot in state `path.moved.state` at rectangle `path.landed`, which is
      its old state unless that state could not collect and its old rectangle while
      it can, and keeps its old state when it could collect and no trampoline lies
      under it (`matched` is none); the loot half and the walls then went as `Looted` says, the score
      adding the bounce; the player's recorded jump and remembered platform are the
      path's. */
  twostate predicate Turned(p: Actor, platforms: seq<Platform>, trampolines: seq<Trampoline>, items: seq<Item>,
                            walls: seq<Wall>, streak: Streak, score: int, new remaining: seq<Item>, after: Streak,
                            spring: int, path: Path, taken: int)
    reads p, trampolines, items, remaining
  {
    var pickup := path.moved.state;
    Followed(p, platforms, trampolines, spring, path) &&
    (pickup == old(p.state) || !Collecting(pickup)) &&
    (Collecting(old(p.state)) && path.matched.None? ==> pickup == old(p.state)) &&
    (Collecting(pickup) ==> path.landed == old(p.rect)) &&
    Looted(p, items, walls, streak, score - (if spring >= 0 then TRAMPOLINE_SCORE else 0), remaining, after, taken,
           pickup, path.landed, old(Looks(items))) &&
    p.direction == path.moved.direction && p.jumpStart == path.moved.jumpStart &&
    p.jumpEnd == path.moved.jumpEnd && p.platformChange == path.change
  }

  /** `update_on_level` for the player: returns the frame's score, the items left in
      the level and the new streak bookkeeping, with the way the motion half went
      (`spring`, `path`) and the item taken. The score is the bounce score plus, when
      the player can collect, the streak score of the first item containing its
      centre, which is the one removed; the targeted items then blink and the walls
      turn the player back. */
  method UpdateOnLevel(p: Actor, platforms: seq<Platform>, trampolines: seq<Trampoline>,
                       items: seq<Item>, walls: seq<Wall>, streak: Streak)
    returns (score: int, remaining: seq<Item>, after: Streak, ghost spring: int, ghost path: Path, ghost taken: int)
    requires Distinct(trampolines) && Distinct(items)
    requires forall j :: 0 <= j < |trampolines| ==> trampolines[j].Valid()
    requires forall j :: 0 <= j < |items| ==> items[j].Valid()
    modifies p`rect, p`state, p`direction, p`jumpStart, p`jumpEnd, p`platformChange
    modifies trampolines`bounceCounter, trampolines`broken, trampolines`animationCounter,
             trampolines`animationFrame, trampolines`animation
    modifies items`animationTime, items`visible
    ensures Turned(p, platforms, trampolines, items, walls, streak, score, remaining, after, spring, path, taken)
  {
    var bounce;
    ghost var looks := Looks(items);
    bounce, spring, path := MoveOnLevel(p, platforms, trampolines);
    assert Looks(items) == looks;
    var itemScore;
    itemScore, remaining, after, taken := LootAndWalls(p, items, walls, streak, trampolines);
    score := bounce + itemScore;
    assert Looted(p, items, walls, streak, itemScore, remaining, after, taken, path.moved.state, path.landed, looks);
    assert Followed(p, platforms, trampolines, spring, path);
  }

  /** `update_on_level` as the level keeps its invariants across it (the turn
      itself goes as `UpdateOnLevel` states): the trampolines stay well formed, the
      items left are drawn from the group, none twice, at most the one taken is
      gone, and neither the score nor the pair count goes down. */
  method Turn(p: Actor, platforms: seq<Platform>, trampolines: seq<Trampoline>,
              items: seq<Item>, walls: seq<Wall>, streak: Streak)
    returns (score: int, remaining: seq<Item>, after: Streak)
    requires Distinct(trampolines) && Distinct(items) && streak.pairs >= 0
    requires forall j :: 0 <= j < |trampolines| ==> trampolines[j].Valid()
    requires forall j :: 0 <= j < |items| ==> items[j].Valid()
    modifies p`rect, p`state, p`direction, p`jumpStart, p`jumpEnd, p`platformChange
    modifies trampolines`bounceCounter, trampolines`broken, trampolines`animationCounter,
             trampolines`animationFrame, trampolines`animation
    modifies items`animationTime, items`visible
    ensures forall j :: 0 <= j < |trampolines| ==> trampolines[j].Valid()
    ensures Distinct(remaining) && |remaining| >= |items| - 1
    ensures forall j :: 0 <= j < |remaining| ==> remaining[j] in items
    ensures score >= 0 && after.pairs >= streak.pairs
  {
    ghost var spring, path, taken;
    score, remaining, after, spring, path, taken := UpdateOnLevel(p, platforms, trampolines, items, walls, streak);
    assert Sprang(trampolines, old(p.rect), old(p.state), spring, path.matched,
                  old(Springs(trampolines)), old(FirstSpring(trampolines, p.rect)));
    assert Looted(p, items, walls, streak, score - (if spring >= 0 then TRAMPOLINE_SCORE else 0), remaining, after,
                  taken, path.moved.state, path.landed, old(Looks(items)));
    LootKeeps(items, taken, streak);
  }
}

=== FILE: meowky.dfy ===
/** An enemy's per-frame behaviour in a level (entities/meowky.py,
    `update_on_level`): it moves, decides where to go, rides trampolines without
    wearing them out, steps off platform edges, lands, and bounces off walls. Its two
    random choices are passed in as an `EnemyDraw`. */
module EnemyRules {
  import opened Basics
  import opened Geometry
  import opened Platforms
  import opened Entities
  import opened Walls
  import opened Trampolines
  import opened PlayerRules

  /** The enemy's random draws for one frame: whether it considers chasing the player
      (a 1-in-10 draw), and which way it leaves idle. */
  datatype EnemyDraw = EnemyDraw(chase: bool, rightWhenIdle: bool)

  /** The enemy considers chasing when it is standing, riding up or stunned, the draw
      says so, and the player is lower on screen. */
  predicate Chases(s: State, draw: EnemyDraw, player: Rect, enemy: Rect) {
    s != Jump && s != Down && s != Left && s != Right && draw.chase && player.y > enemy.y
  }

  /** The result of a sideways move request towards `dir` from state `s0`: either the
      state the gate allows, or a jump in that direction onto a remembered platform. */
  twostate predicate MovedToward(a: Actor, s0: State, dir: State)
    requires dir == Left || dir == Right
    reads a
  {
    (a.state == Jump && a.direction == dir) ||
    (a.state == LateralMove(s0, dir) && a.direction == old(a.direction))
  }

  /** Pursuit: a chasing enemy moves towards the player, comparing the two rectangles
      in pygame's (x, y, w, h) order. */
  method Pursue(m: Actor, platforms: seq<Platform>, player: Rect, draw: EnemyDraw)
    modifies m`direction, m`state, m`jumpStart, m`jumpEnd
    ensures !Chases(old(m.state), draw, player, m.rect) ==> m.SameMotion()
    ensures Chases(old(m.state), draw, player, m.rect) && LexLess(player, m.rect) ==>
      MovedToward(m, old(m.state), Left)
    ensures Chases(old(m.state), draw, player, m.rect) && LexLess(m.rect, player) ==>
      MovedToward(m, old(m.state), Right)
    ensures player == m.rect ==> m.SameMotion()
  {
    if m.state != Jump && m.state != Down && m.state != Left && m.state != Right {
      if draw.chase {
        if player.y > m.rect.y {
          if LexLess(player, m.rect) {
            m.MoveLeft(platforms);
          } else if LexLess(m.rect, player) {
            m.MoveRight(platforms);
          }
        }
      }
    }
  }

  /** An idle enemy always starts moving, right or left as the draw says. */
  method LeaveIdle(m: Actor, platforms: seq<Platform>, draw: EnemyDraw)
    modifies m`direction, m`state, m`jumpStart, m`jumpEnd
    ensures old(m.state) != Idle ==> m.SameMotion()
    ensures old(m.state) == Idle ==> m.state != Idle
    ensures old(m.state) == Idle && draw.rightWhenIdle ==> MovedToward(m, Idle, Right)
    ensures old(m.state) == Idle && !draw.rightWhenIdle ==> MovedToward(m, Idle, Left)
  {
    if m.state == Idle {
      if draw.rightWhenIdle {
        m.MoveRight(platforms);
      } else {
        m.MoveLeft(platforms);
      }
    }
  }

  /** An unbroken trampoline the enemy touches sends it up and springs. */
  predicate Springs(t: Trampoline, enemy: Rect)
    reads t`rect, t`broken
  {
    Overlaps(enemy, t.rect) && !t.broken
  }



  /** What the enemy's touch leaves trampoline `t` in, from animation state
      (`anim`, `frame`, `counter`): springing from its first frame when the enemy
      touches it unbroken, otherwise as it was. */
  ghost predicate SpringOutcome(t: Trampoline, enemy: Rect, anim: bool, frame: int, counter: int)
    reads t
  {
    if Springs(t, enemy) then t.animation && t.animationFrame == 0 && t.animationCounter == 1
    else t.animation == anim && t.animationFrame == frame && t.animationCounter == counter
  }

  /** Trampoline `t` during the enemy's loop, from animation state (`anim`,
      `frame`, `counter`): well formed, and once `visited`, as the enemy's touch
      leaves it, otherwise untouched. */
  ghost predicate Visited(t: Trampoline, enemy: Rect, visited: bool, anim: bool, frame: int, counter: int)
    reads t
  {
    t.Valid() &&
    if visited then SpringOutcome(t, enemy, anim, frame, counter)
    else t.animation == anim && t.animationFrame == frame && t.animationCounter == counter
  }

  /** One trampoline of the enemy's loop: it reports whether the trampoline lies
      under the enemy, and springs it when the enemy touches it unbroken. */
  method TrampolineFrame(m: Actor, t: Trampoline) returns (under: bool)
    requires t.Valid()
    modifies t`animation, t`animationCounter, t`animationFrame, m`state
    ensures t.Valid() && under == UnderActor(t.rect, m.rect)
    ensures Springs(t, m.rect) ==>
      t.animation && t.animationFrame == 0 && t.animationCounter == 1 && m.state == VerticalMove(old(m.state), Up)
    ensures !Springs(t, m.rect) ==>
      t.animation == old(t.animation) && t.animationFrame == old(t.animationFrame) &&
      t.animationCounter == old(t.animationCounter) && m.state == old(m.state)
  {
    under := UnderActor(t.rect, m.rect);
    if Overlaps(m.rect, t.rect) && !t.broken {
      m.MoveUp();
      t.StartAnimation();
    }
  }

  /** The enemy's trampoline loop once it has visited the first `i` trampolines, for
      the trampolines: `anims`, `frames` and `counters` are the group's animation
      states from before the loop; those visited are as the enemy, at `r`, left
      them, the others untouched. */
  ghost predicate SpringsSeen(ts: seq<Trampoline>, r: Rect, anims: seq<bool>, frames: seq<int>, counters: seq<int>, i: int)
    reads ts
  {
    |anims| == |ts| && |frames| == |ts| && |counters| == |ts| && 0 <= i <= |ts| &&
    forall j :: 0 <= j < |ts| ==> Visited(ts[j], r, j < i, anims[j], frames[j], counters[j])
  }

  /** The enemy's state and the rectangle of the last trampoline under it after
      the loop has visited the first `i` trampolines, starting from state `s0` with
      the enemy at `r`. */
  function Scan(ts: seq<Trampoline>, r: Rect, s0: State, i: int): (State, Option<Rect>)
    requires 0 <= i <= |ts|
    reads ts`rect, ts`broken
    decreases i
  {
    if i == 0 then (s0, None)
    else
      var prev := Scan(ts, r, s0, i - 1);
      (if Springs(ts[i - 1], r) then VerticalMove(prev.0, Up) else prev.0,
       if UnderActor(ts[i - 1].rect, r) then Some(ts[i - 1].rect) else prev.1)
  }

  /** The enemy's state after `i` trampolines of the loop: it went up when some
      trampoline sprang, and kept its state otherwise. */
  lemma {:induction false} ScanState(ts: seq<Trampoline>, r: Rect, s0: State, i: int)
    requires 0 <= i <= |ts|
    ensures (exists j :: 0 <= j < i && Springs(ts[j], r)) ==> Scan(ts, r, s0, i).0 == VerticalMove(s0, Up)
    ensures (forall j :: 0 <= j < i ==> !Springs(ts[j], r)) ==> Scan(ts, r, s0, i).0 == s0
  {
    if i > 0 {
      ScanState(ts, r, s0, i - 1);
      assert VerticalMove(VerticalMove(s0, Up), Up) == VerticalMove(s0, Up);
    }
  }

  /** The rectangle matched after `i` trampolines of the loop: none when no
      trampoline so far lies under the enemy, otherwise that of the last one that
      does. */
  lemma {:induction false} ScanMatched(ts: seq<Trampoline>, r: Rect, s0: State, i: int)
    requires 0 <= i <= |ts|
    ensures Scan(ts, r, s0, i).1.None? <==> forall j :: 0 <= j < i ==> !UnderActor(ts[j].rect, r)
    ensures Scan(ts, r, s0, i).1.Some? ==>
      exists j :: 0 <= j < i && Scan(ts, r, s0, i).1.value == ts[j].rect && UnderActor(ts[j].rect, r) &&
                  forall l :: j < l < i ==> !UnderActor(ts[l].rect, r)
  {
    if i > 0 {
      ScanMatched(ts, r, s0, i - 1);
      var matched := Scan(ts, r, s0, i - 1).1;
      if !UnderActor(ts[i - 1].rect, r) && matched.Some? {
        var j :| 0 <= j < i - 1 && matched.value == ts[j].rect && UnderActor(ts[j].rect, r) &&
                 forall l :: j < l < i - 1 ==> !UnderActor(ts[l].rect, r);
        assert forall l :: j < l < i ==> !UnderActor(ts[l].rect, r);
      }
    }
  }

  /** One pass of the enemy's trampoline loop: trampoline `i` springs or not, and
      becomes the matched one when it lies under the enemy; the enemy's state and
      the matched rectangle are `Scan`'s one trampoline further. */
  method VisitSpring(m: Actor, ts: seq<Trampoline>, t: Trampoline, i: int, matched: Option<Rect>,
                     ghost r: Rect, ghost s0: State, ghost anims: seq<bool>, ghost frames: seq<int>,
                     ghost counters: seq<int>)
    returns (matched': Option<Rect>)
    requires Distinct(ts) && m.rect == r && 0 <= i < |ts| && t == ts[i]
    requires SpringsSeen(ts, r, anims, frames, counters, i) && (m.state, matched) == Scan(ts, r, s0, i)
    modifies t`animation, t`animationCounter, t`animationFrame, m`state
    ensures SpringsSeen(ts, r, anims, frames, counters, i + 1)
    ensures (m.state, matched') == Scan(ts, r, s0, i + 1)
  {
    var under := TrampolineFrame(m, t);
    matched' := if under then Some(t.rect) else matched;
  }

  /** The enemy's trampoline loop: every unbroken trampoline it touches sends it up
      and springs, without counting a bounce or scoring, and it remembers the last
      trampoline under it; its state and that trampoline's rectangle are `Scan`'s
      over all the trampolines (`ScanState` and `ScanMatched` state what that means). */
  method TrampolineStep(m: Actor, ts: seq<Trampoline>) returns (matched: Option<Rect>)
    requires Distinct(ts)
    requires forall j :: 0 <= j < |ts| ==> ts[j].Valid()
    modifies ts`animation, ts`animationCounter, ts`animationFrame, m`state
    ensures forall j :: 0 <= j < |ts| ==> ts[j].Valid() && ts[j].rect == old(ts[j].rect)
    ensures forall j :: 0 <= j < |ts| ==>
      ts[j].bounceCounter == old(ts[j].bounceCounter) && ts[j].broken == old(ts[j].broken)
    ensures forall j :: 0 <= j < |ts| ==>
      SpringOutcome(ts[j], m.rect, old(ts[j].animation), old(ts[j].animationFrame), old(ts[j].animationCounter))
    ensures (m.state, matched) == Scan(ts, m.rect, old(m.state), |ts|)
  {
    ghost var anims := seq(|ts|, j requires 0 <= j < |ts| reads ts => ts[j].animation);
    ghost var frames := seq(|ts|, j requires 0 <= j < |ts| reads ts => ts[j].animationFrame);
    ghost var counters := seq(|ts|, j requires 0 <= j < |ts| reads ts => ts[j].animationCounter);
    matched := VisitSprings(m, ts, anims, frames, counters);
  }

  /** The loop of `TrampolineStep` over snapshots `anims`, `frames` and `counters`
      of the trampolines' animation states. */
  method VisitSprings(m: Actor, ts: seq<Trampoline>, ghost anims: seq<bool>, ghost frames: seq<int>,
                      ghost counters: seq<int>)
    returns (matched: Option<Rect>)
    requires Distinct(ts) && SpringsSeen(ts, m.rect, anims, frames, counters, 0)
    modifies ts`animation, ts`animationCounter, ts`animationFrame, m`state
    ensures SpringsSeen(ts, m.rect, anims, frames, counters, |ts|)
    ensures (m.state, matched) == Scan(ts, m.rect, old(m.state), |ts|)
  {
    matched := None;
    ghost var r := m.rect;
    ghost var s0 := m.state;
    var i := 0;
    while i < |ts|
      invariant SpringsSeen(ts, r, anims, frames, counters, i) && (m.state, matched) == Scan(ts, r, s0, i)
    {
      matched := VisitSpring(m, ts, ts[i], i, matched, r, s0, anims, frames, counters);
      i := i + 1;
    }
  }

  /** Where an enemy's edge jump off `pl` goes: the left-edge test comes first and
      wins, so 40 pixels left when the platform's left side is right of the enemy's
      and it was not walking right, and 40 pixels right otherwise. */
  function EnemyEdgeDx(pl: Platform, a: Rect, s: State): (dx: int)
    ensures dx == 40 || dx == -40
    ensures dx == -40 <==> pl.rect.Left() > a.Left() && s != Right
  {
    if pl.rect.Left() > a.Left() && s != Right then -40 else 40
  }

  /** The edge check of one platform in the enemy's loop. */
  method StepOffEdge(m: Actor, platform: Platform, single: bool, matched: bool)
    modifies m`direction, m`state, m`jumpStart, m`jumpEnd
    ensures if single && matched && (old(m.state) == Left || old(m.state) == Right) && AtEdge(platform, m.rect, old(m.state))
      then EdgeJump(m, platform, EnemyEdgeDx(platform, m.rect, old(m.state)))
      else m.SameMotion()
  {
    if single && Overlaps(m.rect, platform.rect) {
      if matched && (m.state == Right || m.state == Left) {
        if platform.rect.Left() > m.rect.Left() && m.state != Right {
          m.JumpTo(m.rect.CenterX() - 40, platform.rect.Top() + 1, Down);
        } else if platform.rect.Right() < m.rect.Right() && m.state != Left {
          m.JumpTo(m.rect.CenterX() + 40, platform.rect.Top() + 1, Down);
        }
      }
    }
  }

  /** One platform of the enemy's loop, after the edge check: rising, it remembers the
      platform if that lies 11 to 50 pixels below it and reports it; otherwise it
      forgets any remembered platform. */
  method NoteRising(m: Actor, platform: Platform) returns (found: bool)
    modifies m`platformChange
    ensures found == (m.state == Up && Close(platform, m.rect.Bottom(), 10, 50))
    ensures m.platformChange == if found then Some(platform)
      else if m.state == Up then old(m.platformChange) else None
  {
    found := false;
    if m.state == Up {
      if 10 < platform.rect.Bottom() - m.rect.Bottom() <= 50 {
        m.platformChange := Some(platform);
        found := true;
      }
    } else {
      m.platformChange := None;
    }
  }

  /** The enemy's platform loop: like the player's, but it remembers a platform whose
      bottom is 11 to 50 pixels below its own, and it steps 40 pixels off the first
      platform offering an edge, preferring that platform's left edge. */
  method PlatformStep(m: Actor, platforms: seq<Platform>, collide: seq<Platform>, matched: bool)
    modifies m`direction, m`state, m`jumpStart, m`jumpEnd, m`platformChange
    ensures old(m.state) == Up ==> m.SameMotion()
    ensures old(m.state) == Up ==>
      var k := FirstClose(platforms, m.rect.Bottom(), 10, 50);
      m.platformChange == (if k >= 0 then Some(platforms[k]) else old(m.platformChange))
    ensures old(m.state) != Up && |platforms| > 0 ==> m.platformChange == None
    ensures old(m.state) != Up && |platforms| == 0 ==> m.platformChange == old(m.platformChange)
    ensures var k := FirstEdge(platforms, m.rect, old(m.state));
      if |collide| == 1 && matched && (old(m.state) == Left || old(m.state) == Right) && k >= 0
      then EdgeJump(m, platforms[k], EnemyEdgeDx(platforms[k], m.rect, old(m.state)))
      else m.SameMotion()
  {
    ghost var s0 := m.state;
    ghost var k := FirstEdge(platforms, m.rect, s0);
    ghost var trig := |collide| == 1 && matched && (s0 == Left || s0 == Right);
    var i := 0;
    while i < |platforms|
      invariant 0 <= i <= |platforms|
      invariant s0 == Up ==> m.SameMotion() && m.platformChange == old(m.platformChange)
      invariant s0 == Up ==> forall j :: 0 <= j < i ==> !Close(platforms[j], m.rect.Bottom(), 10, 50)
      invariant s0 != Up ==> m.state != Up
      invariant s0 != Up && i > 0 ==> m.platformChange == None
      invariant s0 != Up && i == 0 ==> m.platformChange == old(m.platformChange)
      invariant trig && 0 <= k < i ==> EdgeJump(m, platforms[k], EnemyEdgeDx(platforms[k], m.rect, s0))
      invariant !(trig && 0 <= k < i) ==> m.SameMotion()
    {
      var platform := platforms[i];
      StepOffEdge(m, platform, |collide| == 1, matched);
      var found := NoteRising(m, platform);
      if found {
        break;
      }
      i := i + 1;
    }
  }

  /** `update_on_level` for an enemy: one frame of motion, then the decisions and the
      level's rules. Trampolines keep their bounce counts and broken flags. */
  method UpdateOnLevel(m: Actor, platforms: seq<Platform>, trampolines: seq<Trampoline>,
                       walls: seq<Wall>, player: Rect, draw: EnemyDraw, arc: ArcFn)
    requires Distinct(trampolines)
    requires forall j :: 0 <= j < |trampolines| ==> trampolines[j].Valid()
    modifies m`rect, m`state, m`direction, m`jumpStart, m`jumpEnd, m`platformChange,
             m`jumpFrame, m`animationCounter, m`animationFrame
    modifies trampolines
    ensures forall j :: 0 <= j < |trampolines| ==>
      (trampolines[j].Valid() && trampolines[j].rect == old(trampolines[j].rect))
    ensures forall j :: 0 <= j < |trampolines| ==>
      (trampolines[j].bounceCounter == old(trampolines[j].bounceCounter) &&
       trampolines[j].broken == old(trampolines[j].broken))
  {
    m.Update(arc);
    Pursue(m, platforms, player, draw);
    LeaveIdle(m, platforms, draw);
    var collide := Collisions(platforms, m.rect);
    var matched := TrampolineStep(m, trampolines);
    AlignOverTrampoline(m, matched, collide);
    PlatformStep(m, platforms, collide, matched.Some?);
    SnapToPlatform(m, collide);
    CheckAll(walls, m);
  }
}

=== FILE: platform.dfy ===
/** Platforms: static rectangles the actors walk on (structures/platform.py). */
module Platforms {
  import opened Geometry

  datatype Platform = Platform(rect: Rect)

  /** The rectangle has its top-left corner at (x, y) and the given width; a floor
      platform is `height` tall, any other one is drawn 15 pixels taller. */
  function NewPlatform(x: int, y: int, width: nat := 100, height: nat := 25, floor: bool := false): (p: Platform)
    ensures p.rect.x == x && p.rect.y == y && p.rect.w == width
    ensures floor ==> p.rect.h == height
    ensures !floor ==> p.rect.h == height + 15
  {
    Platform(Rect(x, y, width, if floor then height else height + 15))
  }

  /** Scrolling moves a platform sideways and nothing else. */
  function ShiftPlatform(p: Platform, dx: int): (q: Platform)
    ensures q.rect == p.rect.ShiftX(dx)
  {
    Platform(p.rect.ShiftX(dx))
  }

  function ShiftPlatforms(ps: seq<Platform>, dx: int): (qs: seq<Platform>)
    ensures |qs| == |ps|
    ensures forall i :: 0 <= i < |ps| ==> qs[i] == ShiftPlatform(ps[i], dx)
  {
    seq(|ps|, i requires 0 <= i < |ps| => ShiftPlatform(ps[i], dx))
  }
}

=== FILE: scores.dfy ===
/** The scores screen (core/scenes/scores_screen.py): the player enters a name of
    three letters with the arrow keys, and the screen ranks the current score among
    the saved ones and keeps the best five. Drawing and the scores file are left
    out; the saved scores arrive as a parameter. */
module Scores {
  import opened Basics
  import opened HudScene

  /** The arrow keys the screen reacts to. */
  datatype Arrow = ArrowLeft | ArrowRight | ArrowUp | ArrowDown

  /** How many letters a name is made of: the upper-case letters 'A' to 'Z'. */
  const LETTERS: int := 26

  /** How many entries the table shows. */
  const TOP: nat := 5

  // ---------------------------------------------------------------- ranking

  /** `a` ranks at least as high as `b`: entries are ordered by score and, on equal
      scores, by round, both from high to low. */
  predicate AtLeast(a: ScoreEntry, b: ScoreEntry) {
    a.score > b.score || (a.score == b.score && a.round >= b.round)
  }

  /** Ranked from high to low. */
  predicate Ranked(s: seq<ScoreEntry>) {
    forall i, j :: 0 <= i < j < |s| ==> AtLeast(s[i], s[j])
  }

  /** Where `e` goes in `t`: before the first entry it ranks at least as high as. */
  function Slot(e: ScoreEntry, t: seq<ScoreEntry>): (p: nat)
    ensures p <= |t|
    ensures forall j :: 0 <= j < p ==> !AtLeast(e, t[j])
    ensures p < |t| ==> AtLeast(e, t[p])
  {
    if |t| == 0 then 0
    else if AtLeast(e, t[0]) then 0
    else
      var q := Slot(e, t[1..]);
      assert forall j :: 1 <= j < q + 1 ==> t[j] == t[1..][j - 1];
      1 + q
  }

  /** `e` placed into its slot of `t`. */
  function Insert(e: ScoreEntry, t: seq<ScoreEntry>): (r: seq<ScoreEntry>)
    ensures |r| == |t| + 1
    ensures multiset(r) == multiset(t) + multiset{e}
  {
    var p := Slot(e, t);
    assert t == t[..p] + t[p..];
    t[..p] + [e] + t[p..]
  }

  /** Where each entry of `t` ends up once `e` is inserted. */
  lemma InsertIndex(e: ScoreEntry, t: seq<ScoreEntry>, i: nat)
    requires i <= |t|
    ensures var p := Slot(e, t);
      Insert(e, t)[i] == if i < p then t[i] else if i == p then e else t[i - 1]
  {
  }

  /** Inserting into a ranked sequence keeps it ranked. */
  lemma InsertRanked(e: ScoreEntry, t: seq<ScoreEntry>)
    requires Ranked(t)
    ensures Ranked(Insert(e, t))
  {
    var r := Insert(e, t);
    forall i, j | 0 <= i < j < |r|
      ensures AtLeast(r[i], r[j])
    {
      InsertIndex(e, t, i);
      InsertIndex(e, t, j);
    }
  }

  /** The sort of the scores screen: the same entries, ranked from high to low.
      How entries that rank alike are ordered is not stated here (`CurrentLands`
      places the current player's among them). */
  function Sort(s: seq<ScoreEntry>): (r: seq<ScoreEntry>)
    ensures Ranked(r)
    ensures multiset(r) == multiset(s)
    ensures |r| == |s|
  {
    if |s| == 0 then []
    else
      assert s == [s[0]] + s[1..];
      InsertRanked(s[0], Sort(s[1..]));
      Insert(s[0], Sort(s[1..]))
  }

  /** How many entries of `s` rank at least as high as `cur`. */
  function Ahead(s: seq<ScoreEntry>, cur: ScoreEntry): nat {
    if |s| == 0 then 0
    else (if AtLeast(s[0], cur) then 1 else 0) + Ahead(s[1..], cur)
  }

  /** Inserting `e` into a ranked `t` moves an entry at `k` one place down when `e`
      ranks at least as high as it, and leaves it in place otherwise. */
  lemma InsertMoves(e: ScoreEntry, t: seq<ScoreEntry>, k: nat)
    requires Ranked(t) && k < |t|
    ensures AtLeast(e, t[k]) ==> Insert(e, t)[k + 1] == t[k]
    ensures !AtLeast(e, t[k]) ==> Insert(e, t)[k] == t[k]
  {
    InsertIndex(e, t, k);
    InsertIndex(e, t, k + 1);
  }

  /** The current entry, added last to the saved ones, lands just after every saved
      entry that ranks at least as high as it: sorting is stable. */
  lemma {:induction false} CurrentLands(prev: seq<ScoreEntry>, cur: ScoreEntry)
    ensures Ahead(prev, cur) < |Sort(prev + [cur])|
    ensures Sort(prev + [cur])[Ahead(prev, cur)] == cur
  {
    if |prev| == 0 {
      assert prev + [cur] == [cur];
    } else {
      var s := prev + [cur];
      assert s[0] == prev[0] && s[1..] == prev[1..] + [cur];
      CurrentLands(prev[1..], cur);
      var t := Sort(prev[1..] + [cur]);
      var k := Ahead(prev[1..], cur);
      InsertMoves(prev[0], t, k);
    }
  }

  /** The table: the first five of the current entry and the saved ones, ranked. */
  function Top5(prev: seq<ScoreEntry>, cur: ScoreEntry): seq<ScoreEntry> {
    var all := Sort(prev + [cur]);
    all[..if |all| < TOP then |all| else TOP]
  }

  /** The table holds five entries, or all of them when there are fewer; it is
      ranked, and every entry in it is the current one or a saved one. */
  lemma Top5Shape(prev: seq<ScoreEntry>, cur: ScoreEntry)
    ensures var top := Top5(prev, cur);
      |top| == (if |prev| + 1 < TOP then |prev| + 1 else TOP) &&
      Ranked(top) && multiset(top) <= multiset(prev + [cur])
  {
    var all := Sort(prev + [cur]);
    var n := if |all| < TOP then |all| else TOP;
    assert all == all[..n] + all[n..];
    assert multiset(all) == multiset(all[..n]) + multiset(all[n..]);
  }

  /** Every entry left out of the table ranks no higher than every entry in it. */
  lemma TableIsBest(prev: seq<ScoreEntry>, cur: ScoreEntry, i: nat, j: nat)
    requires i < TOP <= j < |prev| + 1
    ensures AtLeast(Top5(prev, cur)[i], Sort(prev + [cur])[j])
  {
  }

  /** Whether entry `e` carries this name and score. */
  predicate Carries(e: ScoreEntry, name: string, score: int) {
    e.name == name && e.score == score
  }

  /** Whether some entry of `top` carries this name and score. */
  predicate Listed(top: seq<ScoreEntry>, name: string, score: int) {
    |top| > 0 && (Carries(top[0], name, score) || Listed(top[1..], name, score))
  }

  /** An entry at any place of `top` makes its name and score listed. */
  lemma {:induction false} ListedAt(top: seq<ScoreEntry>, k: nat, name: string, score: int)
    requires k < |top| && Carries(top[k], name, score)
    ensures Listed(top, name, score)
  {
    if k > 0 {
      ListedAt(top[1..], k - 1, name, score);
    }
  }

  /** Fewer than five saved entries rank at least as high as the current one: the
      current player is in the table. */
  lemma CurrentListed(prev: seq<ScoreEntry>, cur: ScoreEntry)
    requires Ahead(prev, cur) < TOP
    ensures Listed(Top5(prev, cur), cur.name, cur.score)
  {
    CurrentLands(prev, cur);
    ListedAt(Top5(prev, cur), Ahead(prev, cur), cur.name, cur.score);
  }

  // --------------------------------------------------------------- name entry

  /** The selected letter after an arrow: left and right move it round the three
      letters, up and down leave it. */
  function Selection(i: int, a: Arrow): (r: int)
    ensures a.ArrowLeft? || a.ArrowRight? ==> 0 <= r < 3
    ensures a.ArrowUp? || a.ArrowDown? ==> r == i
  {
    match a
    case ArrowLeft => (i - 1) % 3
    case ArrowRight => (i + 1) % 3
    case _ => i
  }

  /** Left undoes right and right undoes left. */
  lemma SelectionInverse(i: int)
    requires 0 <= i < 3
    ensures Selection(Selection(i, ArrowRight), ArrowLeft) == i
    ensures Selection(Selection(i, ArrowLeft), ArrowRight) == i
  {
  }

  /** Three moves the same way come back to the same letter. */
  lemma SelectionCycles(i: int, a: Arrow)
    requires 0 <= i < 3 && (a.ArrowLeft? || a.ArrowRight?)
    ensures Selection(Selection(Selection(i, a), a), a) == i
  {
  }

  predicate Upper(c: char) {
    'A' <= c <= 'Z'
  }

  /** The place of a letter in the alphabet; anything else counts as 'A'. */
  function LetterIndex(c: char): (k: int)
    ensures 0 <= k < LETTERS
    ensures !Upper(c) ==> k == 0
  {
    if Upper(c) then c as int - 'A' as int else 0
  }

  /** The letter at place `k` of the alphabet. */
  function Letter(k: int): (c: char)
    requires 0 <= k < LETTERS
    ensures Upper(c) && LetterIndex(c) == k
  {
    ('A' as int + k) as char
  }

  /** Every letter is the one at its own place. */
  lemma LetterAtIndex(c: char)
    requires Upper(c)
    ensures Letter(LetterIndex(c)) == c
  {
  }

  /** The name after up or down on letter `i`: the letter moves one place round the
      alphabet; left and right do not touch the name. */
  function Renamed(name: string, i: nat, a: Arrow): (r: string)
    requires i < |name|
    ensures |r| == |name|
    ensures forall j :: 0 <= j < |name| && j != i ==> r[j] == name[j]
    ensures a.ArrowUp? ==> r[i] == Letter((LetterIndex(name[i]) + 1) % LETTERS)
    ensures a.ArrowDown? ==> r[i] == Letter((LetterIndex(name[i]) - 1) % LETTERS)
    ensures a.ArrowLeft? || a.ArrowRight? ==> r == name
  {
    match a
    case ArrowUp => name[i := Letter((LetterIndex(name[i]) + 1) % LETTERS)]
    case ArrowDown => name[i := Letter((LetterIndex(name[i]) - 1) % LETTERS)]
    case _ => name
  }

  /** Down undoes up on a letter. */
  lemma UpThenDown(name: string, i: nat)
    requires i < |name| && Upper(name[i])
    ensures Renamed(Renamed(name, i, ArrowUp), i, ArrowDown) == name
  {
    var k := LetterIndex(name[i]);
    assert ((k + 1) % LETTERS - 1) % LETTERS == k;
    LetterAtIndex(name[i]);
  }

  /** Up undoes down on a letter. */
  lemma DownThenUp(name: string, i: nat)
    requires i < |name| && Upper(name[i])
    ensures Renamed(Renamed(name, i, ArrowDown), i, ArrowUp) == name
  {
    var k := LetterIndex(name[i]);
    assert ((k - 1) % LETTERS + 1) % LETTERS == k;
    LetterAtIndex(name[i]);
  }

  /** A place not yet filled in counts as 'A': up turns it into 'B', down into 'Z'. */
  lemma BlankIsA(name: string, i: nat)
    requires i < |name| && !Upper(name[i])
    ensures Renamed(name, i, ArrowUp)[i] == 'B'
    ensures Renamed(name, i, ArrowDown)[i] == 'Z'
  {
  }

  /** The screen's state. */
  class ScoresScreen {
    var currentScore: int
    var currentRound: int
    var currentName: string
    var prevScores: seq<ScoreEntry>
    var top5: Option<seq<ScoreEntry>>
    var isCurrentInTop: bool
    var selectedLetterIndex: int

    /** The name has three places and one of them is selected. */
    predicate Valid()
      reads this`currentName, this`selectedLetterIndex
    {
      |currentName| == 3 && 0 <= selectedLetterIndex < 3
    }

    /** The entry of the player who has just finished. */
    function Current(): (e: ScoreEntry)
      reads this`currentName, this`currentScore, this`currentRound
      ensures e.name == currentName && e.score == currentScore && e.round == currentRound
    {
      ScoreEntry(currentName, currentScore, currentRound)
    }

    constructor (saved: seq<ScoreEntry>)
      ensures Valid()
      ensures currentScore == 0 && currentRound == 0 && currentName == "..."
      ensures prevScores == saved && top5 == None && !isCurrentInTop
      ensures selectedLetterIndex == 0
    {
      currentScore := 0;
      currentRound := 0;
      currentName := "...";
      prevScores := saved;
      top5 := None;
      isCurrentInTop := false;
      selectedLetterIndex := 0;
    }

    /** Reloads the saved scores, ranks the current entry among them, keeps the best
        five and records whether the player's name and score are among them. */
    method GenerateTop5WithStatus(saved: seq<ScoreEntry>)
      modifies this`prevScores, this`top5, this`isCurrentInTop
      ensures prevScores == saved
      ensures top5 == Some(Top5(saved, ScoreEntry(currentName, currentScore, currentRound)))
      ensures isCurrentInTop <==> Listed(top5.value, currentName, currentScore)
    {
      var cur := ScoreEntry(currentName, currentScore, currentRound);
      var top := Top5(saved, cur);
      prevScores := saved;
      top5 := Some(top);
      isCurrentInTop := Listed(top, cur.name, cur.score);
    }

    /** Moves the selected letter left or right, round the three places. */
    method ChangeSelection(a: Arrow)
      modifies this`selectedLetterIndex
      ensures selectedLetterIndex == Selection(old(selectedLetterIndex), a)
    {
      if a == ArrowLeft {
        selectedLetterIndex := (selectedLetterIndex - 1) % 3;
      } else if a == ArrowRight {
        selectedLetterIndex := (selectedLetterIndex + 1) % 3;
      }
    }

    /** Moves the selected letter one place up or down the alphabet. */
    method ChangeLetter(a: Arrow)
      requires Valid()
      modifies this`currentName
      ensures Valid()
      ensures currentName == Renamed(old(currentName), selectedLetterIndex, a)
    {
      var k := LetterIndex(currentName[selectedLetterIndex]);
      var next: int;
      if a == ArrowUp {
        next := (k + 1) % LETTERS;
      } else if a == ArrowDown {
        next := (k - 1) % LETTERS;
      } else {
        return;
      }
      currentName := currentName[selectedLetterIndex := Letter(next)];
    }
  }
}

=== FILE: settings.dfy ===
/** Game constants (config/settings.py). */
module Settings {
  const SCREEN_WIDTH: int := 600
  const SCREEN_HEIGHT: int := 750
  const FPS: int := 60

  const PLATFORM_HEIGHT: int := 15
  const PLATFORM_WIDTH: int := 100
  const TRAMPOLINE_HEIGHT: int := 10
  const TRAMPOLINE_WIDTH: int := 75
  const FLOOR_HEIGHT: int := 75

  const TRAMPOLINE_SCORE: int := 10
  const BASE_ITEM_SCORE: int := 100

  /** Sprite sizes: the rectangle of an actor or a door is the size of its image. */
  const MAPPY_W: nat := 30
  const MAPPY_H: nat := 30
  const MEOWKY_W: nat := 25
  const MEOWKY_H: nat := 30
  const CLOSED_DOOR_W: nat := 10
  const CLOSED_DOOR_H: nat := 60
  const OPEN_DOOR_W: nat := 50
}

=== FILE: trampoline.dfy ===
/** Trampolines between floors: the player bounces up from one, each bounce is
    counted and scored, and the third bounce breaks it for good
    (structures/trampoline.py). */
module Trampolines {
  import opened Geometry
  import opened Settings
  import opened Entities

  datatype Color = Green | Blue | Pink | Red

  /** The animation steps shown while a trampoline is springing, indexed by frame 0..7. */
  const ANIMATION_SEQUENCE: seq<int> := [1, 2, 3, 2, 1, 4, 5, 4]

  /** The trampoline `t` lies below an actor `a` with one of the actor's side edges
      strictly inside it, 2 pixels clear of its ends. */
  predicate UnderActor(t: Rect, a: Rect) {
    ((t.Left() + 2 < a.Left() < t.Right() - 2) || (t.Left() + 2 < a.Right() < t.Right() - 2)) &&
    t.Top() > a.Top()
  }

  /** The colour for a bounce count: green, blue, pink, red for 0..3 bounces; any
      other count leaves the colour as it was. */
  function ColorOf(bounces: int, current: Color): (c: Color)
    ensures 0 <= bounces <= 3 ==> c == [Green, Blue, Pink, Red][bounces]
    ensures !(0 <= bounces <= 3) ==> c == current
  {
    if bounces == 0 then Green
    else if bounces == 1 then Blue
    else if bounces == 2 then Pink
    else if bounces == 3 then Red
    else current
  }

  /** One call of `animate` on (frame, counter): the next frame, the next counter,
      and whether the animation keeps running. The frame advances on every third
      counter value; once it has reached 7 the animation rewinds and stops. */
  function AnimStep(frame: int, counter: int): (r: (int, int, bool))
    ensures 0 <= frame <= 7 ==> 0 <= r.0 <= 7
    ensures frame < 7 ==> (r.2 && r.1 == counter + 1 &&
      r.0 == frame + (if counter % 3 == 0 then 1 else 0))
    ensures frame >= 7 ==> r == (0, 1, false)
  {
    if frame < 7 then (if counter % 3 == 0 then frame + 1 else frame, counter + 1, true)
    else (0, 1, false)
  }

  /** (frame, counter, running) after `n` calls of `animate` since `start_animation`. */
  function AnimRun(n: nat): (int, int, bool)
  {
    if n == 0 then (0, 1, true)
    else
      var p := AnimRun(n - 1);
      if p.2 then AnimStep(p.0, p.1) else p
  }

  /** During the first 21 calls the frame is the number of calls divided by 3. */
  lemma {:induction false} AnimRunWhileRunning(n: nat)
    requires n <= 21
    ensures AnimRun(n) == (n / 3, n + 1, true)
  {
    if n > 0 {
      AnimRunWhileRunning(n - 1);
      assert (n - 1) / 3 < 7;
      assert (n - 1) / 3 + (if n % 3 == 0 then 1 else 0) == n / 3;
    }
  }

  /** A started animation runs through all eight steps and stops on the 22nd call,
      back at frame 0 and counter 1. */
  lemma AnimationLength()
    ensures AnimRun(21) == (7, 22, true)
    ensures AnimRun(22) == (0, 1, false)
    ensures forall n: nat :: n <= 21 ==> AnimRun(n).2
  {
    AnimRunWhileRunning(21);
    forall n: nat | n <= 21 ensures AnimRun(n).2 {
      AnimRunWhileRunning(n);
    }
  }

  class Trampoline {
    var rect: Rect
    var bounceCounter: int
    var broken: bool
    var color: Color
    var animation: bool
    var animationCounter: int
    var animationFrame: int
    /** The animation step on display: an entry of ANIMATION_SEQUENCE, or 0 for the still image. */
    var shown: int

    /** At most three bounces are ever counted, the third one breaks the trampoline,
        and the animation frame indexes ANIMATION_SEQUENCE. */
    predicate Valid()
      reads this`bounceCounter, this`broken, this`animationFrame
    {
      0 <= bounceCounter <= 3 && (bounceCounter == 3 ==> broken) && 0 <= animationFrame <= 7
    }

    /** `Trampoline(x, y, width, height)`: top-left at (x, y), green, unbroken, at rest. */
    constructor(x: int, y: int, width: nat := 75, height: nat := 10)
      ensures rect == Rect(x, y, width, height)
      ensures bounceCounter == 0 && !broken && color == Green
      ensures !animation && animationCounter == 1 && animationFrame == 0 && shown == 0
      ensures Valid()
    {
      rect := Rect(x, y, width, height);
      bounceCounter := 0;
      broken := false;
      color := Green;
      animation := false;
      animationCounter := 1;
      animationFrame := 0;
      shown := 0;
    }

    /** `reset` clears the bounce count; a broken trampoline stays broken. */
    method Reset()
      requires Valid()
      modifies this`bounceCounter
      ensures bounceCounter == 0 && Valid()
    {
      bounceCounter := 0;
    }

    /** `check_collision`: an unbroken trampoline touched by a falling player sends it
        up, counts the bounce, breaks on the third and scores TRAMPOLINE_SCORE;
        anything else scores 0 and changes nothing. */
    method CheckCollision(player: Actor) returns (score: int)
      requires Valid()
      modifies this`bounceCounter, this`broken, player`state
      ensures Valid()
      ensures var bounce := !old(broken) && Overlaps(player.rect, rect) && old(player.state) == Down;
        if bounce then
          player.state == Up && bounceCounter == old(bounceCounter) + 1 &&
          broken == (bounceCounter >= 3) && score == TRAMPOLINE_SCORE
        else
          score == 0 && player.state == old(player.state) &&
          bounceCounter == old(bounceCounter) && broken == old(broken)
    {
      if broken {
        return 0;
      }
      if Overlaps(player.rect, rect) && player.state == Down {
        player.MoveUp();
        bounceCounter := bounceCounter + 1;
        if bounceCounter >= 3 {
          broken := true;
        }
        return TRAMPOLINE_SCORE;
      } else {
        return 0;
      }
    }

    method StartAnimation()
      modifies this`animationCounter, this`animationFrame, this`animation
      ensures animation && animationCounter == 1 && animationFrame == 0
    {
      animationCounter := 1;
      animationFrame := 0;
      animation := true;
    }

    method StopAnimation()
      modifies this`animation
      ensures !animation
    {
      animation := false;
    }

    /** `animate`: recolour by bounce count, then take one animation step. */
    method Animate()
      requires Valid()
      modifies this`color, this`animationFrame, this`animationCounter, this`animation, this`shown
      ensures Valid()
      ensures color == ColorOf(bounceCounter, old(color))
      ensures var r := AnimStep(old(animationFrame), old(animationCounter));
        animationFrame == r.0 && animationCounter == r.1 && animation == (old(animation) && r.2)
      ensures old(animationFrame) < 7 ==> shown == ANIMATION_SEQUENCE[animationFrame]
      ensures old(animationFrame) >= 7 ==> shown == 0
    {
      color := ColorOf(bounceCounter, color);
      if animationFrame < 7 {
        if animationCounter % 3 == 0 {
          animationFrame := animationFrame + 1;
        }
        shown := ANIMATION_SEQUENCE[animationFrame];
        animationCounter := animationCounter + 1;
      } else {
        shown := 0;
        animationFrame := 0;
        animationCounter := 1;
        StopAnimation();
      }
    }

    /** `update`: a springing trampoline takes one animation step. */
    method Update()
      requires Valid()
      modifies this`color, this`animationFrame, this`animationCounter, this`animation, this`shown
      ensures Valid()
      ensures !old(animation) ==>
        color == old(color) && animationFrame == old(animationFrame) &&
        animationCounter == old(animationCounter) && shown == old(shown) && !animation
      ensures old(animation) ==>
        var r := AnimStep(old(animationFrame), old(animationCounter));
        color == ColorOf(bounceCounter, old(color)) &&
        animationFrame == r.0 && animationCounter == r.1 && animation == r.2
    {
      if animation {
        Animate();
      }
    }
  }
}

=== FILE: wall.dfy ===
/** Walls at both ends of every floor: an actor walking into one is pushed clear
    of it and turned around (structures/wall.py). */
module Walls {
  import opened Geometry
  import opened Entities

  datatype Wall = Wall(rect: Rect)

  /** `Wall(x, y, width, height)`: the rectangle's bottom-right corner is (x, y). */
  function NewWall(x: int, y: int, width: nat := 8, height: nat := 75): (w: Wall)
    ensures w.rect.Right() == x && w.rect.Bottom() == y
    ensures w.rect.w == width && w.rect.h == height
  {
    Wall(Rect(x, y, width, height).WithBottomRight(Point(x, y)))
  }

  /** Where an actor with rectangle `r` in state `s` ends up after touching `w`, and
      its new state. */
  function Bounce(w: Wall, r: Rect, s: State): (res: (Rect, State))
    ensures res.0.w == r.w && res.0.h == r.h
    ensures Overlaps(w.rect, r) && s == Left ==>
      res.0.Left() == w.rect.Right() + 4 && res.0.Bottom() == w.rect.Bottom() && res.1 == Right
    ensures Overlaps(w.rect, r) && s == Right ==>
      res.0.Right() == w.rect.Left() - 4 && res.0.Bottom() == w.rect.Bottom() && res.1 == Left
    ensures !Overlaps(w.rect, r) || (s != Left && s != Right) ==> res == (r, s)
    ensures Overlaps(w.rect, r) && (s == Left || s == Right) ==> !Overlaps(w.rect, res.0)
  {
    if Overlaps(w.rect, r) then
      if s == Left then (r.WithBottomLeft(Point(w.rect.Right() + 4, w.rect.Bottom())), Right)
      else if s == Right then (r.WithBottomRight(Point(w.rect.Left() - 4, w.rect.Bottom())), Left)
      else (r, s)
    else (r, s)
  }

  /** `check_collision`: the actor's rectangle and state become the bounce result;
      nothing else about the actor changes. */
  method CheckCollision(w: Wall, e: Actor)
    modifies e`rect, e`state
    ensures (e.rect, e.state) == Bounce(w, old(e.rect), old(e.state))
  {
    if Overlaps(w.rect, e.rect) {
      if e.state == Left {
        e.rect := e.rect.WithBottomLeft(Point(w.rect.Right() + 4, w.rect.Bottom()));
        e.state := Right;
      } else if e.state == Right {
        e.rect := e.rect.WithBottomRight(Point(w.rect.Left() - 4, w.rect.Bottom()));
        e.state := Left;
      }
    }
  }

  /** `for wall in walls: wall.check_collision(e)`, in group order. */
  method CheckAll(walls: seq<Wall>, e: Actor)
    modifies e`rect, e`state
    ensures (e.rect, e.state) == BounceAll(walls, old(e.rect), old(e.state))
  {
    var i := 0;
    while i < |walls|
      invariant 0 <= i <= |walls|
      invariant (e.rect, e.state) == BounceAll(walls[..i], old(e.rect), old(e.state))
    {
      BounceAllSnoc(walls[..i], walls[i], old(e.rect), old(e.state));
      assert walls[..i + 1] == walls[..i] + [walls[i]];
      CheckCollision(walls[i], e);
      i := i + 1;
    }
    assert walls[..i] == walls;
  }

  /** The walls of a group applied one after the other. */
  function BounceAll(walls: seq<Wall>, r: Rect, s: State): (res: (Rect, State))
    ensures res.0.w == r.w && res.0.h == r.h
    ensures (forall i :: 0 <= i < |walls| ==> !Overlaps(walls[i].rect, r)) ==> res == (r, s)
    decreases |walls|
  {
    if walls == [] then (r, s)
    else
      var last := BounceAll(walls[..|walls| - 1], r, s);
      assert forall i :: 0 <= i < |walls| - 1 ==> walls[..|walls| - 1][i] == walls[i];
      Bounce(walls[|walls| - 1], last.0, last.1)
  }

  lemma BounceAllSnoc(walls: seq<Wall>, w: Wall, r: Rect, s: State)
    ensures BounceAll(walls + [w], r, s) == Bounce(w, BounceAll(walls, r, s).0, BounceAll(walls, r, s).1)
  {
    assert (walls + [w])[..|walls|] == walls;
  }
}

=== FILE: wave.dfy ===
/** Waves sent out by special doors (entities/wave.py): a thin column that drifts
    sideways at constant speed and stuns every actor it touches. */
module Waves {
  import opened Geometry
  import opened Entities

  /** The sideways step of a wave moving in `direction` at `speed`. */
  function Drift(direction: int, speed: int): (dx: int)
    ensures direction == -1 ==> dx == -speed
    ensures direction == 1 ==> dx == speed
    ensures direction != -1 && direction != 1 ==> dx == 0
  {
    if direction == -1 then -speed else if direction == 1 then speed else 0
  }

  /** The state a wave moving in `direction` forces on an actor in state `s`. */
  function StunState(direction: int, s: State): (r: State)
    ensures direction == -1 ==> r == LeftStun
    ensures direction == 1 ==> r == RightStun
    ensures direction != -1 && direction != 1 ==> r == s
  {
    if direction == -1 then LeftStun else if direction == 1 then RightStun else s
  }

  class Wave {
    var rect: Rect
    const speedX: int
    const direction: int

    /** `Wave(x, y, direction, width, height)`: centred on (x, y), speed 4. */
    constructor(x: int, y: int, direction: int, width: nat := 5, height: nat := 70)
      ensures rect.Center() == Point(x, y) && rect.w == width && rect.h == height
      ensures speedX == 4 && this.direction == direction
      ensures rect == CenteredAt(Point(x, y), width, height)
    {
      rect := CenteredAt(Point(x, y), width, height);
      speedX := 4;
      this.direction := direction;
    }

    /** `check_collision`: a touched actor takes the wave's speed and is stunned in
        the wave's direction; an untouched one is left alone. */
    method CheckCollision(entity: Actor)
      modifies entity`speedX, entity`state
      ensures Overlaps(rect, old(entity.rect)) ==>
        entity.speedX == speedX && entity.state == StunState(direction, old(entity.state))
      ensures !Overlaps(rect, old(entity.rect)) ==>
        entity.speedX == old(entity.speedX) && entity.state == old(entity.state)
    {
      if Overlaps(rect, entity.rect) {
        entity.speedX := speedX;
        if direction == -1 {
          entity.state := LeftStun;
        } else if direction == 1 {
          entity.state := RightStun;
        }
      }
    }

    /** `update`: drift one step sideways; the wave never moves vertically. */
    method Update()
      modifies this`rect
      ensures rect == old(rect).ShiftX(Drift(direction, speedX))
    {
      if direction == -1 {
        rect := rect.ShiftX(-speedX);
      } else if direction == 1 {
        rect := rect.ShiftX(speedX);
      }
    }
  }
}
